=== FILE: README.md ===
# what-the-filter trace engine, in Dafny

This project models the trace engine of *what-the-filter*. The engine takes a
JavaScript program that defines `const whatTheFilter = (...) => { ...; return
<call>; }` and explains its chained array and `Object` calls step by step. The
model covers these parts:

- **Validation.** The structural checks on the program, each with its fixed
  message (`RootCall`, `Consts`).
- **The call queue.** The calls of the returned expression, in the order they
  run. Calls inside function literals are passed over (`CallQueue`).
- **Partial values.** A fragment's value is found by putting it in place of the
  first `return` and running the program in the sandbox (`PartialValue`,
  `FirstNode`).
- **The tracing loop** (`Execute`). It appends one step per traced call, with
  the method name, the argument texts, the input, the output, the per-element
  records and the warnings. It stops at the first throw and attaches a hint to
  the failure.
- **Step-by-step records.** The callback of `filter`, `map` and `reduce` is
  instrumented: it records its arguments and its output on every call. The
  program is rewired to return those records (`StepByStep`, `Types`).
- **Warnings and hints.** The warnings for mutating methods and for
  comparator-less `sort` (`Warnings`). The hints that explain a runtime error
  from its message and the last traced call (`ErrorHint`, `Render`).
- **Diagram nodes.** The node list the page draws from a result, and its two
  toggle operations (`DiagramNodes`).

The parser, the code generator and the sandboxed worker are not modelled. They
are the three fields of `Runtime.Env`, which every operation takes as a
parameter. The properties therefore hold for every parser, generator and
sandbox, except where a lemma states an assumption about the parser.

## Model

| member | source | states |
|---|---|---|
| Consts.InvalidCodeMessagesDistinct | src/execute/utils/const.ts:44-58 | no two validation checks share a message, so the message identifies the failed check |
| Consts.NameMessageQuotesMainName | src/execute/utils/const.ts:50 | the name message contains the main function's name in double quotes |
| Consts.MutatingExamplesEmpty | src/execute/utils/const.ts:21-42 | every mutating method has an empty argument example, so hints that test the example show none for them |
| Consts.ObjectAndCallbackExamplesNonEmpty | src/execute/utils/const.ts:8-20 | every `Object` method and every callback method has a non-empty argument example |
| Consts.InstrumentationNamesDistinct | src/execute/utils/const.ts:3-6 | the record variable, the records variable and the main function have three different names |
| Types.TypeOf | src/execute/utils/getErrorHint.ts:12 | `typeof` gives one of five type names, and "object" exactly for `null`, arrays and objects |
| Types.Lookup | src/execute/utils/types.ts:39-56 | a key that is found is present with that value; a key that is not found appears nowhere in the entries |
| Types.EncodeExecutionStep | src/execute/utils/types.ts:39-56 | a record is an object whose keys are its shape's field names, in declaration order |
| Types.LookupFindsFirst | src/execute/utils/types.ts:39-56 | a lookup returns the value of the first entry with the key |
| Types.ExecutionStepRoundTrip | src/execute/utils/types.ts:39-56 | decoding an encoded record of either shape gives back the same record |
| Types.FilterMapRoundTrip | src/execute/utils/types.ts:43-48 | the `filter`/`map` record shape survives encoding and decoding |
| Types.ReduceRoundTrip | src/execute/utils/types.ts:50-56 | the `reduce` record shape survives encoding and decoding |
| Ast.KindTestsReadTheTag | src/execute/utils/types.ts:93-139 | for a node whose tag is honest, each kind test holds exactly when the node's ESTree `type` is that kind |
| Ast.RebuildOwnChildren | src/execute/utils/getPartialValue.ts:20-29 | rebuilding a node from its own children gives the node back, so a walk that replaces nothing changes nothing |
| Ast.ContainsReturnIffInPreOrder | src/execute/utils/getPartialValue.ts:20-29 | a tree contains a `return` exactly when its pre-order walk lists one |
| Ast.AnyContainsReturnIffSome | src/execute/utils/getPartialValue.ts:20-29 | a list of subtrees contains a `return` exactly when one of them does |
| Ast.AnyContainsValueReturnIffSome | src/execute/utils/getStepByStepExecution.ts:96-113 | a list of subtrees contains a `return` with a value exactly when one of them does |
| Runtime.ReadPropertyOfUndefined | src/execute/execute.ts:62 | the engine's read-of-`undefined` message starts with "Cannot read properties of undefined" and ends with the quoted property name |
| Runtime.GenerateOptional | src/execute/execute.ts:58 | printing a present node gives the generator's text; printing a missing node throws the read-of-`type` message |
| Runtime.SandboxProgram | src/execute/utils/getPartialValue.ts:31-34 | the sandbox body holds the program text unchanged, followed by a call of the main function |
| FirstNode.SoleStatement | src/execute/utils/getFirstNodeFromSource.ts:8-9 | a program yields a node exactly when it has one statement, and the node is that statement |
| FirstNode.GetFirstNodeFromSource | src/execute/utils/getFirstNodeFromSource.ts:4-10 | parse errors propagate with their message; otherwise the result is the sole statement, or nothing when the program does not have exactly one |
| FirstNode.ExpressionOf | src/execute/utils/getPartialValue.ts:24-25 | a fragment gives an expression exactly when it is an expression statement, and the expression is its content |
| RootCall.GetRootCallExpression | src/execute/utils/getRootCallExpression.ts:27-62 | an accepted program yields a call expression; an empty body crashes with the read-of-`type` message |
| RootCall.AcceptsMainPrograms | src/execute/utils/getRootCallExpression.ts:27-62 | every program of the form `K whatTheFilter = (P) => { S; return C; }` with a call `C` is accepted, and `C` is its root call |
| RootCall.AcceptedProgramsAreMainPrograms | src/execute/utils/getRootCallExpression.ts:27-62 | every accepted program has that form, so the validator accepts exactly the main programs |
| RootCall.OneStatementIffNotSingle | src/execute/utils/getRootCallExpression.ts:30-31 | the one-statement error is raised exactly when the program does not have one statement |
| RootCall.NameReportedIffWrongName | src/execute/utils/getRootCallExpression.ts:33-45 | the name error is raised exactly when a lone declarator of a plain name declares some other name |
| RootCall.AsyncReportedOnlyForArrows | src/execute/utils/getRootCallExpression.ts:47-49 | the async error is raised only for an async arrow function |
| RootCall.AsyncFunctionExpressionReportsArrow | src/execute/utils/getRootCallExpression.ts:47-48 | an async `function` expression is reported as not an arrow, since the arrow check comes first |
| RootCall.ReturnMustBeLast | src/execute/utils/getRootCallExpression.ts:54-56 | a `return` followed by another statement is rejected: only the last statement counts |
| RootCall.EmptyBodyCrashes | src/execute/utils/getRootCallExpression.ts:51-56 | the validator crashes instead of rejecting exactly when the arrow body is an empty block |
| CallQueue.Visit | src/execute/utils/getCallExpressionQueue.ts:16-30 | the walk records only calls, and records nothing below a function literal |
| CallQueue.UnshiftAll | src/execute/utils/getCallExpressionQueue.ts:28 | putting each recorded call at the front reverses the recorded order in front of the queue so far |
| CallQueue.GetCallExpressionQueue | src/execute/utils/getCallExpressionQueue.ts:11-33 | the queue holds the recorded calls in reverse order of entry |
| CallQueue.QueueEndsWithRoot | src/execute/utils/getCallExpressionQueue.ts:11-33 | the root call is entered first and so runs last: it ends the queue |
| CallQueue.FunctionLiteralsContributeNothing | src/execute/utils/getCallExpressionQueue.ts:4-9 | a function literal contributes no call, since every call inside it is marked to be skipped |
| CallQueue.VisitMembers | src/execute/utils/getCallExpressionQueue.ts:16-30 | a node is recorded by the walk exactly when it is a call reached from the root without entering a function literal |
| CallQueue.VisitSeqMembers | src/execute/utils/getCallExpressionQueue.ts:16-30 | a node is recorded by the walk over a list of siblings exactly when the walk over one of them records it |
| CallQueue.QueueHoldsNodesOfTheTree | src/execute/utils/getCallExpressionQueue.ts:16-30 | every queued call is a node of the root call's tree, and the queue holds exactly the calls of the tree that are not inside a function literal |
| CallQueue.VisitSeqConcat | src/execute/utils/getCallExpressionQueue.ts:16-30 | the walk over two lists of siblings is the walk over the first, then over the second |
| CallQueue.QueueOfChain | src/execute/utils/getCallExpressionQueue.ts:11-33 | for `base.m1(a1)...mn(an)` with call-free receiver and arguments, the queue is the n prefixes of the chain, shortest first |
| CallQueue.QueueOfNestedObjectCalls | src/execute/utils/getCallExpressionQueue.ts:11-33 | in `Object.fromEntries(Object.entries(input).map(f))` the inner calls are queued before the calls that receive them |
| PartialValue.ReplaceFirstReturn | src/execute/utils/getPartialValue.ts:17-29 | the walk replaces something exactly when the tree holds a `return`, and leaves a tree without one unchanged |
| PartialValue.ReplaceSeqAt | src/execute/utils/getPartialValue.ts:20-29 | over a list of siblings, exactly one element changes, the first that holds a `return`; every element before and after it is kept |
| PartialValue.ReplaceFirstReturnAt | src/execute/utils/getPartialValue.ts:20-29 | on any node that is not a `return`, the node keeps its kind and fields, the first child holding a `return` is walked the same way, and every other child is kept |
| PartialValue.FirstReturn | src/execute/utils/getPartialValue.ts:20-29 | the first `return` in walk order exists exactly when the tree holds one |
| PartialValue.ReplaceSetsFirstReturn | src/execute/utils/getPartialValue.ts:22-27 | after the replacement, the first `return` of the tree returns the fragment |
| PartialValue.ReplaceIdempotent | src/execute/utils/getPartialValue.ts:17-29 | replacing twice with the same fragment is replacing once |
| PartialValue.PartialTree | src/execute/utils/getPartialValue.ts:17-29 | a fragment that is not a single expression leaves the program unchanged; otherwise the first `return` returns the fragment |
| PartialValue.PartialTreeOfMainProgram | src/execute/utils/getPartialValue.ts:17-29 | in an accepted program with no other `return`, the fragment replaces the root call in the final `return` |
| PartialValue.EarlierReturnIsReplacedInstead | src/execute/utils/getPartialValue.ts:22-27 | when an earlier statement holds a `return`, that one is replaced and the final `return` is left alone |
| PartialValue.GetPartialValue | src/execute/utils/getPartialValue.ts:13-35 | parse errors of the fragment propagate; otherwise the value is the sandbox's result for the altered program, whose shape `PartialTree` and `PartialTreeOfMainProgram` state |
| StepByStep.WrapIdentifierCallback | src/execute/utils/getStepByStepExecution.ts:37-44 | a callback passed by name becomes a one-parameter, non-async concise arrow function |
| StepByStep.RecordProperties | src/execute/utils/getStepByStepExecution.ts:76-87 | the record literal has one property per parameter, in order, and ends with `output: undefined` |
| StepByStep.RecordKeysMatchExecutionSteps | src/execute/utils/getStepByStepExecution.ts:219-232 | the keys the instrumented callbacks write are exactly the field names of the two record shapes |
| StepByStep.OutputAssignmentHasNoValueReturn | src/execute/utils/getStepByStepExecution.ts:101-111 | the assignment that replaces a `return` holds no valued `return` when its value holds none |
| StepByStep.RewriteReturns | src/execute/utils/getStepByStepExecution.ts:96-113 | after the rewrite no valued `return` is left, and a tree without one is unchanged |
| StepByStep.RewriteReturnsSeq | src/execute/utils/getStepByStepExecution.ts:96-113 | a list of siblings is rewritten element by element |
| StepByStep.RewriteValuedReturn | src/execute/utils/getStepByStepExecution.ts:98-111 | `return v` becomes the assignment of the rewritten `v` to the record's output |
| StepByStep.RecordHasNoValueReturn | src/execute/utils/getStepByStepExecution.ts:76-91 | the inserted record declaration holds no valued `return`, so the rewrite leaves it intact |
| StepByStep.BodyStatements | src/execute/utils/getStepByStepExecution.ts:58-68 | a block body keeps its statements; a concise body becomes a single `return` of it |
| StepByStep.Prepared | src/execute/utils/getStepByStepExecution.ts:57-91 | the callback becomes a `function` expression with a block body, keeping its async flag |
| StepByStep.InstrumentCallback | src/execute/utils/getStepByStepExecution.ts:46-123 | only function callbacks are instrumented; the body is the record declaration, the push, the rewritten statements and `return executionStep.output` |
| StepByStep.PreparedRewritten | src/execute/utils/getStepByStepExecution.ts:76-113 | after the rewrite the body starts with the record and the push, followed by each original statement rewritten |
| StepByStep.InstrumentedBody | src/execute/utils/getStepByStepExecution.ts:76-123 | the instrumented body is the rewritten prepared body followed by the final `return` |
| StepByStep.InstrumentConciseArrow | src/execute/utils/getStepByStepExecution.ts:57-123 | `(p) => e` becomes a function whose four statements record, push, assign the rewritten `e` to the output and return it |
| StepByStep.InstrumentNamedCallback | src/execute/utils/getStepByStepExecution.ts:37-123 | a callback passed by name is instrumented as `(...args) => name(...args)` |
| StepByStep.Rewire | src/execute/utils/getStepByStepExecution.ts:125-179 | once a `return` has been replaced the flag stays set, and every node but a `return` keeps its kind |
| StepByStep.AnyDeclaresMainIffSome | src/execute/utils/getStepByStepExecution.ts:147-152 | a list of siblings declares the main function exactly when one of them does |
| StepByStep.RewireIdentity | src/execute/utils/getStepByStepExecution.ts:125-179 | a subtree with no main declarator and no `return` left to replace is unchanged |
| StepByStep.StepsDeclarationInert | src/execute/utils/getStepByStepExecution.ts:160-162 | the inserted `const executionSteps = []` is not touched by the rest of the walk |
| StepByStep.RewireMainProgram | src/execute/utils/getStepByStepExecution.ts:125-179 | an accepted program becomes `const executionSteps = []; S; <instrumented call>; return executionSteps;` |
| StepByStep.InstrumentedCall | src/execute/utils/getStepByStepExecution.ts:37-52 | a call without arguments throws; a first argument that is no function gives nothing; otherwise only the first argument is replaced by the instrumented callback |
| StepByStep.GetTransformedCallback | src/execute/utils/getStepByStepExecution.ts:29-182 | no arguments throws, a non-function callback gives nothing, and a program is produced only for an instrumented call |
| StepByStep.StepParameters | src/execute/utils/getStepByStepExecution.ts:219-234 | only `filter`, `map` and `reduce` are instrumented, with the parameters of their record shape |
| StepByStep.GetStepByStepExecution | src/execute/utils/getStepByStepExecution.ts:184-235 | other methods give no records; records come from the sandbox run of the transformed program |
| StepByStep.TransformedCallbackOf | src/execute/utils/getStepByStepExecution.ts:125-181 | when the printed instrumented call parses to a single expression, the program is rewired around that expression and printed |
| StepByStep.TransformedMainProgram | src/execute/utils/getStepByStepExecution.ts:125-181 | for any call of an accepted program's chain (the root call or an earlier one), whatever single expression the parser reads back from the printed instrumented call, the transformed text of the program is the printed program rewired around it |
| StepByStep.StepByStepOfMainProgram | src/execute/utils/getStepByStepExecution.ts:184-235 | for any traced `filter`, `map` or `reduce` call of an accepted program, not only its root call, and whatever single expression the parser reads back from the printed instrumented call, the records are the sandbox's result for the program rewired around it |
| Warnings.WarnedMethodRoundTrip | src/execute/utils/getWarnings.ts:8-12 | the mutation warning names its method: the method can be read back from the warning |
| Warnings.SortWarningIsNoMutationWarning | src/execute/utils/getWarnings.ts:8-18 | the sort warning is never a mutation warning |
| Warnings.GetWarnings | src/execute/utils/getWarnings.ts:4-21 | a mutating method gets the mutation warning first; the sort warning appears exactly for `sort()` without arguments |
| Warnings.ObjectMethodsHaveNoWarnings | src/execute/utils/getWarnings.ts:4-21 | static `Object` methods never get a warning |
| Render.Digits | src/execute/utils/getErrorHint.ts:16 | a number's decimal text is non-empty, all digits, with no leading zero |
| Render.DigitsRoundTrip | src/execute/utils/getErrorHint.ts:16 | reading back the decimal text gives the number |
| Render.EscapeChar | src/execute/utils/getErrorHint.ts:16 | a character is kept as it is or written as an escape starting with a backslash |
| Render.EscapeRoundTrip | src/execute/utils/getErrorHint.ts:16 | unescaping a JSON-escaped string gives the string back |
| Render.JsonText | src/execute/utils/getErrorHint.ts:16 | `JSON.stringify` gives no text exactly for `undefined` |
| Render.TextsAgreeOnScalars | src/execute/utils/getErrorHint.ts:16-20 | `JSON.stringify` and template conversion agree on `null`, booleans and numbers |
| ErrorHint.MethodPatternMatchesName | src/execute/utils/getErrorHint.ts:62 | a method name used as a regular expression matches the name itself |
| ErrorHint.PatternConcat | src/execute/utils/getErrorHint.ts:62 | a concatenated pattern matches where its first part matches, followed by its second |
| ErrorHint.ReadPropertyMessageMatches | src/execute/utils/getErrorHint.ts:77-81 | the engine's own read-of-`undefined` message for a property is recognised by the read-property pattern of that name |
| ErrorHint.MissingMethodMessageMatches | src/execute/utils/getErrorHint.ts:61-63 | the engine's `x.m is not a function` message is recognised by the not-a-function pattern of `m` |
| ErrorHint.NextQuote | src/execute/utils/getErrorHint.ts:19 | the next double quote after a position, or none |
| ErrorHint.UnquoteKeysWithoutQuotes | src/execute/utils/getErrorHint.ts:18-19 | key unquoting leaves a text without double quotes unchanged |
| ErrorHint.UnquoteLeadingKey | src/execute/utils/getErrorHint.ts:18-19 | a leading `"key":` becomes `key: ` |
| ErrorHint.SpaceCommasRoundTrip | src/execute/utils/getErrorHint.ts:20 | removing the space after each comma undoes the comma spacing |
| ErrorHint.InputText | src/execute/utils/getErrorHint.ts:11-21 | `undefined` is printed as "undefined", and other non-objects as their JSON text |
| ErrorHint.InputType | src/execute/utils/getErrorHint.ts:12-15 | the type named in the hints is never "array"; an array is named "object" |
| ErrorHint.ExampleText | src/execute/utils/const.ts:8-30 | a method with an example entry is given that example |
| ErrorHint.ForgotCallbackMessage | src/execute/utils/getErrorHint.ts:36 | as written, the message ends in ".`"; corrected, in "`." |
| ErrorHint.ObjectCallee | src/execute/utils/getErrorHint.ts:135-136 | as written, `Object.` is always put in front; corrected, the callee starts with `Object.` and a name that already has it is kept |
| ErrorHint.MatchingRule | src/execute/utils/getErrorHint.ts:23-142 | some rule matches exactly when a pattern explains the message; the missing-callback rule matches exactly for its message and methods; the flatMap rule matches exactly for the flatMap message; the chosen rule's pattern matches; the read-property, not-an-entry and bad-argument rules are chosen only when the patterns tried before them fail |
| ErrorHint.RuleExamples | src/execute/utils/getErrorHint.ts:37-138 | the not-a-function hint has no example exactly when the method has no example arguments; every other rule has exactly one example |
| ErrorHint.RuleHint | src/execute/utils/getErrorHint.ts:35-139 | the same example counts, for the hint built for a rule |
| ErrorHint.Hint | src/execute/utils/getErrorHint.ts:4-143 | there is a hint exactly when there is a last step and some pattern explains the message for its method; it has no example exactly for a not-a-function error on a method without example arguments, and otherwise exactly one |
| ErrorHint.GetErrorHintAsWritten | src/execute/utils/getErrorHint.ts:4-143 | the hint with both texts as written: present exactly when there is a last step and the message is explained, with the example counts of `Hint` |
| ErrorHint.GetErrorHint | src/execute/utils/getErrorHint.ts:4-143 | the hint with both texts corrected: present exactly when there is a last step and the message is explained, with the example counts of `Hint` |
| ErrorHint.NoHintWithoutStep | src/execute/utils/getErrorHint.ts:8 | without a last step there is no hint |
| ErrorHint.NoCapitalCNoRead | src/execute/utils/getErrorHint.ts:77-81 | a message without a capital C never matches the read-property pattern |
| ErrorHint.NotIterableRule | src/execute/utils/getErrorHint.ts:125-130 | `<subject> is not iterable`, for a subject without a capital C and shorter than the method name, selects the bad-argument rule |
| ErrorHint.DoubledObjectPrefix | src/execute/utils/getErrorHint.ts:125-140 | as written, `Object.fromEntries(null)` gets examples that call `Object.Object.fromEntries` |
| ErrorHint.BadArgumentExamplesCallTheMethod | src/execute/utils/getErrorHint.ts:125-140 | corrected, the bad-argument examples of every `Object` method call that method, with the input and with its example |
| ErrorHint.FromEntriesOfNullHint | src/execute/utils/getErrorHint.ts:125-140 | corrected, `Object.fromEntries(null)` gets examples that call `Object.fromEntries` |
| ErrorHint.PeriodInsideBackQuotes | src/execute/utils/getErrorHint.ts:23-45 | as written, `map` without a callback is told "... to `map.`" |
| ErrorHint.MissingCallbackNamesTheMethod | src/execute/utils/getErrorHint.ts:23-45 | corrected, every callback-first method is named in back-quotes followed by the period, with its example call |
| ErrorHint.ReadOfUndefinedHint | src/execute/utils/getErrorHint.ts:77-91 | reading the method from `undefined` is explained as calling it on `undefined`, unless the message also matches the not-a-function pattern |
| ErrorHint.ReadPropertyRule | src/execute/utils/getErrorHint.ts:61-81 | the read-of-`undefined` message for a method name selects the read-property rule |
| ErrorHint.ArrayNamedObject | src/execute/utils/getErrorHint.ts:12-15 | a method missing on an array input is reported as missing on "object" |
| ErrorHint.NoLetterSNotAFunction | src/execute/utils/getErrorHint.ts:61-63 | a message without a lower-case s never matches the not-a-function pattern |
| ErrorHint.EmptyReduceRule | src/execute/utils/getErrorHint.ts:61-97 | the empty-reduce message selects the empty-reduce rule, whatever the last method |
| ErrorHint.EmptyReduceHint | src/execute/utils/getErrorHint.ts:93-108 | the empty-reduce message gives the fixed message about the initial value and the one example adding `, 0`, whatever the last method |
| ErrorHint.MissingFlatMapperHint | src/execute/utils/getErrorHint.ts:47-59 | the flatMap message gives the flatMap message and the one example `input.flatMap()` against the call with flatMap's example argument, whatever the last method |
| ErrorHint.NotEntriesRule | src/execute/utils/getErrorHint.ts:61-112 | a not-an-entry message that neither the not-a-function nor the read-property pattern explains selects the not-an-entry rule |
| ErrorHint.NotEntriesHint | src/execute/utils/getErrorHint.ts:110-123 | such a message gives the entry-format message and the one example calling `Object.fromEntries` on the input's text against the fixed entries array |
| ErrorHint.NotAFunctionHintOf | src/execute/utils/getErrorHint.ts:61-75 | a missing method is explained with the input's text and type; the one example calls the method on the input and on `[1, 2, 3]`, and is left out when the method has no example arguments |
| ErrorHint.ReadOfMissingHintOf | src/execute/utils/getErrorHint.ts:77-91 | a read of a missing method shows the input as template conversion prints it, in the message and in the one example |
| ErrorHint.CorrectionTouchesTwoRules | src/execute/utils/getErrorHint.ts:23-142 | for every error not explained by the missing-callback or bad-argument rule, the corrected hint is the hint as written |
| Execute.MethodName | src/execute/execute.ts:41-44 | a step is named `Object.<name>` exactly for static `Object` calls, and ends with the property name |
| Execute.ArgumentTexts | src/execute/execute.ts:46-48 | each argument is printed, in order |
| Execute.ReceiverSource | src/execute/execute.ts:54-60 | the first input comes from the receiver, or from the parenthesised first argument of a static `Object` call; a static call without arguments throws |
| Execute.StepInput | src/execute/execute.ts:54-63 | a later call reads the output at queue position minus one of the steps so far, and throws when that is past their end |
| Execute.ExecutionStepsOf | src/execute/execute.ts:66-72 | records are kept when the instrumented run succeeds, and are missing when it throws; which records the run yields is stated by `StepByStep.GetStepByStepExecution` and `StepByStep.StepByStepOfMainProgram` |
| Execute.TraceCall | src/execute/execute.ts:41-53 | one step is appended, with the call's name and printed arguments, after the steps so far, which are kept |
| Execute.TraceCallOutcome | src/execute/execute.ts:54-73 | the call goes on exactly when its input and its output are both computed, and then the step holds them and its warnings; a failed step keeps an `undefined` output and no records, and a failed input read keeps an `undefined` input and that error's message |
| Execute.TracedCalls | src/execute/execute.ts:30-39 | the traced calls of a queue, a subsequence of it |
| Execute.RunFrom | src/execute/execute.ts:29-74 | steps are only appended; a loop that stops on a throw has appended at least one step |
| Execute.RunFromShape | src/execute/execute.ts:29-74 | a finished loop has one step per traced call, named after it, in queue order; a failed loop stops within them |
| Execute.Trace | src/execute/execute.ts:29-74 | the loop computes the same progress as the recursive definition |
| Execute.Failure | src/execute/execute.ts:81-92 | a failed run keeps its steps, and carries the message with the hint for the last step |
| Execute.Execute | src/execute/execute.ts:21-93 | validation errors propagate with their kind; success holds exactly when there is no error; a failure's hint is the one for its last step; a parse error gives no steps |
| Execute.InputFlowsAlongTheChain | src/execute/execute.ts:61-63 | with no call passed over, each step's input is the previous step's output |
| Execute.ChainedInputs | src/execute/execute.ts:61-65 | the whole chain: inputs and outputs line up from the first step to the last |
| Execute.PassedOverCallShiftsTheInput | src/execute/execute.ts:29-63 | a passed-over call before a method call leaves that call reading its own unset output: its input is `undefined` |
| Execute.TwoPassedOverCallsThrow | src/execute/execute.ts:29-63 | two passed-over calls before a method call make it read past the steps, and the run fails |
| Execute.InstrumentationFailureIsSwallowed | src/execute/execute.ts:66-72 | a throw from the instrumented run does not fail the call, which keeps its output |
| Execute.FailureHintIsAboutTheFailingCall | src/execute/execute.ts:81-92 | a failing loop has at least one step, and the hint is for the step of the call that failed |
| Execute.ParseErrorHasNoHint | src/execute/execute.ts:24-25 | a parse error is reported with no steps and no hint |
| DiagramNodes.StepAt | src/components/App/App.tsx:24 | reading a step past the end gives nothing |
| DiagramNodes.StepNodes | src/components/App/App.tsx:28-47 | each step gives a method node, followed by a value node except after the last step; ids are taken in order |
| DiagramNodes.GenerateNodes | src/components/App/App.tsx:21-55 | the node count is right; ids are used in order and every node starts closed; the start node comes first, each step's nodes come in place, and the end node carries the error |
| DiagramNodes.NodeKindsAlternate | src/components/App/App.tsx:21-55 | between the start and the end node, method and value nodes alternate, starting with a method node |
| DiagramNodes.StepNodeKinds | src/components/App/App.tsx:28-47 | the middle nodes alternate between method and value, method first |
| DiagramNodes.ShowResult | src/components/App/App.tsx:86-91 | a result without steps is refused with "Empty result"; otherwise it is drawn with 2n+1 nodes |
| DiagramNodes.Toggle | src/components/App/App.tsx:117-123 | exactly the nodes with the given id change their open flag; everything else is kept |
| DiagramNodes.ToggleTwice | src/components/App/App.tsx:117-123 | toggling the same node twice restores the list |
| DiagramNodes.TogglesCommute | src/components/App/App.tsx:117-123 | toggles of two nodes commute |
| DiagramNodes.ToggleAll | src/components/App/App.tsx:109-115 | every node but the method nodes gets the given open flag, and nothing else changes |
| DiagramNodes.ToggleAllIdempotent | src/components/App/App.tsx:109-115 | toggling all twice with the same flag is toggling all once |
| DiagramNodes.ToggleAllOverrides | src/components/App/App.tsx:109-115 | the last toggle-all wins |
| DiagramNodes.OpenAllOfFreshDiagram | src/components/App/App.tsx:21-55 | opening all values of a fresh diagram opens every node but the method nodes |

## Left out

- The JavaScript parser and code generator are not modelled. They are parameters. `StepByStep.StepByStepOfMainProgram`, `StepByStep.TransformedMainProgram` and `StepByStep.TransformedCallbackOf` assume only that the parser reads the printed instrumented call back as one expression statement, whatever its expression; they conclude about the program rewired around that expression.
- The sandbox (src/execute/utils/sandbox.ts) is not modelled. It is a parameter from program text to a value or an error message. Its worker, its iframe and its 5000 ms time-out are I/O.
- The `async`/`await` scheduling is left out. Every call is awaited in turn, so the model runs them in sequence.
- Seven kinds of JavaScript value are modelled: `undefined`, `null`, booleans, integers, strings, arrays and plain objects with string keys. The other values a structured clone can return are left out: Date, Map, Set, RegExp, BigInt, `NaN`, the infinities, `-0`, typed arrays and cyclic objects. The `typeof` and `JSON.stringify` branches of getErrorHint.ts:12-20 are therefore stated only for the seven kinds. Numbers are integers, because the engine never computes with them. `JSON.stringify` of non-integer numbers and of lone surrogates is not modelled.
- Method names are used as regular expressions in the hints. Only `.` (any character) and `$` (never matches inside a message) are modelled as special. A name holding other metacharacters is read as plain text.
- `ARGUMENT_EXAMPLES[m]` for a name that is not a key reads as "undefined". Prototype keys such as `constructor` are not modelled.
- Node ids in the diagram come from `uuidv4`. They are a parameter, one id per node.
- React state, the toast, the address bar and the rest of App.tsx's UI are left out. Only the node builders and the two toggle updates are modelled.
- A field the source leaves unset on a step reads as `undefined`. The model writes `Undefined`, or `None` for the optional lists.
- The deep copies of the tree and the node (getPartialValue.ts:18 and getStepByStepExecution.ts:216-217) are `JSON.parse(JSON.stringify(…))`. The model's trees are immutable, so the copies are the identity. That is not so for a tree holding a BigInt literal such as `1n` (an `Ast.RawLit`). `JSON.stringify` throws on its bigint `value`, so in the program the partial value fails and the run ends in a failure (execute.ts:81-92), and the instrumented run's throw is swallowed (execute.ts:66-72). The model does not throw there.
- The `skip` mark that getCallExpressionQueue.ts sets on nested calls is modelled as the walk's `inFunction` flag. The mark is not stored in the tree.
- The snippets the source parses from templates (the record declaration, the push, the output assignment, `const executionSteps = []`) are built as trees directly. Their parse is not modelled.
- The MemberExpression `computed` flag is ignored by the traced-call test, as in the source.
- ErrorHint.InputText: states the text only for `undefined` and for non-object values. For objects and arrays it only guarantees the unquoted keys and spaced commas, which `UnquoteLeadingKey`, `UnquoteKeysWithoutQuotes` and `SpaceCommasRoundTrip` state piece by piece. No whole-object example is proved.
- ErrorHint.MatchingRule: for the empty-reduce rule the contract states only its message. That no earlier pattern explains that message is stated by `ErrorHint.EmptyReduceRule`.
- ErrorHint.RuleHint: its contract states only the example counts. The texts of each rule are stated by `MissingFlatMapperHint`, `EmptyReduceHint`, `NotEntriesHint`, `NotAFunctionHintOf`, `ReadOfMissingHintOf`, `MissingCallbackNamesTheMethod` and `BadArgumentExamplesCallTheMethod`.
- Execute.Execute: attaches the corrected hint `ErrorHint.GetErrorHint`, not the hint as written (execute.ts:89). The two differ only for the missing-callback and bad-argument rules (`ErrorHint.CorrectionTouchesTwoRules`); the text as written for those is stated by `ErrorHint.PeriodInsideBackQuotes` and `ErrorHint.DoubledObjectPrefix`.
- Execute.Failure: attaches the corrected hint, for the same reason as `Execute.Execute`.
- StepByStep.GetStepByStepExecution: for a general program, only states where the records come from. Its exact result is stated for accepted programs by `StepByStep.StepByStepOfMainProgram`.
- StepByStep.Rewire: states only that it keeps node kinds. Its effect on accepted programs is stated by `StepByStep.RewireMainProgram`.

## Findings

| source | as written | input that shows it | evidently intended | confidence | as-written member | corrected member |
|---|---|---|---|---|---|---|
| src/execute/utils/getErrorHint.ts:135-136 | the bad-argument examples put `Object.` in front of the last method, whose name already starts with `Object.` (execute.ts:52) | last step `Object.fromEntries` with input `null`, message "null is not iterable" | examples calling `Object.fromEntries(null)` and `Object.fromEntries([['a', 1], ['b', 2], ['c', 3]])` | high; not executed | ErrorHint.DoubledObjectPrefix | ErrorHint.BadArgumentExamplesCallTheMethod |
| src/execute/utils/getErrorHint.ts:36 | the missing-callback message puts its final period before the closing back-quote, inside the quoted method name | last step `map`, message "undefined is not a function" | "... as an argument to `map`." (the period after the back-quotes, as the `flatMap` message at line 51 writes it) | high; not executed | ErrorHint.PeriodInsideBackQuotes | ErrorHint.MissingCallbackNamesTheMethod |

`Execute` attaches the corrected hint, `ErrorHint.GetErrorHint`. The hint as
written is `ErrorHint.GetErrorHintAsWritten`.

Three behaviours are kept as written, because they are not clearly mistakes:

- A step's input is read at its queue position minus one (execute.ts:62). When
  a call is passed over, that position no longer lines up with the steps:
  `Execute.PassedOverCallShiftsTheInput` and `Execute.TwoPassedOverCallsThrow`.
- `Array.isArray` is applied to the type name rather than the input
  (getErrorHint.ts:13), so arrays are named "object": `ErrorHint.ArrayNamedObject`.
- An empty main body crashes instead of raising the return-statement error
  (getRootCallExpression.ts:54): `RootCall.EmptyBodyCrashes`.

=== FILE: ast.dfy ===
/**
 * The ESTree syntax tree the trace engine works on, reduced to the node kinds
 * the engine inspects or builds. Every other kind is an `Other` node that keeps
 * its ESTree `type` and its children, so that walks still see what is inside it.
 * Children are listed in the order the tree walker visits them (the estraverse
 * visitor keys).
 */
module Ast {
  import opened Wrappers

  /**
   * Literal values; the engine only builds numeric ones (`arguments[i]`).
   * `RawLit` keeps the source text of every other literal: booleans, `null`,
   * regular expressions, BigInt literals and numbers that are not natural.
   */
  datatype Lit = NumberLit(n: nat) | StringLit(s: string) | RawLit(raw: string)

  datatype Node =
    | Program(programBody: seq<Node>)
    | Identifier(name: string)
    | Literal(lit: Lit)
    | VariableDeclaration(declKind: string, declarations: seq<Node>)
    | VariableDeclarator(id: Node, init: Option<Node>)
    | ArrowFunctionExpression(params: seq<Node>, body: Node, isAsync: bool)
    | FunctionExpression(fnId: Option<Node>, params: seq<Node>, body: Node, isAsync: bool)
    | BlockStatement(blockBody: seq<Node>)
    | ReturnStatement(argument: Option<Node>)
    | ExpressionStatement(expression: Node)
    | CallExpression(callee: Node, arguments: seq<Node>)
    | MemberExpression(obj: Node, property: Node, computed: bool)
    | ArrayExpression(elements: seq<Node>)
    | ObjectExpression(properties: seq<Node>)
    | Property(key: Node, value: Node)
    | AssignmentExpression(operator: string, left: Node, right: Node)
    | SpreadElement(spread: Node)
    | RestElement(rest: Node)
    | Other(otherType: string, children: seq<Node>)

  /** What the parser returns for a whole source text. */
  type Tree = n: Node | n.Program? witness Program([])

  /** The ESTree `type` tag of a node. */
  function TypeTag(n: Node): string
  {
    match n
    case Program(_) => "Program"
    case Identifier(_) => "Identifier"
    case Literal(_) => "Literal"
    case VariableDeclaration(_, _) => "VariableDeclaration"
    case VariableDeclarator(_, _) => "VariableDeclarator"
    case ArrowFunctionExpression(_, _, _) => "ArrowFunctionExpression"
    case FunctionExpression(_, _, _, _) => "FunctionExpression"
    case BlockStatement(_) => "BlockStatement"
    case ReturnStatement(_) => "ReturnStatement"
    case ExpressionStatement(_) => "ExpressionStatement"
    case CallExpression(_, _) => "CallExpression"
    case MemberExpression(_, _, _) => "MemberExpression"
    case ArrayExpression(_) => "ArrayExpression"
    case ObjectExpression(_) => "ObjectExpression"
    case Property(_, _) => "Property"
    case AssignmentExpression(_, _, _) => "AssignmentExpression"
    case SpreadElement(_) => "SpreadElement"
    case RestElement(_) => "RestElement"
    case Other(t, _) => t
  }

  /** The tags that have a constructor of their own; an `Other` node never carries one. */
  const ModelledTags: set<string> := {
    "Program", "Identifier", "Literal", "VariableDeclaration", "VariableDeclarator",
    "ArrowFunctionExpression", "FunctionExpression", "BlockStatement", "ReturnStatement",
    "ExpressionStatement", "CallExpression", "MemberExpression", "ArrayExpression",
    "ObjectExpression", "Property", "AssignmentExpression", "SpreadElement", "RestElement"
  }

  /** The node is tagged honestly: an `Other` node does not pose as a modelled kind. */
  predicate HonestTag(n: Node)
  {
    n.Other? ==> n.otherType !in ModelledTags
  }

  // The node-kind tests of the engine, one per tag it inspects.
  predicate IsIdentifier(n: Node) { n.Identifier? }
  predicate IsBlockStatement(n: Node) { n.BlockStatement? }
  predicate IsReturnStatement(n: Node) { n.ReturnStatement? }
  predicate IsVariableDeclaration(n: Node) { n.VariableDeclaration? }
  predicate IsVariableDeclarator(n: Node) { n.VariableDeclarator? }
  predicate IsExpressionStatement(n: Node) { n.ExpressionStatement? }
  predicate IsCallExpression(n: Node) { n.CallExpression? }
  predicate IsMemberExpression(n: Node) { n.MemberExpression? }
  predicate IsArrayExpression(n: Node) { n.ArrayExpression? }
  predicate IsObjectExpression(n: Node) { n.ObjectExpression? }
  predicate IsArrowFunctionExpression(n: Node) { n.ArrowFunctionExpression? }
  predicate IsFunctionExpression(n: Node) { n.FunctionExpression? }

  /** A function literal of either form: the scope boundary of the call-chain walk. */
  predicate IsFunctionLiteral(n: Node)
  {
    n.ArrowFunctionExpression? || n.FunctionExpression?
  }

  /** Each kind test holds exactly when the node's `type` tag is that kind's name. */
  lemma KindTestsReadTheTag(n: Node)
    requires HonestTag(n)
    ensures IsIdentifier(n) <==> TypeTag(n) == "Identifier"
    ensures IsBlockStatement(n) <==> TypeTag(n) == "BlockStatement"
    ensures IsReturnStatement(n) <==> TypeTag(n) == "ReturnStatement"
    ensures IsVariableDeclaration(n) <==> TypeTag(n) == "VariableDeclaration"
    ensures IsVariableDeclarator(n) <==> TypeTag(n) == "VariableDeclarator"
    ensures IsExpressionStatement(n) <==> TypeTag(n) == "ExpressionStatement"
    ensures IsCallExpression(n) <==> TypeTag(n) == "CallExpression"
    ensures IsMemberExpression(n) <==> TypeTag(n) == "MemberExpression"
    ensures IsArrayExpression(n) <==> TypeTag(n) == "ArrayExpression"
    ensures IsObjectExpression(n) <==> TypeTag(n) == "ObjectExpression"
    ensures IsArrowFunctionExpression(n) <==> TypeTag(n) == "ArrowFunctionExpression"
    ensures IsFunctionExpression(n) <==> TypeTag(n) == "FunctionExpression"
  {
  }

  function OptionChildren(o: Option<Node>): (cs: seq<Node>)
    ensures |cs| <= 1
    ensures o.Some? <==> |cs| == 1
    ensures o.Some? ==> cs[0] == o.value
  {
    match o
    case None => []
    case Some(v) => [v]
  }

  /** The children of a node, in the order the tree walker visits them. */
  function Children(n: Node): (cs: seq<Node>)
    ensures forall i :: 0 <= i < |cs| ==> (n decreases to cs[i])
  {
    match n
    case Program(b) => b
    case Identifier(_) => []
    case Literal(_) => []
    case VariableDeclaration(_, ds) => ds
    case VariableDeclarator(id, init) => [id] + OptionChildren(init)
    case ArrowFunctionExpression(ps, b, _) => ps + [b]
    case FunctionExpression(fid, ps, b, _) => OptionChildren(fid) + ps + [b]
    case BlockStatement(b) => b
    case ReturnStatement(a) => OptionChildren(a)
    case ExpressionStatement(e) => [e]
    case CallExpression(c, args) => [c] + args
    case MemberExpression(o, p, _) => [o, p]
    case ArrayExpression(es) => es
    case ObjectExpression(ps) => ps
    case Property(k, v) => [k, v]
    case AssignmentExpression(_, l, r) => [l, r]
    case SpreadElement(a) => [a]
    case RestElement(a) => [a]
    case Other(_, cs) => cs
  }

  /** Puts new children into a node of the same kind; every non-child field is kept. */
  function Rebuild(n: Node, cs: seq<Node>): (r: Node)
    requires |cs| == |Children(n)|
    ensures Children(r) == cs
    ensures TypeTag(r) == TypeTag(n)
    ensures n.Program? ==> r.Program?
    ensures n.ReturnStatement? <==> r.ReturnStatement?
    ensures n.BlockStatement? ==> r.BlockStatement?
    ensures n.VariableDeclarator? ==> r.VariableDeclarator? && (r.init.Some? <==> n.init.Some?)
    ensures n.ArrowFunctionExpression? ==> r.ArrowFunctionExpression? && r.isAsync == n.isAsync
    ensures n.FunctionExpression? ==> r.FunctionExpression? && r.isAsync == n.isAsync
  {
    match n
    case Identifier(_) => n
    case Literal(_) => n
    case ArrowFunctionExpression(_, _, _) => RebuildFunction(n, cs)
    case FunctionExpression(_, _, _, _) => RebuildFunction(n, cs)
    case Program(_) => RebuildList(n, cs)
    case VariableDeclaration(_, _) => RebuildList(n, cs)
    case BlockStatement(_) => RebuildList(n, cs)
    case ArrayExpression(_) => RebuildList(n, cs)
    case ObjectExpression(_) => RebuildList(n, cs)
    case Other(_, _) => RebuildList(n, cs)
    case _ => RebuildFixed(n, cs)
  }

  /** The kinds whose children are exactly one list. */
  predicate HasChildList(n: Node)
  {
    n.Program? || n.VariableDeclaration? || n.BlockStatement? || n.ArrayExpression? || n.ObjectExpression? || n.Other?
  }

  function RebuildList(n: Node, cs: seq<Node>): (r: Node)
    requires HasChildList(n) && |cs| == |Children(n)|
    ensures Children(r) == cs && TypeTag(r) == TypeTag(n) && HasChildList(r)
    ensures n.Program? ==> r.Program?
    ensures n.BlockStatement? ==> r.BlockStatement?
  {
    match n
    case Program(_) => Program(cs)
    case VariableDeclaration(k, _) => VariableDeclaration(k, cs)
    case BlockStatement(_) => BlockStatement(cs)
    case ArrayExpression(_) => ArrayExpression(cs)
    case ObjectExpression(_) => ObjectExpression(cs)
    case Other(t, _) => Other(t, cs)
  }

  function RebuildFunction(n: Node, cs: seq<Node>): (r: Node)
    requires (n.ArrowFunctionExpression? || n.FunctionExpression?) && |cs| == |Children(n)|
    ensures Children(r) == cs && TypeTag(r) == TypeTag(n)
    ensures n.ArrowFunctionExpression? ==> r.ArrowFunctionExpression? && r.isAsync == n.isAsync
    ensures n.FunctionExpression? ==> r.FunctionExpression? && r.isAsync == n.isAsync
  {
    if n.ArrowFunctionExpression? then
      assert cs[..|cs| - 1] + [cs[|cs| - 1]] == cs;
      ArrowFunctionExpression(cs[..|cs| - 1], cs[|cs| - 1], n.isAsync)
    else
      var k := |OptionChildren(n.fnId)|;
      var id := if n.fnId.Some? then Some(cs[0]) else None;
      assert OptionChildren(id) == cs[..k];
      assert cs == cs[..k] + cs[k..|cs| - 1] + [cs[|cs| - 1]];
      FunctionExpression(id, cs[k..|cs| - 1], cs[|cs| - 1], n.isAsync)
  }

  function RebuildFixed(n: Node, cs: seq<Node>): (r: Node)
    requires !HasChildList(n) && !n.Identifier? && !n.Literal?
    requires !n.ArrowFunctionExpression? && !n.FunctionExpression? && |cs| == |Children(n)|
    ensures Children(r) == cs && TypeTag(r) == TypeTag(n)
    ensures n.ReturnStatement? <==> r.ReturnStatement?
    ensures n.VariableDeclarator? ==> r.VariableDeclarator? && (r.init.Some? <==> n.init.Some?)
    ensures !HasChildList(r) && !r.ArrowFunctionExpression? && !r.FunctionExpression?
  {
    match n
    case VariableDeclarator(_, init) =>
      VariableDeclarator(cs[0], if init.Some? then Some(cs[1]) else None)
    case ReturnStatement(a) => ReturnStatement(if a.Some? then Some(cs[0]) else None)
    case ExpressionStatement(_) => ExpressionStatement(cs[0])
    case CallExpression(_, _) => CallExpression(cs[0], cs[1..])
    case MemberExpression(_, _, c) => MemberExpression(cs[0], cs[1], c)
    case Property(_, _) => Property(cs[0], cs[1])
    case AssignmentExpression(op, _, _) => AssignmentExpression(op, cs[0], cs[1])
    case SpreadElement(_) => SpreadElement(cs[0])
    case RestElement(_) => RestElement(cs[0])
  }

  /** Rebuilding a node from its own children gives the node back. */
  lemma RebuildOwnChildren(n: Node)
    ensures Rebuild(n, Children(n)) == n
  {
    if n.ArrowFunctionExpression? || n.FunctionExpression? {
      RebuildFunctionOwnChildren(n);
    } else if HasChildList(n) {
      assert RebuildList(n, Children(n)) == n;
    } else if !n.Identifier? && !n.Literal? {
      RebuildFixedOwnChildren(n);
    }
  }

  lemma RebuildFunctionOwnChildren(n: Node)
    requires n.ArrowFunctionExpression? || n.FunctionExpression?
    ensures RebuildFunction(n, Children(n)) == n
  {
    var cs := Children(n);
    if n.FunctionExpression? {
      assert cs[|OptionChildren(n.fnId)|..|cs| - 1] == n.params;
    } else {
      assert cs[..|cs| - 1] == n.params;
    }
  }

  lemma RebuildFixedOwnChildren(n: Node)
    requires !HasChildList(n) && !n.Identifier? && !n.Literal?
    requires !n.ArrowFunctionExpression? && !n.FunctionExpression?
    ensures RebuildFixed(n, Children(n)) == n
  {
    if n.CallExpression? {
      assert Children(n)[1..] == n.arguments;
    }
  }

  /** All nodes of the subtree rooted at `n`, in the walker's pre-order. */
  function PreOrder(n: Node): (r: seq<Node>)
    ensures |r| >= 1 && r[0] == n
    decreases n, 1
  {
    [n] + PreOrderSeq(Children(n), n)
  }

  function PreOrderSeq(ns: seq<Node>, parent: Node): seq<Node>
    requires forall i :: 0 <= i < |ns| ==> (parent decreases to ns[i])
    decreases parent, 0, |ns|
  {
    if |ns| == 0 then [] else PreOrder(ns[0]) + PreOrderSeq(ns[1..], parent)
  }

  /** Some node of the subtree is a `return` statement, with or without an argument. */
  predicate ContainsReturn(n: Node)
    decreases n, 1
  {
    n.ReturnStatement? || AnyContainsReturn(Children(n), n)
  }

  predicate AnyContainsReturn(ns: seq<Node>, parent: Node)
    requires forall i :: 0 <= i < |ns| ==> (parent decreases to ns[i])
    decreases parent, 0, |ns|
  {
    |ns| > 0 && (ContainsReturn(ns[0]) || AnyContainsReturn(ns[1..], parent))
  }

  /** Some node of the subtree is a `return` statement that has an argument. */
  predicate ContainsValueReturn(n: Node)
    decreases n, 1
  {
    (n.ReturnStatement? && n.argument.Some?) || AnyContainsValueReturn(Children(n), n)
  }

  predicate AnyContainsValueReturn(ns: seq<Node>, parent: Node)
    requires forall i :: 0 <= i < |ns| ==> (parent decreases to ns[i])
    decreases parent, 0, |ns|
  {
    |ns| > 0 && (ContainsValueReturn(ns[0]) || AnyContainsValueReturn(ns[1..], parent))
  }

  /** Some node of a listing is a `return` statement. */
  predicate ListsReturn(xs: seq<Node>)
  {
    exists k :: 0 <= k < |xs| && xs[k].ReturnStatement?
  }

  /** The recursive return test agrees with a search of the pre-order listing. */
  lemma {:induction false} ContainsReturnIffInPreOrder(n: Node)
    ensures ContainsReturn(n) <==> ListsReturn(PreOrder(n))
    decreases n, 1
  {
    AnyContainsReturnIffInPreOrder(Children(n), n);
    var p := PreOrder(n);
    var rest := PreOrderSeq(Children(n), n);
    assert p == [n] + rest;
    if ContainsReturn(n) {
      if n.ReturnStatement? {
        assert p[0].ReturnStatement?;
      } else {
        assert AnyContainsReturn(Children(n), n);
        var k :| 0 <= k < |rest| && rest[k].ReturnStatement?;
        assert p[k + 1] == rest[k];
      }
    }
    if exists k :: 0 <= k < |p| && p[k].ReturnStatement? {
      var k :| 0 <= k < |p| && p[k].ReturnStatement?;
      if k > 0 {
        assert rest[k - 1] == p[k];
      }
    }
  }

  lemma {:induction false} AnyContainsReturnIffInPreOrder(ns: seq<Node>, parent: Node)
    requires forall i :: 0 <= i < |ns| ==> (parent decreases to ns[i])
    ensures AnyContainsReturn(ns, parent) <==> ListsReturn(PreOrderSeq(ns, parent))
    decreases parent, 0, |ns|
  {
    if |ns| > 0 {
      ContainsReturnIffInPreOrder(ns[0]);
      AnyContainsReturnIffInPreOrder(ns[1..], parent);
      var a := PreOrder(ns[0]);
      var b := PreOrderSeq(ns[1..], parent);
      assert PreOrderSeq(ns, parent) == a + b;
      ListsReturnConcat(a, b);
    }
  }

  /** A concatenation lists a `return` when one of its parts does. */
  lemma ListsReturnConcat(a: seq<Node>, b: seq<Node>)
    ensures ListsReturn(a + b) <==> ListsReturn(a) || ListsReturn(b)
  {
    var all := a + b;
    if ListsReturn(a) {
      var k :| 0 <= k < |a| && a[k].ReturnStatement?;
      assert all[k] == a[k];
    }
    if ListsReturn(b) {
      var k :| 0 <= k < |b| && b[k].ReturnStatement?;
      assert all[|a| + k] == b[k];
    }
    if ListsReturn(all) {
      var k :| 0 <= k < |all| && all[k].ReturnStatement?;
      if k < |a| {
        assert a[k] == all[k];
      } else {
        assert b[k - |a|] == all[k];
      }
    }
  }

  /** The listing test of a sequence of children reads each child on its own. */
  lemma {:induction false} AnyContainsReturnIffSome(ns: seq<Node>, parent: Node)
    requires forall i :: 0 <= i < |ns| ==> (parent decreases to ns[i])
    ensures AnyContainsReturn(ns, parent) <==> exists i :: 0 <= i < |ns| && ContainsReturn(ns[i])
    decreases |ns|
  {
    if |ns| > 0 {
      AnyContainsReturnIffSome(ns[1..], parent);
      if exists i :: 0 <= i < |ns| && ContainsReturn(ns[i]) {
        var i :| 0 <= i < |ns| && ContainsReturn(ns[i]);
        if i > 0 {
          assert ns[1..][i - 1] == ns[i];
        }
      }
      if exists i :: 0 <= i < |ns[1..]| && ContainsReturn(ns[1..][i]) {
        var i :| 0 <= i < |ns[1..]| && ContainsReturn(ns[1..][i]);
        assert ns[i + 1] == ns[1..][i];
      }
    }
  }

  lemma {:induction false} AnyContainsValueReturnIffSome(ns: seq<Node>, parent: Node)
    requires forall i :: 0 <= i < |ns| ==> (parent decreases to ns[i])
    ensures AnyContainsValueReturn(ns, parent) <==> exists i :: 0 <= i < |ns| && ContainsValueReturn(ns[i])
    decreases |ns|
  {
    if |ns| > 0 {
      AnyContainsValueReturnIffSome(ns[1..], parent);
      if exists i :: 0 <= i < |ns| && ContainsValueReturn(ns[i]) {
        var i :| 0 <= i < |ns| && ContainsValueReturn(ns[i]);
        if i > 0 {
          assert ns[1..][i - 1] == ns[i];
        }
      }
      if exists i :: 0 <= i < |ns[1..]| && ContainsValueReturn(ns[1..][i]) {
        var i :| 0 <= i < |ns[1..]| && ContainsValueReturn(ns[1..][i]);
        assert ns[i + 1] == ns[1..][i];
      }
    }
  }

  /** `o.name`, a non-computed member access. */
  function Dot(o: Node, name: string): Node
  {
    MemberExpression(o, Identifier(name), false)
  }
}

=== FILE: call_queue.dfy ===
/**
 * The call queue: the calls of the returned expression that run at the top
 * level, innermost first. The walk records each call it enters, unless the
 * call sits inside a function literal (those were marked to be skipped when the
 * walk entered the literal), and puts each new call at the FRONT of the queue.
 */
module CallQueue {
  import opened Wrappers
  import opened Ast

  /**
   * The calls the walk records under `n`, in the order it enters them;
   * `inFunction` holds below a function literal, where every call carries the
   * skip mark.
   */
  function Visit(n: Node, inFunction: bool): (r: seq<Node>)
    ensures forall i :: 0 <= i < |r| ==> r[i].CallExpression?
    ensures inFunction ==> r == []
    decreases n, 1
  {
    (if !inFunction && n.CallExpression? then [n] else [])
      + VisitSeq(Children(n), inFunction || IsFunctionLiteral(n), n)
  }

  function VisitSeq(ns: seq<Node>, inFunction: bool, parent: Node): (r: seq<Node>)
    requires forall i :: 0 <= i < |ns| ==> (parent decreases to ns[i])
    ensures forall i :: 0 <= i < |r| ==> r[i].CallExpression?
    ensures inFunction ==> r == []
    decreases parent, 0, |ns|
  {
    if |ns| == 0 then [] else Visit(ns[0], inFunction) + VisitSeq(ns[1..], inFunction, parent)
  }

  /** Putting each element of `xs` in turn at the front of `acc` (JavaScript's `unshift`). */
  function UnshiftAll(acc: seq<Node>, xs: seq<Node>): (r: seq<Node>)
    ensures |r| == |xs| + |acc|
    ensures forall i :: 0 <= i < |xs| ==> r[i] == xs[|xs| - 1 - i]
    ensures r[|xs|..] == acc
    decreases |xs|
  {
    if |xs| == 0 then acc else UnshiftAll([xs[0]] + acc, xs[1..])
  }

  /** The queue: the recorded calls in the reverse of the order the walk entered them. */
  function GetCallExpressionQueue(root: Node): (q: seq<Node>)
    ensures |q| == |Visit(root, false)|
    ensures forall i :: 0 <= i < |q| ==> q[i] == Visit(root, false)[|q| - 1 - i]
    ensures forall i :: 0 <= i < |q| ==> q[i].CallExpression?
  {
    UnshiftAll([], Visit(root, false))
  }

  /** The root call runs last: it is entered first, so it ends up at the back. */
  lemma QueueEndsWithRoot(root: Node)
    requires root.CallExpression?
    ensures |GetCallExpressionQueue(root)| >= 1
    ensures GetCallExpressionQueue(root)[|GetCallExpressionQueue(root)| - 1] == root
  {
    assert Visit(root, false)[0] == root;
  }

  /** A function literal contributes no call, however deeply its body nests them. */
  lemma FunctionLiteralsContributeNothing(n: Node)
    requires IsFunctionLiteral(n)
    ensures Visit(n, false) == []
  {
  }

  /** Every queued call is a node of the tree under the root. */
  lemma {:induction false} VisitedAreInPreOrder(n: Node, inFunction: bool)
    ensures forall x :: x in Visit(n, inFunction) ==> x in PreOrder(n)
    decreases n, 1
  {
    VisitSeqInPreOrder(Children(n), inFunction || IsFunctionLiteral(n), n);
  }

  lemma {:induction false} VisitSeqInPreOrder(ns: seq<Node>, inFunction: bool, parent: Node)
    requires forall i :: 0 <= i < |ns| ==> (parent decreases to ns[i])
    ensures forall x :: x in VisitSeq(ns, inFunction, parent) ==> x in PreOrderSeq(ns, parent)
    decreases parent, 0, |ns|
  {
    if |ns| > 0 {
      VisitedAreInPreOrder(ns[0], inFunction);
      VisitSeqInPreOrder(ns[1..], inFunction, parent);
    }
  }

  /**
   * `c` is `n` or is reached from `n` by going down through children without
   * entering a function literal (the literal itself is reached).
   */
  predicate ReachableOutside(n: Node, c: Node)
    decreases n
  {
    n == c || (!IsFunctionLiteral(n) && exists i :: 0 <= i < |Children(n)| && ReachableOutside(Children(n)[i], c))
  }

  /** The walk records exactly the calls reached without entering a function literal. */
  lemma {:induction false} VisitMembers(n: Node, c: Node)
    ensures c in Visit(n, false) <==> c.CallExpression? && ReachableOutside(n, c)
    decreases n, 1
  {
    var cs := Children(n);
    if IsFunctionLiteral(n) {
      FunctionLiteralsContributeNothing(n);
      assert ReachableOutside(n, c) <==> n == c;
    } else {
      var own := if n.CallExpression? then [n] else [];
      assert Visit(n, false) == own + VisitSeq(cs, false, n);
      assert c in Visit(n, false) <==> c in own || c in VisitSeq(cs, false, n);
      VisitSeqMembers(cs, n, c);
      forall i | 0 <= i < |cs|
        ensures c in Visit(cs[i], false) <==> c.CallExpression? && ReachableOutside(cs[i], c)
      {
        VisitMembers(cs[i], c);
      }
      assert ReachableOutside(n, c) <==> n == c || exists i :: 0 <= i < |cs| && ReachableOutside(cs[i], c);
    }
  }

  lemma {:induction false} VisitSeqMembers(ns: seq<Node>, parent: Node, c: Node)
    requires forall i :: 0 <= i < |ns| ==> (parent decreases to ns[i])
    ensures c in VisitSeq(ns, false, parent) <==> exists i :: 0 <= i < |ns| && c in Visit(ns[i], false)
    decreases |ns|
  {
    if |ns| > 0 {
      VisitSeqMembers(ns[1..], parent, c);
      if exists i :: 0 <= i < |ns[1..]| && c in Visit(ns[1..][i], false) {
        var i :| 0 <= i < |ns[1..]| && c in Visit(ns[1..][i], false);
        assert ns[1..][i] == ns[i + 1];
      }
      if exists i :: 0 <= i < |ns| && c in Visit(ns[i], false) {
        var i :| 0 <= i < |ns| && c in Visit(ns[i], false);
        if i > 0 {
          assert ns[1..][i - 1] == ns[i];
        }
      }
    }
  }

  /**
   * The queue holds nodes of the tree, and it holds exactly the calls that are
   * not inside a function literal.
   */
  lemma QueueHoldsNodesOfTheTree(root: Node)
    ensures forall x :: x in GetCallExpressionQueue(root) ==> x in PreOrder(root)
    ensures forall x :: x in GetCallExpressionQueue(root) <==> x.CallExpression? && ReachableOutside(root, x)
  {
    VisitedAreInPreOrder(root, false);
    QueueHoldsTheVisited(root);
    forall x
      ensures x in Visit(root, false) <==> x.CallExpression? && ReachableOutside(root, x)
    {
      VisitMembers(root, x);
    }
  }

  /** The queue and the walk hold the same nodes: the queue is the walk reversed. */
  lemma QueueHoldsTheVisited(root: Node)
    ensures forall x :: x in GetCallExpressionQueue(root) <==> x in Visit(root, false)
  {
    var q := GetCallExpressionQueue(root);
    var v := Visit(root, false);
    assert |q| == |v|;
    assert forall i :: 0 <= i < |q| ==> q[i] == v[|q| - 1 - i];
    ReversedHoldsTheSame(q, v);
  }

  lemma ReversedHoldsTheSame<T>(q: seq<T>, v: seq<T>)
    requires |q| == |v|
    requires forall i :: 0 <= i < |q| ==> q[i] == v[|q| - 1 - i]
    ensures forall x :: x in q <==> x in v
  {
    forall x | x in q
      ensures x in v
    {
      var i :| 0 <= i < |q| && q[i] == x;
      assert v[|q| - 1 - i] == x;
    }
    forall x | x in v
      ensures x in q
    {
      var j :| 0 <= j < |v| && v[j] == x;
      assert q[|q| - 1 - j] == x;
    }
  }

  /** The method chain `base.m1(a1).m2(a2)...`, one link per call. */
  function Chain(base: Node, links: seq<(string, seq<Node>)>): (c: Node)
    ensures |links| > 0 ==> c.CallExpression?
  {
    if |links| == 0 then base
    else CallExpression(Dot(Chain(base, links[..|links| - 1]), links[|links| - 1].0), links[|links| - 1].1)
  }

  /** No call outside a function literal: nothing under the node is queued. */
  predicate CallFree(n: Node)
  {
    Visit(n, false) == []
  }

  lemma {:induction false} VisitSeqConcat(a: seq<Node>, b: seq<Node>, inFunction: bool, parent: Node)
    requires forall i :: 0 <= i < |a| ==> (parent decreases to a[i])
    requires forall i :: 0 <= i < |b| ==> (parent decreases to b[i])
    requires forall i :: 0 <= i < |a + b| ==> (parent decreases to (a + b)[i])
    ensures VisitSeq(a + b, inFunction, parent) == VisitSeq(a, inFunction, parent) + VisitSeq(b, inFunction, parent)
    decreases |a|
  {
    if |a| == 0 {
      assert a + b == b;
    } else {
      assert (a + b)[0] == a[0];
      assert (a + b)[1..] == a[1..] + b;
      VisitSeqConcat(a[1..], b, inFunction, parent);
    }
  }

  lemma {:induction false} VisitSeqOfCallFree(ns: seq<Node>, parent: Node)
    requires forall i :: 0 <= i < |ns| ==> (parent decreases to ns[i])
    requires forall i :: 0 <= i < |ns| ==> CallFree(ns[i])
    ensures VisitSeq(ns, false, parent) == []
    decreases |ns|
  {
    if |ns| > 0 {
      VisitSeqOfCallFree(ns[1..], parent);
    }
  }

  /** A top-level call is recorded before everything under it: its callee, then its arguments. */
  lemma VisitOfCall(c: Node)
    requires c.CallExpression?
    ensures Visit(c, false) == [c] + Visit(c.callee, false) + VisitSeq(c.arguments, false, c)
  {
    assert Children(c) == [c.callee] + c.arguments;
    VisitSeqConcat([c.callee], c.arguments, false, c);
    assert [c.callee][1..] == [];
  }

  /** A call with one argument records itself, then its callee's calls, then its argument's. */
  lemma VisitOfUnaryCall(callee: Node, arg: Node)
    ensures Visit(CallExpression(callee, [arg]), false)
      == [CallExpression(callee, [arg])] + Visit(callee, false) + Visit(arg, false)
  {
    var c := CallExpression(callee, [arg]);
    VisitOfCall(c);
    assert [arg][1..] == [];
    assert VisitSeq([arg], false, c) == Visit(arg, false);
  }

  /** A property read `o.name` records exactly what its object records. */
  lemma VisitOfDot(o: Node, name: string)
    ensures Visit(Dot(o, name), false) == Visit(o, false)
  {
    var d := Dot(o, name);
    assert Children(d) == [o, Identifier(name)];
    assert [o, Identifier(name)][1..] == [Identifier(name)];
    assert [Identifier(name)][1..] == [];
    assert Children(Identifier(name)) == [];
    assert Visit(Identifier(name), false) == [];
    assert VisitSeq([Identifier(name)], false, d) == [];
  }

  /**
   * Entering a chain records its calls outermost first: the last link, then
   * the one before it, and so on down to the first.
   */
  lemma {:induction false} VisitOfChain(base: Node, links: seq<(string, seq<Node>)>)
    requires CallFree(base)
    requires ArgsCallFree(links)
    ensures |Visit(Chain(base, links), false)| == |links|
    ensures forall i :: 0 <= i < |links| ==>
      Visit(Chain(base, links), false)[i] == Chain(base, links[..|links| - i])
    decreases |links|
  {
    if |links| > 0 {
      var prefix := links[..|links| - 1];
      var last := links[|links| - 1];
      ArgsCallFreeSplit(links, last);
      VisitOfChain(base, prefix);
      assert Chain(base, links) == CallExpression(Dot(Chain(base, prefix), last.0), last.1);
      VisitOfLink(Chain(base, prefix), last.0, last.1);
      ShiftPrefixes(base, links, Chain(base, links), Visit(Chain(base, prefix), false));
    }
  }

  /** No argument of any link holds a call outside a function literal. */
  predicate ArgsCallFree(links: seq<(string, seq<Node>)>)
  {
    forall k, j :: 0 <= k < |links| && 0 <= j < |links[k].1| ==> CallFree(links[k].1[j])
  }

  /** Call-free link arguments stay call-free in the shorter chain and in the last link. */
  lemma ArgsCallFreeSplit(links: seq<(string, seq<Node>)>, last: (string, seq<Node>))
    requires |links| > 0 && ArgsCallFree(links) && last == links[|links| - 1]
    ensures ArgsCallFree(links[..|links| - 1])
    ensures forall j :: 0 <= j < |last.1| ==> CallFree(last.1[j])
  {
    var prefix := links[..|links| - 1];
    forall k, j | 0 <= k < |prefix| && 0 <= j < |prefix[k].1|
      ensures CallFree(prefix[k].1[j])
    {
      assert prefix[k] == links[k];
    }
  }

  /** The chain of every shorter prefix, longest first, behind the whole chain. */
  lemma ShiftPrefixes(base: Node, links: seq<(string, seq<Node>)>, c: Node, rest: seq<Node>)
    requires |links| > 0 && c == Chain(base, links) && |rest| == |links| - 1
    requires forall i :: 0 <= i < |rest| ==> rest[i] == Chain(base, links[..|links| - 1][..|links| - 1 - i])
    ensures forall i :: 0 <= i < |links| ==> ([c] + rest)[i] == Chain(base, links[..|links| - i])
  {
    forall i | 0 <= i < |links|
      ensures ([c] + rest)[i] == Chain(base, links[..|links| - i])
    {
      if i > 0 {
        assert links[..|links| - 1][..|links| - 1 - (i - 1)] == links[..|links| - i];
      } else {
        assert links[..|links|] == links;
      }
    }
  }

  /** One more link on a chain records the new call, then what the chain recorded. */
  lemma VisitOfLink(inner: Node, name: string, args: seq<Node>)
    requires forall j :: 0 <= j < |args| ==> CallFree(args[j])
    ensures Visit(CallExpression(Dot(inner, name), args), false) == [CallExpression(Dot(inner, name), args)] + Visit(inner, false)
  {
    var c := CallExpression(Dot(inner, name), args);
    VisitOfCall(c);
    VisitSeqOfCallFree(args, c);
    VisitOfDot(inner, name);
  }

  /**
   * The queue of a chain whose receiver and arguments hold no top-level call
   * is the chain's calls in the order they run: `base.m1(a1)` first, the whole
   * chain last.
   */
  lemma QueueOfChain(base: Node, links: seq<(string, seq<Node>)>)
    requires CallFree(base)
    requires ArgsCallFree(links)
    ensures |GetCallExpressionQueue(Chain(base, links))| == |links|
    ensures forall i :: 0 <= i < |links| ==>
      GetCallExpressionQueue(Chain(base, links))[i] == Chain(base, links[..i + 1])
  {
    var q := GetCallExpressionQueue(Chain(base, links));
    var v := Visit(Chain(base, links), false);
    VisitOfChain(base, links);
    forall i | 0 <= i < |links|
      ensures q[i] == Chain(base, links[..i + 1])
    {
      var k := |links| - 1 - i;
      assert q[i] == v[k];
      assert |links| - k == i + 1;
    }
  }

  /**
   * `Object.fromEntries(Object.entries(input).map(f))` with a callback `f`:
   * an argument's calls run before the call that receives them.
   */
  lemma QueueOfNestedObjectCalls(f: Node)
    requires IsFunctionLiteral(f)
    ensures GetCallExpressionQueue(
        CallExpression(Dot(Identifier("Object"), "fromEntries"), [
          CallExpression(Dot(CallExpression(Dot(Identifier("Object"), "entries"), [Identifier("input")]), "map"), [f])]))
      == [CallExpression(Dot(Identifier("Object"), "entries"), [Identifier("input")]),
          CallExpression(Dot(CallExpression(Dot(Identifier("Object"), "entries"), [Identifier("input")]), "map"), [f]),
          CallExpression(Dot(Identifier("Object"), "fromEntries"), [
            CallExpression(Dot(CallExpression(Dot(Identifier("Object"), "entries"), [Identifier("input")]), "map"), [f])])]
  {
    var entries := CallExpression(Dot(Identifier("Object"), "entries"), [Identifier("input")]);
    var mapped := CallExpression(Dot(entries, "map"), [f]);
    var root := CallExpression(Dot(Identifier("Object"), "fromEntries"), [mapped]);
    FunctionLiteralsContributeNothing(f);
    assert Visit(Identifier("input"), false) == [];
    VisitOfNestedObjectCalls(Identifier("Object"), Identifier("input"), f, "entries", "map", "fromEntries");
    var q := GetCallExpressionQueue(root);
    assert q[0] == entries && q[1] == mapped && q[2] == root;
  }

  /** `o.outer(o.inner(input).m(f))` with nothing queued in `o`, `input` or `f` records the three calls outermost first. */
  lemma VisitOfNestedObjectCalls(o: Node, input: Node, f: Node, inner: string, m: string, outer: string)
    requires CallFree(o) && CallFree(input) && CallFree(f)
    ensures Visit(CallExpression(Dot(o, outer), [CallExpression(Dot(CallExpression(Dot(o, inner), [input]), m), [f])]), false)
      == [CallExpression(Dot(o, outer), [CallExpression(Dot(CallExpression(Dot(o, inner), [input]), m), [f])]),
          CallExpression(Dot(CallExpression(Dot(o, inner), [input]), m), [f]),
          CallExpression(Dot(o, inner), [input])]
  {
    var entries := CallExpression(Dot(o, inner), [input]);
    var mapped := CallExpression(Dot(entries, m), [f]);
    VisitOfLink(o, inner, [input]);
    VisitOfLink(entries, m, [f]);
    VisitOfUnaryCall(Dot(o, outer), mapped);
    VisitOfDot(o, outer);
  }
}

=== FILE: consts.dfy ===
/** The fixed names, tables and messages of the trace engine. */
module Consts {
  import opened Strings

  /** The name the user's main function must be bound to. */
  const MAIN_FUNCTION_NAME: string := "whatTheFilter"

  /** The per-call record the instrumented callback fills in. */
  const EXECUTION_STEP_VARIABLE_NAME: string := "executionStep"

  /** The list the instrumented program collects the records into. */
  const EXECUTION_STEPS_VARIABLE_NAME: string := "executionSteps"

  /** A canonical argument list per method, used in the hints' "good" examples. */
  const ARGUMENT_EXAMPLES: map<string, string> := map[
    "Object.entries" := "{a: 1, b: 2, c: 3}",
    "Object.fromEntries" := "[['a', 1], ['b', 2], ['c', 3]]",
    "Object.values" := "{a: 1, b: 2, c: 3}",
    "Object.keys" := "{a: 1, b: 2, c: 3}",
    "filter" := "a => a % 2 === 0",
    "map" := "a => a + 1",
    "reduce" := "(acc, cur) => acc + cur, 0",
    "flatMap" := "a => a + 1",
    "find" := "a => a === 1",
    "findIndex" := "a => a === 1",
    "every" := "a => a > 0",
    "some" := "a => a > 0",
    "sort" := "",
    "reverse" := "",
    "splice" := "",
    "copyWithin" := "",
    "fill" := "",
    "pop" := "",
    "shift" := "",
    "push" := "",
    "unshift" := ""
  ]

  /** The array methods that change the array they are called on. */
  const MUTATING_METHODS: seq<string> :=
    ["sort", "reverse", "splice", "copyWithin", "fill", "pop", "shift", "push", "unshift"]

  /** The static `Object` methods the engine knows an example for. */
  const OBJECT_METHODS: seq<string> :=
    ["Object.entries", "Object.fromEntries", "Object.values", "Object.keys"]

  /** The array methods that take a callback. */
  const CALLBACK_METHODS: seq<string> :=
    ["filter", "map", "reduce", "flatMap", "find", "findIndex", "every", "some"]

  /** The structural checks of the validator; each one has a fixed message. */
  datatype InvalidCode =
    | GENERIC
    | ONE_STATEMENT
    | VARIABLE_DECLARATION
    | NAME
    | ASYNC
    | ARROW
    | RETURN
    | RETURN_TYPE
    | BLOCK

  /** The message shown for a failed structural check. */
  function InvalidCodeMessage(k: InvalidCode): string
  {
    match k
    case GENERIC => "Invalid code format. Please refer to the \"Tutorial\" example"
    case ONE_STATEMENT => "There should be only one statement on the code"
    case VARIABLE_DECLARATION => "The first statement shoud be a variable declaration"
    case NAME => "The main function name should be \"" + MAIN_FUNCTION_NAME + "\""
    case ASYNC => "The main function should not be async"
    case ARROW => "The main function should be an arrow function"
    case RETURN => "The main function should contain a return statement as its last statement"
    case RETURN_TYPE => "The main function should return a call expression"
    case BLOCK => "The main function should have a body block (no concise return)"
  }

  /** The length of each message; the nine lengths differ. */
  function MessageLength(k: InvalidCode): nat
  {
    match k
    case GENERIC => 59
    case ONE_STATEMENT => 46
    case VARIABLE_DECLARATION => 51
    case NAME => 48
    case ASYNC => 37
    case ARROW => 45
    case RETURN => 73
    case RETURN_TYPE => 49
    case BLOCK => 62
  }

  lemma MessageHasLength(k: InvalidCode)
    ensures |InvalidCodeMessage(k)| == MessageLength(k)
  {
    if k.GENERIC? || k.ONE_STATEMENT? || k.VARIABLE_DECLARATION? {
      FormatMessagesHaveLength(k);
    } else if k.NAME? || k.ASYNC? || k.ARROW? {
      FunctionMessagesHaveLength(k);
    } else {
      BodyMessagesHaveLength(k);
    }
  }

  /** The lengths of the messages about the program's shape. */
  lemma FormatMessagesHaveLength(k: InvalidCode)
    requires k.GENERIC? || k.ONE_STATEMENT? || k.VARIABLE_DECLARATION?
    ensures |InvalidCodeMessage(k)| == MessageLength(k)
  {
  }

  /** The lengths of the messages about the main function's head. */
  lemma FunctionMessagesHaveLength(k: InvalidCode)
    requires k.NAME? || k.ASYNC? || k.ARROW?
    ensures |InvalidCodeMessage(k)| == MessageLength(k)
  {
  }

  /** The lengths of the messages about the main function's body. */
  lemma BodyMessagesHaveLength(k: InvalidCode)
    requires k.RETURN? || k.RETURN_TYPE? || k.BLOCK?
    ensures |InvalidCodeMessage(k)| == MessageLength(k)
  {
  }

  /** The nine messages are pairwise distinct, so a message names the check that failed. */
  lemma InvalidCodeMessagesDistinct(a: InvalidCode, b: InvalidCode)
    ensures InvalidCodeMessage(a) == InvalidCodeMessage(b) ==> a == b
  {
    MessageHasLength(a);
    MessageHasLength(b);
  }

  /** The NAME message quotes the required main-function name. */
  lemma NameMessageQuotesMainName()
    ensures IsInfix("\"" + MAIN_FUNCTION_NAME + "\"", InvalidCodeMessage(NAME))
    ensures IsInfix(MAIN_FUNCTION_NAME, InvalidCodeMessage(NAME))
  {
    var pre := "The main function name should be ";
    InfixOfConcat(pre, "\"" + MAIN_FUNCTION_NAME + "\"", "");
    assert pre + ("\"" + MAIN_FUNCTION_NAME + "\"") + "" == InvalidCodeMessage(NAME);
    InfixOfConcat(pre + "\"", MAIN_FUNCTION_NAME, "\"");
    assert pre + "\"" + MAIN_FUNCTION_NAME + "\"" == InvalidCodeMessage(NAME);
  }

  /** Every mutating method is listed with an empty example. */
  lemma MutatingExamplesEmpty()
    ensures forall m :: m in MUTATING_METHODS ==> m in ARGUMENT_EXAMPLES && ARGUMENT_EXAMPLES[m] == ""
  {
  }

  /** The four `Object` methods and the eight callback methods have a non-empty example. */
  lemma ObjectAndCallbackExamplesNonEmpty()
    ensures forall m :: m in OBJECT_METHODS ==> m in ARGUMENT_EXAMPLES && ARGUMENT_EXAMPLES[m] != ""
    ensures forall m :: m in CALLBACK_METHODS ==> m in ARGUMENT_EXAMPLES && ARGUMENT_EXAMPLES[m] != ""
  {
    ObjectExamplesNonEmpty();
    CallbackExamplesNonEmpty();
  }

  lemma ObjectExamplesNonEmpty()
    ensures forall m :: m in OBJECT_METHODS ==> m in ARGUMENT_EXAMPLES && ARGUMENT_EXAMPLES[m] != ""
  {
  }

  lemma CallbackExamplesNonEmpty()
    ensures forall m :: m in CALLBACK_METHODS ==> m in ARGUMENT_EXAMPLES && ARGUMENT_EXAMPLES[m] != ""
  {
  }

  /** The two instrumentation names differ, so the record and the list never share a binding. */
  lemma InstrumentationNamesDistinct()
    ensures EXECUTION_STEP_VARIABLE_NAME != EXECUTION_STEPS_VARIABLE_NAME
    ensures EXECUTION_STEP_VARIABLE_NAME != MAIN_FUNCTION_NAME
    ensures EXECUTION_STEPS_VARIABLE_NAME != MAIN_FUNCTION_NAME
  {
    assert |EXECUTION_STEP_VARIABLE_NAME| != |EXECUTION_STEPS_VARIABLE_NAME|;
  }
}

=== FILE: diagram_nodes.dfy ===
/**
 * The nodes of the diagram drawn from a trace result: a start node, a method
 * node per step with a value node between consecutive steps, and a final
 * success or error node. Node ids come from a generator outside the model and
 * are taken as a parameter, one per node in order.
 */
module DiagramNodes {
  import opened Wrappers
  import opened Types

  datatype NodeType = Start | MethodNode | ValueNode | SuccessNode | ErrorNode

  /** One diagram node; `error` is set on the final node only. */
  datatype DiagramNode = DiagramNode(id: string, step: Option<Step>, open: bool, nodeType: NodeType, error: Option<ResultError>)

  /** How many nodes a result with `n` steps draws. */
  function NodeCount(n: nat): nat
  {
    if n == 0 then 2 else 2 * n + 1
  }

  /** `steps[i]` as JavaScript reads it: `undefined` past the end. */
  function StepAt(steps: seq<Step>, i: int): (r: Option<Step>)
    ensures 0 <= i < |steps| ==> r == Some(steps[i])
    ensures !(0 <= i < |steps|) ==> r.None?
  {
    if 0 <= i < |steps| then Some(steps[i]) else None
  }

  /** The method node of step `j`, and the value node after it. */
  function MethodNodeOf(steps: seq<Step>, ids: seq<string>, j: nat): DiagramNode
    requires j < |steps| && |ids| >= 2 * |steps|
  {
    DiagramNode(ids[1 + 2 * j], Some(steps[j]), false, MethodNode, None)
  }

  function ValueNodeOf(steps: seq<Step>, ids: seq<string>, j: nat): DiagramNode
    requires j + 1 < |steps| && |ids| >= 2 * |steps|
  {
    DiagramNode(ids[2 + 2 * j], Some(steps[j]), false, ValueNode, None)
  }

  /**
   * The nodes of steps `i` onwards: the method node of each step, followed by
   * a value node for every step but the last. Ids are taken from position
   * `1 + 2 * i` of `ids`.
   */
  function StepNodes(steps: seq<Step>, ids: seq<string>, i: nat): (r: seq<DiagramNode>)
    requires i <= |steps| && |ids| >= 2 * |steps|
    ensures |r| == if i < |steps| then 2 * (|steps| - i) - 1 else 0
    ensures forall k :: 0 <= k < |r| ==> r[k].id == ids[1 + 2 * i + k] && !r[k].open && r[k].error.None?
    ensures forall j :: i <= j < |steps| ==> r[2 * (j - i)] == MethodNodeOf(steps, ids, j)
    ensures forall j :: i <= j < |steps| - 1 ==> r[2 * (j - i) + 1] == ValueNodeOf(steps, ids, j)
    decreases |steps| - i
  {
    if i == |steps| then []
    else
      var rest := StepNodes(steps, ids, i + 1);
      var head := [MethodNodeOf(steps, ids, i)] + (if i != |steps| - 1 then [ValueNodeOf(steps, ids, i)] else []);
      head + rest
  }

  /** The nodes of a result, with `ids` giving each node's id in order. */
  function GenerateNodes(result: Result, ids: seq<string>): (r: seq<DiagramNode>)
    requires |ids| == NodeCount(|result.steps|)
    ensures |r| == NodeCount(|result.steps|)
    ensures forall k :: 0 <= k < |r| ==> r[k].id == ids[k] && !r[k].open
    ensures r[0].nodeType == Start && r[0].step == StepAt(result.steps, 0)
    ensures r[|r| - 1].nodeType == (if result.error.None? then SuccessNode else ErrorNode)
    ensures r[|r| - 1].step == Last(result.steps) && r[|r| - 1].error == result.error
    ensures forall j :: 0 <= j < |result.steps| ==> r[1 + 2 * j] == MethodNodeOf(result.steps, ids, j)
    ensures forall j :: 0 <= j < |result.steps| - 1 ==> r[2 + 2 * j] == ValueNodeOf(result.steps, ids, j)
  {
    var steps := result.steps;
    var start := DiagramNode(ids[0], StepAt(steps, 0), false, Start, None);
    var end := DiagramNode(ids[|ids| - 1], StepAt(steps, |steps| - 1), false,
                           if result.error.None? then SuccessNode else ErrorNode, result.error);
    var middle := StepNodes(steps, ids, 0);
    Framed(start, middle, end);
    FramedIds(start, middle, end, ids);
    [start] + middle + [end]
  }

  /** Framing id-ordered, closed nodes between a closed first and last node keeps them id-ordered. */
  lemma FramedIds(start: DiagramNode, middle: seq<DiagramNode>, end: DiagramNode, ids: seq<string>)
    requires |ids| == |middle| + 2 && start.id == ids[0] && end.id == ids[|ids| - 1] && !start.open && !end.open
    requires forall k :: 0 <= k < |middle| ==> middle[k].id == ids[1 + k] && !middle[k].open
    ensures forall k :: 0 <= k < |[start] + middle + [end]| ==>
      ([start] + middle + [end])[k].id == ids[k] && !([start] + middle + [end])[k].open
  {
    var r := [start] + middle + [end];
    forall k | 0 <= k < |r|
      ensures r[k].id == ids[k] && !r[k].open
    {
      if 0 < k < |r| - 1 {
        assert r[k] == middle[k - 1];
      }
    }
  }

  /** Where the middle of a framed list sits. */
  lemma Framed(start: DiagramNode, middle: seq<DiagramNode>, end: DiagramNode)
    ensures |[start] + middle + [end]| == |middle| + 2
    ensures ([start] + middle + [end])[0] == start
    ensures ([start] + middle + [end])[|middle| + 1] == end
    ensures forall k :: 0 <= k < |middle| ==> ([start] + middle + [end])[k + 1] == middle[k]
  {
  }

  /**
   * Between the start and the end node the kinds alternate, method first: the
   * odd positions are method nodes and the even ones value nodes.
   */
  lemma NodeKindsAlternate(result: Result, ids: seq<string>)
    requires |ids| == NodeCount(|result.steps|)
    ensures forall k :: 0 < k < |GenerateNodes(result, ids)| - 1 ==>
      GenerateNodes(result, ids)[k].nodeType == (if k % 2 == 1 then MethodNode else ValueNode)
  {
    var r := GenerateNodes(result, ids);
    MiddleOfGeneratedNodes(result, ids);
    StepNodeKinds(result.steps, ids, 0);
    AlternatingInside(r, StepNodes(result.steps, ids, 0));
  }

  /** Between the start and the end node sit the nodes of the steps. */
  lemma MiddleOfGeneratedNodes(result: Result, ids: seq<string>)
    requires |ids| == NodeCount(|result.steps|)
    ensures GenerateNodes(result, ids)[1..|GenerateNodes(result, ids)| - 1] == StepNodes(result.steps, ids, 0)
  {
    var steps := result.steps;
    var start := DiagramNode(ids[0], StepAt(steps, 0), false, Start, None);
    var end := DiagramNode(ids[|ids| - 1], StepAt(steps, |steps| - 1), false,
                           if result.error.None? then SuccessNode else ErrorNode, result.error);
    var middle := StepNodes(steps, ids, 0);
    assert GenerateNodes(result, ids) == [start] + middle + [end];
    assert ([start] + middle + [end])[1..|middle| + 1] == middle;
  }

  /** A list whose inner part alternates method first has method nodes at its odd positions. */
  lemma AlternatingInside(r: seq<DiagramNode>, middle: seq<DiagramNode>)
    requires |r| >= 2 && r[1..|r| - 1] == middle
    requires forall k :: 0 <= k < |middle| ==> middle[k].nodeType == (if k % 2 == 0 then MethodNode else ValueNode)
    ensures forall k :: 0 < k < |r| - 1 ==> r[k].nodeType == (if k % 2 == 1 then MethodNode else ValueNode)
  {
    forall k | 0 < k < |r| - 1
      ensures r[k].nodeType == (if k % 2 == 1 then MethodNode else ValueNode)
    {
      assert r[k] == middle[k - 1];
    }
  }

  lemma {:induction false} StepNodeKinds(steps: seq<Step>, ids: seq<string>, i: nat)
    requires i <= |steps| && |ids| >= 2 * |steps|
    ensures forall k :: 0 <= k < |StepNodes(steps, ids, i)| ==>
      StepNodes(steps, ids, i)[k].nodeType == (if k % 2 == 0 then MethodNode else ValueNode)
    decreases |steps| - i
  {
    if i < |steps| {
      StepNodeKinds(steps, ids, i + 1);
      var r := StepNodes(steps, ids, i);
      var rest := StepNodes(steps, ids, i + 1);
      forall k | 0 <= k < |r|
        ensures r[k].nodeType == (if k % 2 == 0 then MethodNode else ValueNode)
      {
        if k >= 2 {
          assert r[k] == rest[k - 2];
        }
      }
    }
  }

  /** Drawing a result: a result without steps is refused with "Empty result". */
  function ShowResult(result: Result, ids: seq<string>): (r: Attempt<seq<DiagramNode>>)
    requires |ids| == NodeCount(|result.steps|)
    ensures r.Thrown? <==> |result.steps| == 0
    ensures r.Thrown? ==> r.message == "Empty result"
    ensures r.Ok? ==> |r.value| == 2 * |result.steps| + 1 && r.value == GenerateNodes(result, ids)
  {
    if |result.steps| == 0 then Thrown("Empty result") else Ok(GenerateNodes(result, ids))
  }

  /** Opening or closing the node with the given id; every other node is kept. */
  function Toggle(nodes: seq<DiagramNode>, id: string): (r: seq<DiagramNode>)
    ensures |r| == |nodes|
    ensures forall k :: 0 <= k < |r| ==>
      r[k].id == nodes[k].id && r[k].step == nodes[k].step && r[k].nodeType == nodes[k].nodeType && r[k].error == nodes[k].error
    ensures forall k :: 0 <= k < |r| ==> (r[k].open != nodes[k].open <==> nodes[k].id == id)
  {
    if |nodes| == 0 then []
    else [if nodes[0].id == id then nodes[0].(open := !nodes[0].open) else nodes[0]] + Toggle(nodes[1..], id)
  }

  /** Toggling the same node twice restores the list. */
  lemma ToggleTwice(nodes: seq<DiagramNode>, id: string)
    ensures Toggle(Toggle(nodes, id), id) == nodes
  {
    var r := Toggle(Toggle(nodes, id), id);
    assert forall k :: 0 <= k < |r| ==> r[k] == nodes[k];
  }

  /** Toggles of two nodes commute. */
  lemma TogglesCommute(nodes: seq<DiagramNode>, a: string, b: string)
    ensures Toggle(Toggle(nodes, a), b) == Toggle(Toggle(nodes, b), a)
  {
    var l := Toggle(Toggle(nodes, a), b);
    var r := Toggle(Toggle(nodes, b), a);
    assert forall k :: 0 <= k < |l| ==> l[k] == r[k];
  }

  /** Opening or closing every value, start and end node; method nodes are kept as they are. */
  function ToggleAll(nodes: seq<DiagramNode>, open: bool): (r: seq<DiagramNode>)
    ensures |r| == |nodes|
    ensures forall k :: 0 <= k < |r| ==>
      r[k].id == nodes[k].id && r[k].step == nodes[k].step && r[k].nodeType == nodes[k].nodeType && r[k].error == nodes[k].error
    ensures forall k :: 0 <= k < |r| ==> r[k].open == (if nodes[k].nodeType == MethodNode then nodes[k].open else open)
  {
    if |nodes| == 0 then []
    else [if nodes[0].nodeType == MethodNode then nodes[0] else nodes[0].(open := open)] + ToggleAll(nodes[1..], open)
  }

  /** Toggling all twice with the same flag is toggling all once. */
  lemma ToggleAllIdempotent(nodes: seq<DiagramNode>, open: bool)
    ensures ToggleAll(ToggleAll(nodes, open), open) == ToggleAll(nodes, open)
  {
    var l := ToggleAll(ToggleAll(nodes, open), open);
    var r := ToggleAll(nodes, open);
    assert forall k :: 0 <= k < |l| ==> l[k] == r[k];
  }

  /** The last toggle-all wins: an earlier one with another flag leaves no trace. */
  lemma ToggleAllOverrides(nodes: seq<DiagramNode>, first: bool, second: bool)
    ensures ToggleAll(ToggleAll(nodes, first), second) == ToggleAll(nodes, second)
  {
    var l := ToggleAll(ToggleAll(nodes, first), second);
    var r := ToggleAll(nodes, second);
    assert forall k :: 0 <= k < |l| ==> l[k] == r[k];
  }

  /** Toggling all the values of a fresh diagram opens every node but the method nodes. */
  lemma OpenAllOfFreshDiagram(result: Result, ids: seq<string>)
    requires |ids| == NodeCount(|result.steps|)
    ensures forall k :: 0 <= k < |GenerateNodes(result, ids)| ==>
      ToggleAll(GenerateNodes(result, ids), true)[k].open == (GenerateNodes(result, ids)[k].nodeType != MethodNode)
  {
  }
}

=== FILE: error_hint.dfy ===
/**
 * The hint attached to a runtime error. The error message is matched against
 * a fixed list of patterns, in order; the first that matches explains the
 * error in terms of the last traced call's method and input.
 */
module ErrorHint {
  import opened Wrappers
  import opened Strings
  import opened Types
  import opened Consts
  import opened Runtime
  import opened Render
  import HintTexts

  // ---------------------------------------------------------------------------
  // The regular expressions.
  // ---------------------------------------------------------------------------

  /** One position of a pattern built from literal text and a method name. */
  datatype Atom = Lit(c: char) | AnyChar | Never

  predicate AtomMatches(a: Atom, c: char)
  {
    match a
    case Lit(d) => c == d
    case AnyChar => !IsLineTerminator(c)
    case Never => false
  }

  function LitPattern(t: string): (p: seq<Atom>)
    ensures |p| == |t|
    ensures forall k :: 0 <= k < |t| ==> p[k] == Lit(t[k])
  {
    seq(|t|, k requires 0 <= k < |t| => Lit(t[k]))
  }

  /**
   * A method name spliced into a regular expression. Method names are
   * identifiers, possibly behind `Object.`, so the only metacharacters they can
   * hold are `.`, which matches any character but a line terminator, and `$`,
   * the end-of-input anchor: every pattern here continues after the name, so a
   * `$` in it never matches.
   */
  function MethodPattern(m: string): (p: seq<Atom>)
    ensures |p| == |m|
    ensures forall k :: 0 <= k < |m| ==> p[k] == (if m[k] == '.' then AnyChar else if m[k] == '$' then Never else Lit(m[k]))
  {
    seq(|m|, k requires 0 <= k < |m| => if m[k] == '.' then AnyChar else if m[k] == '$' then Never else Lit(m[k]))
  }

  /** The pattern matches `s` at position `i`. */
  predicate PatternAt(p: seq<Atom>, s: string, i: int)
  {
    0 <= i && i + |p| <= |s| && forall k :: 0 <= k < |p| ==> AtomMatches(p[k], s[i + k])
  }

  /** `new RegExp(p).test(s)` for a pattern without anchors or repetition: a match anywhere. */
  predicate Search(p: seq<Atom>, s: string)
  {
    exists i | 0 <= i <= |s| - |p| :: PatternAt(p, s, i)
  }

  /** A name without `$` matches its own pattern. */
  lemma MethodPatternMatchesName(m: string, s: string, i: int)
    requires '$' !in m
    requires 0 <= i && i + |m| <= |s| && s[i..i + |m|] == m
    ensures PatternAt(MethodPattern(m), s, i)
  {
    forall k | 0 <= k < |m|
      ensures AtomMatches(MethodPattern(m)[k], s[i + k])
    {
      assert s[i + k] == s[i..i + |m|][k];
    }
  }

  lemma LitPatternMatchesText(t: string, s: string, i: int)
    requires 0 <= i && i + |t| <= |s| && s[i..i + |t|] == t
    ensures PatternAt(LitPattern(t), s, i)
  {
    forall k | 0 <= k < |t|
      ensures AtomMatches(LitPattern(t)[k], s[i + k])
    {
      assert s[i + k] == s[i..i + |t|][k];
    }
  }

  /** Two patterns matching back to back match as one. */
  lemma PatternConcat(p: seq<Atom>, q: seq<Atom>, s: string, i: int)
    requires PatternAt(p, s, i) && PatternAt(q, s, i + |p|)
    ensures PatternAt(p + q, s, i)
  {
    forall k | 0 <= k < |p + q|
      ensures AtomMatches((p + q)[k], s[i + k])
    {
      if k >= |p| {
        assert (p + q)[k] == q[k - |p|];
        assert s[i + k] == s[i + |p| + (k - |p|)];
      }
    }
  }

  const UNDEFINED_NOT_A_FUNCTION: string := "undefined is not a function"
  const FLATMAP_NOT_CALLABLE: string := "flatMap mapper function is not callable"
  const REDUCE_OF_EMPTY_ARRAY: string := "Reduce of empty array with no initial value"
  const CANNOT_CONVERT_TO_OBJECT: string := "Cannot convert undefined or null to object"
  const NOT_ITERABLE: string := "is not iterable"
  const ITERATOR_PREFIX: string := "Iterator value "
  const ITERATOR_SUFFIX: string := " is not an entry object"

  /** `<method> is not a function`, anywhere in the message. */
  predicate NotAFunction(message: string, m: string)
  {
    Search(MethodPattern(m) + LitPattern(" is not a function"), message)
  }

  /**
   * `Cannot read propert(y|ies).* '<method>'` matched with the fixed part at
   * `i`, the `.*` running from `k` to `j`, and the quoted name at `j`.
   */
  predicate CannotReadAt(message: string, m: string, i: int, k: int, j: int)
  {
    OccursAt("Cannot read propert", message, i) &&
    ((k == i + 20 && OccursAt("y", message, i + 19)) || (k == i + 22 && OccursAt("ies", message, i + 19))) &&
    k <= j && PatternAt(LitPattern(" '") + MethodPattern(m) + LitPattern("'"), message, j) &&
    SingleLine(message[k..j])
  }

  predicate CannotRead(message: string, m: string)
  {
    exists i, k, j | 0 <= i <= |message| && 0 <= k <= |message| && 0 <= j <= |message| ::
      CannotReadAt(message, m, i, k, j)
  }

  /** `^Iterator value .* is not an entry object$`. */
  predicate NotAnEntry(message: string)
  {
    |message| >= |ITERATOR_PREFIX| + |ITERATOR_SUFFIX| &&
    message[..|ITERATOR_PREFIX|] == ITERATOR_PREFIX &&
    message[|message| - |ITERATOR_SUFFIX|..] == ITERATOR_SUFFIX &&
    SingleLine(message[|ITERATOR_PREFIX|..|message| - |ITERATOR_SUFFIX|])
  }

  /**
   * The engine's own `TypeError` for reading a property of `undefined` is
   * recognised by the read-property pattern of that property's name.
   */
  lemma ReadPropertyMessageMatches(m: string)
    requires '$' !in m
    ensures CannotRead(ReadPropertyOfUndefined(m), m)
  {
    var message := ReadPropertyOfUndefined(m);
    var j := |READ_OF_UNDEFINED|;
    ReadPropertyMessageParts(m);
    LitPatternMatchesText(" '", message, j);
    MethodPatternMatchesName(m, message, j + 2);
    LitPatternMatchesText("'", message, j + 2 + |m|);
    PatternConcat(LitPattern(" '"), MethodPattern(m), message, j);
    PatternConcat(LitPattern(" '") + MethodPattern(m), LitPattern("'"), message, j);
    assert CannotReadAt(message, m, 0, 22, j);
  }

  /** Where the pieces of the engine's read-property message sit. */
  lemma ReadPropertyMessageParts(m: string)
    ensures |READ_OF_UNDEFINED| == 44
    ensures OccursAt("Cannot read propert", ReadPropertyOfUndefined(m), 0)
    ensures OccursAt("ies", ReadPropertyOfUndefined(m), 19)
    ensures SingleLine(ReadPropertyOfUndefined(m)[22..44])
    ensures ReadPropertyOfUndefined(m)[44..46] == " '"
    ensures ReadPropertyOfUndefined(m)[46..46 + |m|] == m
    ensures ReadPropertyOfUndefined(m)[46 + |m|..47 + |m|] == "'"
  {
    var message := ReadPropertyOfUndefined(m);
    assert message[..44] == READ_OF_UNDEFINED;
    assert message[..19] == READ_OF_UNDEFINED[..19] == "Cannot read propert";
    assert message[19..22] == READ_OF_UNDEFINED[19..22] == "ies";
    assert message[22..44] == READ_OF_UNDEFINED[22..] == " of undefined (reading";
  }

  /** V8's message for calling a missing method `<receiver>.<method>(...)` is recognised. */
  lemma MissingMethodMessageMatches(receiver: string, m: string)
    requires '$' !in m
    ensures NotAFunction(receiver + "." + m + " is not a function", m)
  {
    var message := receiver + "." + m + " is not a function";
    var i := |receiver| + 1;
    assert message[i..i + |m|] == m;
    assert message[i + |m|..i + |m| + 18] == " is not a function";
    MethodPatternMatchesName(m, message, i);
    LitPatternMatchesText(" is not a function", message, i + |m|);
    PatternConcat(MethodPattern(m), LitPattern(" is not a function"), message, i);
  }

  // ---------------------------------------------------------------------------
  // How the input is printed.
  // ---------------------------------------------------------------------------

  /** The index of the first `"` at or after `from`. */
  function NextQuote(s: string, from: nat): (r: Option<nat>)
    ensures r.Some? ==> from <= r.value < |s| && s[r.value] == '"'
    ensures r.Some? ==> forall k :: from <= k < r.value ==> s[k] != '"'
    ensures r.None? ==> forall k :: from <= k < |s| ==> s[k] != '"'
    decreases |s| - from
  {
    if from >= |s| then None
    else if s[from] == '"' then Some(from)
    else NextQuote(s, from + 1)
  }

  /**
   * `.replace(/"([^"]+)":/g, '$1: ')`: scanning left to right, a quote, one or
   * more other characters, a quote and a colon become those characters
   * followed by `: `.
   */
  function UnquoteKeys(s: string): string
    decreases |s|
  {
    if |s| == 0 then ""
    else
      var close := NextQuote(s, 1);
      if s[0] == '"' && close.Some? && close.value > 1 && close.value + 1 < |s| && s[close.value + 1] == ':' then
        s[1..close.value] + ": " + UnquoteKeys(s[close.value + 2..])
      else [s[0]] + UnquoteKeys(s[1..])
  }

  /** Text without quotes is left alone. */
  lemma {:induction false} UnquoteKeysWithoutQuotes(s: string)
    requires '"' !in s
    ensures UnquoteKeys(s) == s
    decreases |s|
  {
    if |s| > 0 {
      UnquoteKeysWithoutQuotes(s[1..]);
      assert [s[0]] + s[1..] == s;
    }
  }

  /** A quoted key followed by a colon loses its quotes and gains a space. */
  lemma UnquoteLeadingKey(key: string, rest: string)
    requires |key| > 0 && '"' !in key
    ensures UnquoteKeys("\"" + key + "\":" + rest) == key + ": " + UnquoteKeys(rest)
  {
    var s := "\"" + key + "\":" + rest;
    assert s[1..|key| + 1] == key;
    forall k | 1 <= k < |key| + 1
      ensures s[k] != '"'
    {
      assert s[k] == key[k - 1];
    }
    assert NextQuote(s, 1) == Some(|key| + 1) by {
      NextQuoteSkips(s, 1, |key| + 1);
    }
    assert s[|key| + 3..] == rest;
  }

  lemma {:induction false} NextQuoteSkips(s: string, from: nat, at: nat)
    requires from <= at < |s| && s[at] == '"'
    requires forall k :: from <= k < at ==> s[k] != '"'
    ensures NextQuote(s, from) == Some(at)
    decreases at - from
  {
    if from < at {
      NextQuoteSkips(s, from + 1, at);
    }
  }

  /** `.replace(/,/g, ', ')`. */
  function SpaceCommas(s: string): (r: string)
    ensures |r| >= |s|
  {
    if |s| == 0 then ""
    else (if s[0] == ',' then ", " else [s[0]]) + SpaceCommas(s[1..])
  }

  /** Dropping the character after each comma. */
  function UnspaceCommas(s: string): string
    decreases |s|
  {
    if |s| == 0 then ""
    else if s[0] == ',' && |s| >= 2 then "," + UnspaceCommas(s[2..])
    else [s[0]] + UnspaceCommas(s[1..])
  }

  /** Spacing the commas loses nothing: dropping the added spaces gives the text back. */
  lemma {:induction false} SpaceCommasRoundTrip(s: string)
    ensures UnspaceCommas(SpaceCommas(s)) == s
    decreases |s|
  {
    if |s| > 0 {
      SpaceCommasRoundTrip(s[1..]);
      var t := SpaceCommas(s);
      if s[0] == ',' {
        assert t == ", " + SpaceCommas(s[1..]);
        assert t[2..] == SpaceCommas(s[1..]);
      } else {
        assert t == [s[0]] + SpaceCommas(s[1..]);
        assert t[1..] == SpaceCommas(s[1..]);
      }
      assert [s[0]] + s[1..] == s;
    }
  }

  /**
   * The input as the hints print it with `JSON.stringify`: `undefined` for
   * `undefined`, and for objects, arrays and `null` (whose `typeof` is
   * "object") with unquoted keys and a space after each comma.
   */
  function InputText(v: Value): (t: string)
    ensures v.Undefined? ==> t == "undefined"
    ensures TypeOf(v) != "object" ==> Some(t) == JsonText(v) || v.Undefined?
  {
    match JsonText(v)
    case None => "undefined"
    case Some(json) => if TypeOf(v) == "object" then SpaceCommas(UnquoteKeys(json)) else json
  }

  /** The type the hints name: `typeof` of the input, so an array is named "object". */
  function InputType(v: Value): (t: string)
    ensures t != "array"
    ensures v.Arr? ==> t == "object"
  {
    TypeOf(v)
  }

  // ---------------------------------------------------------------------------
  // The hint.
  // ---------------------------------------------------------------------------

  /** The methods whose callback is the first argument, for the missing-callback hint. */
  const CALLBACK_FIRST_METHODS: seq<string> := ["filter", "map", "reduce", "find", "findIndex", "every", "some"]

  /** `${ARGUMENT_EXAMPLES[method]}`: the example arguments, "undefined" for a method without an entry. */
  function ExampleText(m: string): (t: string)
    ensures m in ARGUMENT_EXAMPLES ==> t == ARGUMENT_EXAMPLES[m]
  {
    if m in ARGUMENT_EXAMPLES then ARGUMENT_EXAMPLES[m] else "undefined"
  }

  /** `ARGUMENT_EXAMPLES[method]` is truthy: present and not empty. */
  predicate HasExample(m: string)
  {
    m in ARGUMENT_EXAMPLES && ARGUMENT_EXAMPLES[m] != ""
  }

  /**
   * The missing-callback message. As written, the period sits inside the
   * back-quotes ("`map.`"); corrected, it follows them ("`map`."), as in the
   * `flatMap` message.
   */
  function ForgotCallbackMessage(m: string, corrected: bool): (t: string)
    ensures |t| >= 2
    ensures corrected ==> t[|t| - 2..] == "`."
    ensures !corrected ==> t[|t| - 2..] == ".`"
  {
    "You probably forgot to add the callback as an argument to `" + m + (if corrected then "`." else ".`")
  }

  /**
   * The callee of the bad-argument examples. As written, `Object.` is put in
   * front of the traced method name, which already reads `Object.keys` and the
   * like; corrected, a name that already has the prefix is kept as it is.
   */
  function ObjectCallee(m: string, corrected: bool): (t: string)
    ensures !corrected ==> t == "Object." + m
    ensures corrected ==> |t| >= 7 && t[..7] == "Object."
    ensures corrected && |m| >= 7 && m[..7] == "Object." ==> t == m
  {
    if corrected && |m| >= 7 && m[..7] == "Object." then m else "Object." + m
  }

  /** Some pattern of the list recognises the message for this method. */
  predicate Explained(message: string, m: string)
  {
    (message == UNDEFINED_NOT_A_FUNCTION && m in CALLBACK_FIRST_METHODS) ||
    message == FLATMAP_NOT_CALLABLE ||
    NotAFunction(message, m) ||
    CannotRead(message, m) ||
    message == REDUCE_OF_EMPTY_ARRAY ||
    NotAnEntry(message) ||
    message == CANNOT_CONVERT_TO_OBJECT || IsInfix(NOT_ITERABLE, message)
  }

  /** The kinds of error the hints explain, in the order they are tried. */
  datatype Rule =
    | MissingCallback      // `undefined is not a function` from a callback method
    | MissingFlatMapper    // `flatMap` without its mapper
    | NotAFunctionRule     // the method does not exist on the input
    | ReadOfMissing        // the method was read from `undefined` or `null`
    | EmptyReduce          // `reduce` of an empty array without an initial value
    | NotEntries           // `fromEntries` of something that is not a list of pairs
    | BadObjectArgument    // a static `Object` method given an unusable argument

  /** The first rule whose pattern matches, if any. */
  function MatchingRule(message: string, m: string): (r: Option<Rule>)
    ensures r.None? <==> !Explained(message, m)
    ensures r == Some(MissingCallback) <==> message == UNDEFINED_NOT_A_FUNCTION && m in CALLBACK_FIRST_METHODS
    ensures r == Some(NotAFunctionRule) ==> NotAFunction(message, m)
    ensures r == Some(ReadOfMissing) ==> CannotRead(message, m) && !NotAFunction(message, m)
    ensures r == Some(MissingFlatMapper) <==> message == FLATMAP_NOT_CALLABLE
    ensures r == Some(EmptyReduce) ==> message == REDUCE_OF_EMPTY_ARRAY
    ensures r == Some(NotEntries) ==> NotAnEntry(message) && !NotAFunction(message, m) && !CannotRead(message, m)
    ensures r == Some(BadObjectArgument) ==>
      (message == CANNOT_CONVERT_TO_OBJECT || IsInfix(NOT_ITERABLE, message)) &&
      !NotAFunction(message, m) && !CannotRead(message, m) && message != REDUCE_OF_EMPTY_ARRAY && !NotAnEntry(message)
  {
    if message == UNDEFINED_NOT_A_FUNCTION && m in CALLBACK_FIRST_METHODS then Some(MissingCallback)
    else if message == FLATMAP_NOT_CALLABLE then Some(MissingFlatMapper)
    else if NotAFunction(message, m) then Some(NotAFunctionRule)
    else if CannotRead(message, m) then Some(ReadOfMissing)
    else if message == REDUCE_OF_EMPTY_ARRAY then Some(EmptyReduce)
    else if NotAnEntry(message) then Some(NotEntries)
    else if message == CANNOT_CONVERT_TO_OBJECT || IsInfix(NOT_ITERABLE, message) then Some(BadObjectArgument)
    else None
  }

  const FLATMAP_HINT_MESSAGE: string := "You probably forgot to add the callback as an argument to `flatMap`."
  const EMPTY_REDUCE_HINT_MESSAGE: string :=
    "When calling `reduce` on an empty array, you need to specify the initial value, which is the second argument given to `reduce`."
  const EMPTY_REDUCE_EXAMPLE: Example := Example("([]).reduce((acc, cur) => acc + cur)", "([]).reduce((acc, cur) => acc + cur, 0)")
  const NOT_ENTRIES_HINT_MESSAGE: string := "Argument given to `fromEntries` should have entry object format."
  const ENTRIES_EXAMPLE: string := "Object.fromEntries([['a', 1], ['b', 2], ['c', 3]])"

  /** The hint a rule gives for the last call's method and input; `corrected` selects the fixed texts. */
  function RuleHint(rule: Rule, m: string, input: Value, corrected: bool): (h: ResultErrorHint)
    ensures rule == NotAFunctionRule ==> (|h.examples| == 0 <==> !HasExample(m))
    ensures rule != NotAFunctionRule ==> |h.examples| == 1
  {
    ResultErrorHint(RuleMessage(rule, m, input, corrected), RuleExamples(rule, m, input, corrected))
  }

  /** The message of a rule's hint. */
  function RuleMessage(rule: Rule, m: string, input: Value, corrected: bool): string
  {
    match rule
    case MissingCallback => ForgotCallbackMessage(m, corrected)
    case MissingFlatMapper => FLATMAP_HINT_MESSAGE
    case NotAFunctionRule =>
      "You are trying to call `" + m + "` on `" + InputText(input) + "`, but `" + InputType(input) + "." + m
        + "` function does not exist."
    case ReadOfMissing =>
      "You are trying to call `" + m + "` on `" + ToText(input) + "`, but `" + ToText(input) + "." + m + "` function does not exist."
    case EmptyReduce => EMPTY_REDUCE_HINT_MESSAGE
    case NotEntries => NOT_ENTRIES_HINT_MESSAGE
    case BadObjectArgument => "Bad argument given to `" + m + "`."
  }

  /** The examples of a rule's hint: one, except for a missing method without example arguments. */
  function RuleExamples(rule: Rule, m: string, input: Value, corrected: bool): (es: seq<Example>)
    ensures rule == NotAFunctionRule ==> (|es| == 0 <==> !HasExample(m))
    ensures rule != NotAFunctionRule ==> |es| == 1
  {
    var example := ExampleText(m);
    match rule
    case MissingCallback => [Example("input." + m + "()", "input." + m + "(" + example + ")")]
    case MissingFlatMapper => [Example("input.flatMap()", "input.flatMap(" + ExampleText("flatMap") + ")")]
    case NotAFunctionRule =>
      if HasExample(m) then
        [Example("(" + InputText(input) + ")." + m + "(" + example + ")", "([1, 2, 3])." + m + "(" + example + ")")]
      else []
    case ReadOfMissing =>
      [Example("(" + ToText(input) + ")." + m + "(" + example + ")", "([1, 2, 3])." + m + "(" + example + ")")]
    case EmptyReduce => [EMPTY_REDUCE_EXAMPLE]
    case NotEntries => [Example("Object.fromEntries(" + InputText(input) + ")", ENTRIES_EXAMPLE)]
    case BadObjectArgument =>
      [Example(ObjectCallee(m, corrected) + "(" + ToText(input) + ")", ObjectCallee(m, corrected) + "(" + example + ")")]
  }

  /** The hint for an error, given the last traced call. */
  function Hint(message: string, lastStep: Option<Step>, corrected: bool): (r: Option<ResultErrorHint>)
    ensures r.Some? <==> lastStep.Some? && Explained(message, lastStep.value.methodName)
    ensures lastStep.Some? && r.Some? && MatchingRule(message, lastStep.value.methodName) == Some(NotAFunctionRule) ==>
      (|r.value.examples| == 0 <==> !HasExample(lastStep.value.methodName))
    ensures lastStep.Some? && r.Some? && MatchingRule(message, lastStep.value.methodName) != Some(NotAFunctionRule) ==>
      |r.value.examples| == 1
  {
    if lastStep.None? then None
    else
      match MatchingRule(message, lastStep.value.methodName)
      case None => None
      case Some(rule) => Some(RuleHint(rule, lastStep.value.methodName, lastStep.value.input, corrected))
  }

  /** The hint as the program writes it, with both slips. */
  function GetErrorHintAsWritten(message: string, lastStep: Option<Step>): (r: Option<ResultErrorHint>)
    ensures r.Some? <==> lastStep.Some? && Explained(message, lastStep.value.methodName)
    ensures lastStep.Some? && r.Some? && MatchingRule(message, lastStep.value.methodName) == Some(NotAFunctionRule) ==>
      (|r.value.examples| == 0 <==> !HasExample(lastStep.value.methodName))
    ensures lastStep.Some? && r.Some? && MatchingRule(message, lastStep.value.methodName) != Some(NotAFunctionRule) ==>
      |r.value.examples| == 1
  {
    Hint(message, lastStep, false)
  }

  /** The hint the engine attaches, with the two slips corrected. */
  function GetErrorHint(message: string, lastStep: Option<Step>): (r: Option<ResultErrorHint>)
    ensures r.Some? <==> lastStep.Some? && Explained(message, lastStep.value.methodName)
    ensures lastStep.None? ==> r.None?
    ensures lastStep.Some? && r.Some? && MatchingRule(message, lastStep.value.methodName) == Some(NotAFunctionRule) ==>
      (|r.value.examples| == 0 <==> !HasExample(lastStep.value.methodName))
    ensures lastStep.Some? && r.Some? && MatchingRule(message, lastStep.value.methodName) != Some(NotAFunctionRule) ==>
      |r.value.examples| == 1
  {
    Hint(message, lastStep, true)
  }

  /** Without a traced call there is nothing to explain the error with. */
  lemma NoHintWithoutStep(message: string)
    ensures GetErrorHint(message, None) == None
  {
  }

  /** A message without a capital C cannot be a read-property message. */
  lemma {:induction false} NoCapitalCNoRead(message: string, m: string)
    requires 'C' !in message
    ensures !CannotRead(message, m)
  {
    forall i | 0 <= i <= |message|
      ensures !OccursAt("Cannot read propert", message, i)
    {
      if i + 19 <= |message| {
        assert message[i] in message;
      }
    }
  }

  /**
   * A message that reports a value as not iterable is explained by the
   * bad-argument rule, however long the method name, as long as it is too
   * short to hold the earlier patterns.
   */
  lemma NotIterableRule(subject: string, m: string)
    requires 'C' !in subject && |subject| < |m|
    ensures MatchingRule(subject + NOT_ITERABLE, m) == Some(BadObjectArgument)
  {
    var message := subject + NOT_ITERABLE;
    assert message[|subject|..] == NOT_ITERABLE;
    assert 'C' !in message by {
      assert forall c :: c in message ==> c in subject || c in NOT_ITERABLE;
    }
    NoCapitalCNoRead(message, m);
    assert |message| == |subject| + 15;
    assert !NotAnEntry(message) by {
      assert message[|message| - 1] == 'e' && ITERATOR_SUFFIX[|ITERATOR_SUFFIX| - 1] == 't';
    }
    assert IsInfix(NOT_ITERABLE, message) by {
      assert OccursAt(NOT_ITERABLE, message, |subject|);
    }
  }

  /** The traced call `Object.fromEntries(null)`. */
  const FROM_ENTRIES_OF_NULL: Step := Step("Object.fromEntries", ["null"], Null, Undefined, None, None)

  /**
   * As written, the bad-argument examples put `Object.` in front of a method
   * name that already carries it.
   */
  lemma DoubledObjectPrefix()
    ensures GetErrorHintAsWritten("null " + NOT_ITERABLE, Some(FROM_ENTRIES_OF_NULL)).Some?
    ensures GetErrorHintAsWritten("null " + NOT_ITERABLE, Some(FROM_ENTRIES_OF_NULL)).value.examples
      == [Example("Object.Object.fromEntries(null)", "Object.Object.fromEntries([['a', 1], ['b', 2], ['c', 3]])")]
  {
    var m := "Object.fromEntries";
    assert GetErrorHintAsWritten("null " + NOT_ITERABLE, Some(FROM_ENTRIES_OF_NULL))
      == Some(RuleHint(BadObjectArgument, m, Null, false)) by {
      NotIterableRule("null ", m);
    }
    FromEntriesOfNullExamplesAsWritten();
  }

  lemma FromEntriesOfNullExamplesAsWritten()
    ensures RuleHint(BadObjectArgument, "Object.fromEntries", Null, false).examples
      == [Example("Object.Object.fromEntries(null)", "Object.Object.fromEntries([['a', 1], ['b', 2], ['c', 3]])")]
  {
    var m := "Object.fromEntries";
    assert RuleHint(BadObjectArgument, m, Null, false).examples
      == [Example(ObjectCallee(m, false) + "(" + ToText(Null) + ")", ObjectCallee(m, false) + "(" + ExampleText(m) + ")")];
    FromEntriesOfNullTextsAsWritten();
  }

  lemma FromEntriesOfNullTextsAsWritten()
    ensures ToText(Null) == "null"
    ensures ExampleText("Object.fromEntries") == "[['a', 1], ['b', 2], ['c', 3]]"
    ensures ObjectCallee("Object.fromEntries", false) == "Object.Object.fromEntries"
    ensures "Object.Object.fromEntries" + "(" + "null" + ")" == "Object.Object.fromEntries(null)"
    ensures "Object.Object.fromEntries" + "(" + "[['a', 1], ['b', 2], ['c', 3]]" + ")"
      == "Object.Object.fromEntries([['a', 1], ['b', 2], ['c', 3]])"
  {
    FromEntriesExample();
    HintTexts.DoubledCallee();
    HintTexts.DoubledCalleeOfNull();
    HintTexts.DoubledCalleeOfExample();
  }

  lemma FromEntriesExample()
    ensures ExampleText("Object.fromEntries") == "[['a', 1], ['b', 2], ['c', 3]]"
    ensures ARGUMENT_EXAMPLES["Object.fromEntries"] == "[['a', 1], ['b', 2], ['c', 3]]"
  {
  }

  /** Corrected, the bad-argument examples call the traced static method itself. */
  lemma BadArgumentExamplesCallTheMethod(message: string, step: Step)
    requires step.methodName in OBJECT_METHODS
    requires MatchingRule(message, step.methodName) == Some(BadObjectArgument)
    ensures GetErrorHint(message, Some(step)) == Some(ResultErrorHint(
      "Bad argument given to `" + step.methodName + "`.",
      [Example(step.methodName + "(" + ToText(step.input) + ")",
               step.methodName + "(" + ARGUMENT_EXAMPLES[step.methodName] + ")")]))
  {
    var m := step.methodName;
    assert |m| >= 7 && m[..7] == "Object.";
    ObjectExamplesNonEmpty();
    BadArgumentHintOf(message, step, true);
  }

  /** The bad-argument hint, piece by piece. */
  lemma BadArgumentHintOf(message: string, step: Step, corrected: bool)
    requires MatchingRule(message, step.methodName) == Some(BadObjectArgument)
    ensures Hint(message, Some(step), corrected) == Some(ResultErrorHint(
      "Bad argument given to `" + step.methodName + "`.",
      [Example(ObjectCallee(step.methodName, corrected) + "(" + ToText(step.input) + ")",
               ObjectCallee(step.methodName, corrected) + "(" + ExampleText(step.methodName) + ")")]))
  {
  }

  /** The corrected hint for `Object.fromEntries(null)`. */
  lemma FromEntriesOfNullHint()
    ensures GetErrorHint("null " + NOT_ITERABLE, Some(FROM_ENTRIES_OF_NULL)) == Some(ResultErrorHint(
      "Bad argument given to `Object.fromEntries`.",
      [Example("Object.fromEntries(null)", "Object.fromEntries([['a', 1], ['b', 2], ['c', 3]])")]))
  {
    var m := "Object.fromEntries";
    assert GetErrorHint("null " + NOT_ITERABLE, Some(FROM_ENTRIES_OF_NULL)) == Some(ResultErrorHint(
      "Bad argument given to `" + m + "`.",
      [Example(m + "(" + ToText(Null) + ")", m + "(" + ARGUMENT_EXAMPLES[m] + ")")])) by {
      NotIterableRule("null ", m);
      BadArgumentExamplesCallTheMethod("null " + NOT_ITERABLE, FROM_ENTRIES_OF_NULL);
    }
    FromEntriesOfNullTexts();
  }

  lemma FromEntriesOfNullTexts()
    ensures ToText(Null) == "null"
    ensures ARGUMENT_EXAMPLES["Object.fromEntries"] == "[['a', 1], ['b', 2], ['c', 3]]"
    ensures "Bad argument given to `" + "Object.fromEntries" + "`." == "Bad argument given to `Object.fromEntries`."
    ensures "Object.fromEntries" + "(" + "null" + ")" == "Object.fromEntries(null)"
    ensures "Object.fromEntries" + "(" + "[['a', 1], ['b', 2], ['c', 3]]" + ")"
      == "Object.fromEntries([['a', 1], ['b', 2], ['c', 3]])"
  {
    FromEntriesExample();
    HintTexts.BadArgumentOfFromEntries();
    HintTexts.CalleeOfNull();
    HintTexts.CalleeOfExample();
  }

  /** The traced call `input.map()`, whose callback is missing. */
  const MAP_WITHOUT_CALLBACK: Step := Step("map", [], Arr([Num(1)]), Undefined, None, None)

  /** As written, the missing-callback message closes its back-quotes after the period. */
  lemma PeriodInsideBackQuotes()
    ensures GetErrorHintAsWritten(UNDEFINED_NOT_A_FUNCTION, Some(MAP_WITHOUT_CALLBACK)) == Some(ResultErrorHint(
      "You probably forgot to add the callback as an argument to `map.`",
      [Example("input.map()", "input.map(a => a + 1)")]))
  {
    MapMissingCallbackRule();
    MissingCallbackHintOf(UNDEFINED_NOT_A_FUNCTION, MAP_WITHOUT_CALLBACK, false);
    assert ExampleText("map") == "a => a + 1";
    HintTexts.ForgotMapCallback();
    HintTexts.MapWithoutArguments();
    HintTexts.MapWithExample();
  }

  lemma MapMissingCallbackRule()
    ensures MatchingRule(UNDEFINED_NOT_A_FUNCTION, "map") == Some(MissingCallback)
  {
    assert CALLBACK_FIRST_METHODS[1] == "map";
  }

  /** The missing-callback hint, piece by piece. */
  lemma MissingCallbackHintOf(message: string, step: Step, corrected: bool)
    requires MatchingRule(message, step.methodName) == Some(MissingCallback)
    ensures Hint(message, Some(step), corrected) == Some(ResultErrorHint(
      ForgotCallbackMessage(step.methodName, corrected),
      [Example("input." + step.methodName + "()", "input." + step.methodName + "(" + ExampleText(step.methodName) + ")")]))
  {
  }

  /**
   * Corrected, the missing-callback message names the method in back-quotes
   * and ends with a period, for every callback method, like the `flatMap` one.
   */
  lemma MissingCallbackNamesTheMethod(step: Step)
    requires step.methodName in CALLBACK_FIRST_METHODS
    ensures GetErrorHint(UNDEFINED_NOT_A_FUNCTION, Some(step)) == Some(ResultErrorHint(
      "You probably forgot to add the callback as an argument to `" + step.methodName + "`.",
      [Example("input." + step.methodName + "()", "input." + step.methodName + "(" + ARGUMENT_EXAMPLES[step.methodName] + ")")]))
  {
    CallbackExamplesNonEmpty();
    assert step.methodName in CALLBACK_METHODS;
    MissingCallbackHintOf(UNDEFINED_NOT_A_FUNCTION, step, true);
  }

  /**
   * Reading a method of `undefined` is explained with the input printed as
   * `undefined`, unless the message also reads as a missing method.
   */
  lemma ReadOfUndefinedHint(step: Step)
    requires '$' !in step.methodName && step.input.Undefined?
    requires !NotAFunction(ReadPropertyOfUndefined(step.methodName), step.methodName)
    ensures GetErrorHint(ReadPropertyOfUndefined(step.methodName), Some(step)).Some?
    ensures GetErrorHint(ReadPropertyOfUndefined(step.methodName), Some(step)).value.message
      == "You are trying to call `" + step.methodName + "` on `undefined`, but `undefined."
        + step.methodName + "` function does not exist."
  {
    var m := step.methodName;
    assert GetErrorHint(ReadPropertyOfUndefined(m), Some(step)) == Some(RuleHint(ReadOfMissing, m, Undefined, true)) by {
      ReadPropertyRule(m);
    }
    ReadOfMissingMessage(m);
  }

  lemma ReadOfMissingMessage(m: string)
    ensures RuleHint(ReadOfMissing, m, Undefined, true).message
      == "You are trying to call `" + m + "` on `undefined`, but `undefined." + m + "` function does not exist."
  {
    ReadOfMissingMessageOf(m, Undefined);
    assert ToText(Undefined) == "undefined";
    HintTexts.UndefinedShown(m);
  }

  lemma ReadOfMissingMessageOf(m: string, input: Value)
    ensures RuleHint(ReadOfMissing, m, input, true).message
      == "You are trying to call `" + m + "` on `" + ToText(input) + "`, but `" + ToText(input) + "." + m + "` function does not exist."
  {
  }

  /** The engine's read-property message selects the read-property rule when no earlier rule applies. */
  lemma ReadPropertyRule(m: string)
    requires '$' !in m
    requires !NotAFunction(ReadPropertyOfUndefined(m), m)
    ensures MatchingRule(ReadPropertyOfUndefined(m), m) == Some(ReadOfMissing)
  {
    var message := ReadPropertyOfUndefined(m);
    ReadPropertyMessageMatches(m);
    assert message[0] == 'C' by {
      assert message[..35] == "Cannot read properties of undefined";
    }
    assert message != UNDEFINED_NOT_A_FUNCTION && message != FLATMAP_NOT_CALLABLE by {
      assert UNDEFINED_NOT_A_FUNCTION[0] == 'u' && FLATMAP_NOT_CALLABLE[0] == 'f';
    }
  }

  /** An array input is named with its `typeof`, "object", in the missing-method hint. */
  lemma ArrayNamedObject(message: string, step: Step)
    requires step.input.Arr?
    requires MatchingRule(message, step.methodName) == Some(NotAFunctionRule)
    ensures GetErrorHint(message, Some(step)).value.message
      == "You are trying to call `" + step.methodName + "` on `" + InputText(step.input)
        + "`, but `object." + step.methodName + "` function does not exist."
  {
  }

  // ---------------------------------------------------------------------------
  // The remaining rules, over all last steps.
  // ---------------------------------------------------------------------------

  /** A message without a lower-case s cannot say that something "is not a function". */
  lemma NoLetterSNotAFunction(message: string, m: string)
    requires 's' !in message
    ensures !NotAFunction(message, m)
  {
    var p := MethodPattern(m) + LitPattern(" is not a function");
    forall i | 0 <= i <= |message| - |p|
      ensures !PatternAt(p, message, i)
    {
      assert p[|m| + 2] == Lit('s');
      assert message[i + |m| + 2] in message;
    }
  }

  /** The empty-reduce message selects the empty-reduce rule, whatever the method. */
  lemma EmptyReduceRule(m: string)
    ensures MatchingRule(REDUCE_OF_EMPTY_ARRAY, m) == Some(EmptyReduce)
  {
    ReduceMessageLetters();
    NoLetterSNotAFunction(REDUCE_OF_EMPTY_ARRAY, m);
    NoCapitalCNoRead(REDUCE_OF_EMPTY_ARRAY, m);
    assert REDUCE_OF_EMPTY_ARRAY[0] == 'R';
  }

  lemma ReduceMessageLetters()
    ensures 's' !in REDUCE_OF_EMPTY_ARRAY && 'C' !in REDUCE_OF_EMPTY_ARRAY
  {
    HintTexts.ReduceMessageLetters();
  }

  /**
   * A not-an-entry message selects the not-an-entry rule unless it also reads
   * as a missing method or a read of a missing property, which are tried first.
   */
  lemma NotEntriesRule(message: string, m: string)
    requires NotAnEntry(message) && !NotAFunction(message, m) && !CannotRead(message, m)
    ensures MatchingRule(message, m) == Some(NotEntries)
  {
    assert message[0] == ITERATOR_PREFIX[0] == 'I';
    assert UNDEFINED_NOT_A_FUNCTION[0] == 'u' && FLATMAP_NOT_CALLABLE[0] == 'f' && REDUCE_OF_EMPTY_ARRAY[0] == 'R';
  }

  /** The flatMap message gives the flatMap hint, whatever the last method. */
  lemma MissingFlatMapperHint(step: Step, corrected: bool)
    ensures Hint(FLATMAP_NOT_CALLABLE, Some(step), corrected) == Some(ResultErrorHint(
      FLATMAP_HINT_MESSAGE, [Example("input.flatMap()", "input.flatMap(" + ExampleText("flatMap") + ")")]))
  {
    assert FLATMAP_NOT_CALLABLE != UNDEFINED_NOT_A_FUNCTION by {
      assert FLATMAP_NOT_CALLABLE[0] == 'f' && UNDEFINED_NOT_A_FUNCTION[0] == 'u';
    }
    assert MatchingRule(FLATMAP_NOT_CALLABLE, step.methodName) == Some(MissingFlatMapper);
  }

  /** The empty-reduce message gives the fixed empty-reduce hint, whatever the last method. */
  lemma EmptyReduceHint(step: Step, corrected: bool)
    ensures Hint(REDUCE_OF_EMPTY_ARRAY, Some(step), corrected) == Some(ResultErrorHint(EMPTY_REDUCE_HINT_MESSAGE, [EMPTY_REDUCE_EXAMPLE]))
  {
    EmptyReduceRule(step.methodName);
  }

  /** A not-an-entry message that no earlier rule explains shows the input given to `fromEntries`. */
  lemma NotEntriesHint(message: string, step: Step, corrected: bool)
    requires NotAnEntry(message) && !NotAFunction(message, step.methodName) && !CannotRead(message, step.methodName)
    ensures Hint(message, Some(step), corrected) == Some(ResultErrorHint(
      NOT_ENTRIES_HINT_MESSAGE, [Example("Object.fromEntries(" + InputText(step.input) + ")", ENTRIES_EXAMPLE)]))
  {
    NotEntriesRule(message, step.methodName);
  }

  /**
   * A missing method is explained with the input's text and `typeof`; the
   * example calls the method on the input and on an array, and is left out
   * when the method has no example arguments.
   */
  lemma NotAFunctionHintOf(message: string, step: Step, corrected: bool)
    requires MatchingRule(message, step.methodName) == Some(NotAFunctionRule)
    ensures Hint(message, Some(step), corrected) == Some(ResultErrorHint(
      "You are trying to call `" + step.methodName + "` on `" + InputText(step.input) + "`, but `"
        + InputType(step.input) + "." + step.methodName + "` function does not exist.",
      if HasExample(step.methodName) then
        [Example("(" + InputText(step.input) + ")." + step.methodName + "(" + ARGUMENT_EXAMPLES[step.methodName] + ")",
                 "([1, 2, 3])." + step.methodName + "(" + ARGUMENT_EXAMPLES[step.methodName] + ")")]
      else []))
  {
  }

  /** A read of a missing method shows the input as `String` prints it, in the message and the example. */
  lemma ReadOfMissingHintOf(message: string, step: Step, corrected: bool)
    requires MatchingRule(message, step.methodName) == Some(ReadOfMissing)
    ensures Hint(message, Some(step), corrected) == Some(ResultErrorHint(
      "You are trying to call `" + step.methodName + "` on `" + ToText(step.input) + "`, but `"
        + ToText(step.input) + "." + step.methodName + "` function does not exist.",
      [Example("(" + ToText(step.input) + ")." + step.methodName + "(" + ExampleText(step.methodName) + ")",
               "([1, 2, 3])." + step.methodName + "(" + ExampleText(step.methodName) + ")")]))
  {
  }

  /**
   * The two corrections touch only the missing-callback and bad-argument
   * hints: for every other error the hint is the one the program writes.
   */
  lemma CorrectionTouchesTwoRules(message: string, lastStep: Option<Step>)
    requires lastStep.Some? ==>
      MatchingRule(message, lastStep.value.methodName) != Some(MissingCallback) &&
      MatchingRule(message, lastStep.value.methodName) != Some(BadObjectArgument)
    ensures GetErrorHint(message, lastStep) == GetErrorHintAsWritten(message, lastStep)
  {
  }
}

=== FILE: execute.dfy ===
/**
 * The trace request: parse the source, validate its shape, queue the calls of
 * the returned expression and trace each of them in turn. A traced call becomes
 * a step; the step is appended before it is evaluated, so a call that fails
 * leaves its half-built step behind for the error hint.
 */
module Execute {
  import opened Wrappers
  import opened Ast
  import opened Types
  import opened Runtime
  import opened RootCall
  import opened CallQueue
  import opened PartialValue
  import opened StepByStep
  import opened Warnings
  import ErrorHint

  // ---------------------------------------------------------------------------
  // Which queued calls are traced, and under which name.
  // ---------------------------------------------------------------------------

  /**
   * A queued call is traced when it is a method call `receiver.name(...)` whose
   * receiver is a name, an array or object literal, a call or a property read;
   * every other queued call is passed over.
   */
  predicate Traced(node: Node)
  {
    node.CallExpression? && IsMemberExpression(node.callee) && IsIdentifier(node.callee.property) &&
    (IsIdentifier(node.callee.obj) || IsArrayExpression(node.callee.obj) || IsObjectExpression(node.callee.obj) ||
     IsCallExpression(node.callee.obj) || IsMemberExpression(node.callee.obj))
  }

  /** A static call on the global `Object`, such as `Object.keys(x)`. */
  predicate OnObject(node: Node)
    requires Traced(node)
  {
    IsIdentifier(node.callee.obj) && node.callee.obj.name == "Object"
  }

  /** The method name a step records: `Object.` and the name for static `Object` calls, the bare name otherwise. */
  function MethodName(node: Node): (m: string)
    requires Traced(node)
    ensures OnObject(node) ==> m == "Object." + node.callee.property.name
    ensures !OnObject(node) ==> m == node.callee.property.name
    ensures m[|m| - |node.callee.property.name|..] == node.callee.property.name
  {
    (if OnObject(node) then "Object." else "") + node.callee.property.name
  }

  /** The source text of each argument, in order. */
  function ArgumentTexts(env: Env, args: seq<Node>): (ts: seq<string>)
    ensures |ts| == |args|
    ensures forall i :: 0 <= i < |args| ==> ts[i] == env.generate(args[i])
  {
    seq(|args|, i requires 0 <= i < |args| => env.generate(args[i]))
  }

  /** The step as it is appended, before anything about the call is evaluated. */
  function FreshStep(env: Env, node: Node): (s: Step)
    requires Traced(node)
  {
    Step(MethodName(node), ArgumentTexts(env, node.arguments), Undefined, Undefined, None, None)
  }

  /**
   * The source whose value is the first traced call's input: the first
   * argument, in parentheses, for static `Object` calls, and the receiver for
   * method calls. A static call without arguments throws.
   */
  function ReceiverSource(env: Env, node: Node): (r: Attempt<string>)
    requires Traced(node)
    ensures !OnObject(node) ==> r == Ok(env.generate(node.callee.obj))
    ensures OnObject(node) && |node.arguments| > 0 ==> r == Ok("(" + env.generate(node.arguments[0]) + ")")
    ensures OnObject(node) && |node.arguments| == 0 ==> r == Thrown(ReadPropertyOfUndefined("type"))
  {
    if OnObject(node) then
      match GenerateOptional(env, if |node.arguments| > 0 then Some(node.arguments[0]) else None)
      case Thrown(m) => Thrown(m)
      case Ok(text) => Ok("(" + text + ")")
    else Ok(env.generate(node.callee.obj))
  }

  /**
   * The input of the call at queue position `index`. Position 0 evaluates its
   * receiver; any later position reads the output of the step at position
   * `index - 1` of the steps appended so far, `pushed` (which already holds the
   * current step), and reading past their end throws.
   */
  function StepInput(env: Env, tree: Tree, index: nat, node: Node, pushed: seq<Step>): (r: Attempt<Value>)
    requires Traced(node)
    ensures index > 0 && index - 1 < |pushed| ==> r == Ok(pushed[index - 1].output)
    ensures index > 0 && index - 1 >= |pushed| ==> r == Thrown(ReadPropertyOfUndefined("output"))
  {
    if index == 0 then
      match ReceiverSource(env, node)
      case Thrown(m) => Thrown(m)
      case Ok(source) => GetPartialValue(env, tree, source)
    else if index - 1 < |pushed| then Ok(pushed[index - 1].output)
    else Thrown(ReadPropertyOfUndefined("output"))
  }

  // ---------------------------------------------------------------------------
  // The loop.
  // ---------------------------------------------------------------------------

  /** The steps so far, and whether the loop is still going or stopped on a thrown message. */
  datatype Progress = Running(steps: seq<Step>) | Failed(steps: seq<Step>, message: string)

  /** The per-element records of a step, or none when the instrumented run throws. */
  function ExecutionStepsOf(env: Env, tree: Tree, step: Step, node: Node): (r: Option<Value>)
    requires node.CallExpression?
    ensures GetStepByStepExecution(env, tree, step, node).Thrown? ==> r.None?
    ensures GetStepByStepExecution(env, tree, step, node).Ok? ==> r == GetStepByStepExecution(env, tree, step, node).value
  {
    match GetStepByStepExecution(env, tree, step, node)
    case Ok(records) => records
    case Thrown(_) => None
  }

  /**
   * Tracing one call: append its step, then fill in the input, the output, the
   * per-element records and the warnings, in that order. A throw while
   * evaluating the input or the output stops the loop with the half-built step
   * in place; a throw from the instrumented run is swallowed.
   */
  function TraceCall(env: Env, tree: Tree, index: nat, node: Node, steps: seq<Step>): (p: Progress)
    requires Traced(node)
    ensures |p.steps| == |steps| + 1 && p.steps[..|steps|] == steps
    ensures p.steps[|steps|].methodName == MethodName(node)
    ensures p.steps[|steps|].arguments == ArgumentTexts(env, node.arguments)
  {
    var appended := FreshStep(env, node);
    match StepInput(env, tree, index, node, steps + [appended])
    case Thrown(m) => Failed(steps + [appended], m)
    case Ok(input) =>
      var withInput := appended.(input := input);
      match GetPartialValue(env, tree, env.generate(node))
      case Thrown(m) => Failed(steps + [withInput], m)
      case Ok(output) =>
        var evaluated := withInput.(output := output);
        var recorded := evaluated.(executionSteps := ExecutionStepsOf(env, tree, evaluated, node));
        Running(steps + [recorded.(warnings := Some(GetWarnings(recorded)))])
  }

  /**
   * How a traced call ends: it goes on exactly when both its input and its
   * output evaluate, and then its step carries them and its warnings; a call
   * that stops has no output and no records, and one that stops on its input
   * has no input either and reports the input's message.
   */
  lemma TraceCallOutcome(env: Env, tree: Tree, index: nat, node: Node, steps: seq<Step>)
    requires Traced(node)
    ensures TraceCall(env, tree, index, node, steps).Running? <==>
      StepInput(env, tree, index, node, steps + [FreshStep(env, node)]).Ok? &&
      GetPartialValue(env, tree, env.generate(node)).Ok?
    ensures TraceCall(env, tree, index, node, steps).Running? ==>
      TraceCall(env, tree, index, node, steps).steps[|steps|].input == StepInput(env, tree, index, node, steps + [FreshStep(env, node)]).value
    ensures TraceCall(env, tree, index, node, steps).Running? ==>
      TraceCall(env, tree, index, node, steps).steps[|steps|].output == GetPartialValue(env, tree, env.generate(node)).value
    ensures TraceCall(env, tree, index, node, steps).Running? ==>
      TraceCall(env, tree, index, node, steps).steps[|steps|].warnings == Some(GetWarnings(TraceCall(env, tree, index, node, steps).steps[|steps|]))
    ensures TraceCall(env, tree, index, node, steps).Failed? ==>
      TraceCall(env, tree, index, node, steps).steps[|steps|].output == Undefined &&
      TraceCall(env, tree, index, node, steps).steps[|steps|].executionSteps.None?
    ensures TraceCall(env, tree, index, node, steps).Failed? && StepInput(env, tree, index, node, steps + [FreshStep(env, node)]).Thrown? ==>
      TraceCall(env, tree, index, node, steps).steps[|steps|].input == Undefined &&
      TraceCall(env, tree, index, node, steps).message == StepInput(env, tree, index, node, steps + [FreshStep(env, node)]).message
  {
  }

  /** The traced calls of a queue, in queue order. */
  function TracedCalls(queue: seq<Node>): (r: seq<Node>)
    ensures |r| <= |queue|
    ensures forall i :: 0 <= i < |r| ==> Traced(r[i])
  {
    if |queue| == 0 then []
    else (if Traced(queue[0]) then [queue[0]] else []) + TracedCalls(queue[1..])
  }

  lemma TracedCallsFrom(queue: seq<Node>, index: nat)
    requires index < |queue|
    ensures TracedCalls(queue[index..]) == (if Traced(queue[index]) then [queue[index]] else []) + TracedCalls(queue[index + 1..])
  {
    assert queue[index..][1..] == queue[index + 1..];
  }

  /**
   * The loop from queue position `index` on, with `steps` appended so far. It
   * only ever appends, and a loop that stops on a throw has appended the step
   * of the call that threw.
   */
  function RunFrom(env: Env, tree: Tree, queue: seq<Node>, index: nat, steps: seq<Step>): (p: Progress)
    requires index <= |queue|
    requires forall i :: 0 <= i < |queue| ==> queue[i].CallExpression?
    ensures |p.steps| >= |steps| && p.steps[..|steps|] == steps
    ensures p.Failed? ==> |p.steps| > |steps|
    decreases |queue| - index
  {
    if index == |queue| then Running(steps)
    else if !Traced(queue[index]) then RunFrom(env, tree, queue, index + 1, steps)
    else
      match TraceCall(env, tree, index, queue[index], steps)
      case Failed(s, m) => Failed(s, m)
      case Running(s) =>
        var p := RunFrom(env, tree, queue, index + 1, s);
        assert p.steps[..|steps|] == steps by {
          assert p.steps[..|s|][..|steps|] == s[..|steps|];
        }
        p
  }

  /**
   * The loop appends one step per traced call, named after that call, and
   * stops at the first call that throws, whose step is then the last one.
   */
  lemma {:induction false} RunFromShape(env: Env, tree: Tree, queue: seq<Node>, index: nat, steps: seq<Step>)
    requires index <= |queue|
    requires forall i :: 0 <= i < |queue| ==> queue[i].CallExpression?
    ensures RunFrom(env, tree, queue, index, steps).Running? ==>
      |RunFrom(env, tree, queue, index, steps).steps| == |steps| + |TracedCalls(queue[index..])|
    ensures RunFrom(env, tree, queue, index, steps).Running? ==> forall k :: 0 <= k < |TracedCalls(queue[index..])| ==>
      RunFrom(env, tree, queue, index, steps).steps[|steps| + k].methodName == CallNames(TracedCalls(queue[index..]))[k]
    ensures RunFrom(env, tree, queue, index, steps).Failed? ==>
      |RunFrom(env, tree, queue, index, steps).steps| <= |steps| + |TracedCalls(queue[index..])|
    decreases |queue| - index
  {
    if index < |queue| {
      TracedCallsFrom(queue, index);
      if !Traced(queue[index]) {
        RunFromShape(env, tree, queue, index + 1, steps);
        assert TracedCalls(queue[index..]) == TracedCalls(queue[index + 1..]);
        assert RunFrom(env, tree, queue, index, steps) == RunFrom(env, tree, queue, index + 1, steps);
      } else {
        match TraceCall(env, tree, index, queue[index], steps)
        case Failed(s, m) =>
        case Running(s) =>
          RunFromShape(env, tree, queue, index + 1, s);
          var calls := TracedCalls(queue[index + 1..]);
          CallNamesCons(queue[index], calls);
          RunFromExtends(RunFrom(env, tree, queue, index + 1, s), steps, s, MethodName(queue[index]), CallNames(calls));
      }
    }
  }

  /** A step named `first` followed by steps named `rest` is a run of steps named `[first] + rest`. */
  lemma RunFromExtends(p: Progress, steps: seq<Step>, s: seq<Step>, first: string, rest: seq<string>)
    requires |s| == |steps| + 1 && s[..|steps|] == steps && s[|steps|].methodName == first
    requires |p.steps| >= |s| && p.steps[..|s|] == s
    requires p.Running? ==> |p.steps| == |s| + |rest|
    requires p.Running? ==> forall k :: 0 <= k < |rest| ==> p.steps[|s| + k].methodName == rest[k]
    ensures p.Running? ==> forall k :: 0 <= k < |[first] + rest| ==> p.steps[|steps| + k].methodName == ([first] + rest)[k]
  {
    if p.Running? {
      forall k | 0 <= k < |[first] + rest|
        ensures p.steps[|steps| + k].methodName == ([first] + rest)[k]
      {
        if k == 0 {
          assert p.steps[|steps|] == p.steps[..|s|][|steps|];
        } else {
          assert ([first] + rest)[k] == rest[k - 1];
        }
      }
    }
  }

  /** The names of traced calls, in order. */
  function CallNames(calls: seq<Node>): (ns: seq<string>)
    requires forall k :: 0 <= k < |calls| ==> Traced(calls[k])
    ensures |ns| == |calls|
    ensures forall k :: 0 <= k < |calls| ==> ns[k] == MethodName(calls[k])
  {
    seq(|calls|, k requires 0 <= k < |calls| => MethodName(calls[k]))
  }

  lemma CallNamesCons(head: Node, rest: seq<Node>)
    requires Traced(head) && forall k :: 0 <= k < |rest| ==> Traced(rest[k])
    ensures CallNames([head] + rest) == [MethodName(head)] + CallNames(rest)
  {
    var l := CallNames([head] + rest);
    assert forall k :: 1 <= k < |l| ==> l[k] == CallNames(rest)[k - 1];
  }

  /** The loop as the program runs it, statement by statement. */
  method Trace(env: Env, tree: Tree, queue: seq<Node>) returns (p: Progress)
    requires forall i :: 0 <= i < |queue| ==> queue[i].CallExpression?
    ensures p == RunFrom(env, tree, queue, 0, [])
  {
    var steps: seq<Step> := [];
    var index := 0;
    while index < |queue|
      invariant index <= |queue|
      invariant RunFrom(env, tree, queue, 0, []) == RunFrom(env, tree, queue, index, steps)
      decreases |queue| - index
    {
      var node := queue[index];
      if Traced(node) {
        var traced := TraceCall(env, tree, index, node, steps);
        if traced.Failed? {
          return traced;
        }
        steps := traced.steps;
      }
      index := index + 1;
    }
    return Running(steps);
  }

  // ---------------------------------------------------------------------------
  // The request.
  // ---------------------------------------------------------------------------

  /** A request either ends in a validation error, which propagates, or in a result. */
  datatype Outcome = Rejected(error: ValidationError) | Completed(result: Result)

  /** The result of a run that threw: the steps so far, and the message with its hint. */
  function Failure(steps: seq<Step>, message: string): (r: Result)
    ensures r.steps == steps && !r.success
    ensures r.error == Some(ResultError(message, ErrorHint.GetErrorHint(message, Last(steps))))
    ensures |steps| == 0 ==> r.error.value.hint.None?
  {
    Result(steps, false, Some(ResultError(message, ErrorHint.GetErrorHint(message, Last(steps)))))
  }

  /** Tracing a source text. */
  function Execute(env: Env, source: string): (o: Outcome)
    ensures o.Rejected? <==> env.parse(source).Ok? && GetRootCallExpression(env.parse(source).value).Invalid?
    ensures o.Rejected? ==> o.error.kind == GetRootCallExpression(env.parse(source).value).kind
    ensures o.Completed? ==> (o.result.success <==> o.result.error.None?)
    ensures o.Completed? && !o.result.success ==>
      o.result.error.value.hint == ErrorHint.GetErrorHint(o.result.error.value.message, Last(o.result.steps))
    ensures env.parse(source).Thrown? ==> o == Completed(Result([], false, Some(ResultError(env.parse(source).message, None))))
  {
    match env.parse(source)
    case Thrown(m) => Completed(Failure([], m))
    case Ok(tree) =>
      match GetRootCallExpression(tree)
      case Invalid(kind) => Rejected(ValidationError(kind))
      case Crash(m) => Completed(Failure([], m))
      case Root(call) =>
        match RunFrom(env, tree, GetCallExpressionQueue(call), 0, [])
        case Running(steps) => Completed(Result(steps, true, None))
        case Failed(steps, m) => Completed(Failure(steps, m))
  }

  // ---------------------------------------------------------------------------
  // Properties of the loop.
  // ---------------------------------------------------------------------------

  /**
   * When no queued call is passed over, every step after the first takes its
   * input from the output of the step before it.
   */
  lemma {:induction false} InputFlowsAlongTheChain(env: Env, tree: Tree, queue: seq<Node>, index: nat, steps: seq<Step>)
    requires index <= |queue| && |steps| == index
    requires forall i :: 0 <= i < |queue| ==> queue[i].CallExpression? && Traced(queue[i])
    requires forall k :: 0 < k < |steps| ==> steps[k].input == steps[k - 1].output
    requires RunFrom(env, tree, queue, index, steps).Running?
    ensures forall k :: 0 < k < |RunFrom(env, tree, queue, index, steps).steps| ==>
      RunFrom(env, tree, queue, index, steps).steps[k].input == RunFrom(env, tree, queue, index, steps).steps[k - 1].output
    decreases |queue| - index
  {
    if index < |queue| {
      var node := queue[index];
      var p := TraceCall(env, tree, index, node, steps);
      assert p.Running? && RunFrom(env, tree, queue, index, steps) == RunFrom(env, tree, queue, index + 1, p.steps);
      var s := p.steps;
      RunningStepInput(env, tree, index, node, steps);
      if index > 0 {
        assert (steps + [FreshStep(env, node)])[index - 1] == steps[index - 1];
      }
      ChainExtends(steps, s);
      InputFlowsAlongTheChain(env, tree, queue, index + 1, s);
    }
  }

  /** A call that goes on has the input it read as its step's input. */
  lemma RunningStepInput(env: Env, tree: Tree, index: nat, node: Node, steps: seq<Step>)
    requires Traced(node)
    requires TraceCall(env, tree, index, node, steps).Running?
    ensures TraceCall(env, tree, index, node, steps).steps[|steps|].input
      == StepInput(env, tree, index, node, steps + [FreshStep(env, node)]).value
  {
  }

  /** A chained list of steps stays chained when one step taking the last output is appended. */
  lemma ChainExtends(steps: seq<Step>, s: seq<Step>)
    requires |s| == |steps| + 1 && s[..|steps|] == steps
    requires |steps| > 0 ==> s[|steps|].input == steps[|steps| - 1].output
    requires forall k :: 0 < k < |steps| ==> steps[k].input == steps[k - 1].output
    ensures forall k :: 0 < k < |s| ==> s[k].input == s[k - 1].output
  {
    forall k | 0 < k < |s|
      ensures s[k].input == s[k - 1].output
    {
      if k < |steps| {
        assert s[k] == steps[k] && s[k - 1] == steps[k - 1];
      }
    }
  }

  /** The whole chain: with no call passed over, inputs and outputs line up from the first step to the last. */
  lemma ChainedInputs(env: Env, tree: Tree, queue: seq<Node>)
    requires forall i :: 0 <= i < |queue| ==> queue[i].CallExpression? && Traced(queue[i])
    requires RunFrom(env, tree, queue, 0, []).Running?
    ensures forall k :: 0 < k < |RunFrom(env, tree, queue, 0, []).steps| ==>
      RunFrom(env, tree, queue, 0, []).steps[k].input == RunFrom(env, tree, queue, 0, []).steps[k - 1].output
  {
    InputFlowsAlongTheChain(env, tree, queue, 0, []);
  }

  /**
   * A queued call passed over shifts the positions: in `f(input).map(g)` the
   * first queued call, `f(input)`, is not a method call, so `map` sits at queue
   * position 1 and reads position 0 of the steps, which is its own step, whose
   * output is not yet set. Its input is `undefined`.
   */
  lemma PassedOverCallShiftsTheInput(env: Env, tree: Tree, skipped: Node, call: Node)
    requires skipped.CallExpression? && !Traced(skipped) && Traced(call)
    requires RunFrom(env, tree, [skipped, call], 0, []).Running?
    ensures |RunFrom(env, tree, [skipped, call], 0, []).steps| == 1
    ensures RunFrom(env, tree, [skipped, call], 0, []).steps[0].input == Undefined
  {
    var queue := [skipped, call];
    RunFromShape(env, tree, queue, 0, []);
    TraceCallOutcome(env, tree, 1, call, []);
    assert RunFrom(env, tree, queue, 0, []) == RunFrom(env, tree, queue, 1, []);
    assert RunFrom(env, tree, queue, 1, []).Running? ==> TraceCall(env, tree, 1, call, []).Running?;
  }

  /** Two calls passed over before a method call leave it reading past the steps: the run throws. */
  lemma TwoPassedOverCallsThrow(env: Env, tree: Tree, a: Node, b: Node, call: Node)
    requires a.CallExpression? && b.CallExpression? && !Traced(a) && !Traced(b) && Traced(call)
    ensures RunFrom(env, tree, [a, b, call], 0, []) == Failed([FreshStep(env, call)], ReadPropertyOfUndefined("output"))
  {
    var queue := [a, b, call];
    assert RunFrom(env, tree, queue, 0, []) == RunFrom(env, tree, queue, 2, []);
    assert StepInput(env, tree, 2, call, [FreshStep(env, call)]) == Thrown(ReadPropertyOfUndefined("output"));
  }

  /**
   * A throw from the instrumented run is swallowed: the call still succeeds,
   * with the same input and output, and only its records are missing.
   */
  lemma InstrumentationFailureIsSwallowed(env: Env, tree: Tree, index: nat, node: Node, steps: seq<Step>)
    requires Traced(node)
    requires StepInput(env, tree, index, node, steps + [FreshStep(env, node)]).Ok?
    requires GetPartialValue(env, tree, env.generate(node)).Ok?
    requires GetStepByStepExecution(env, tree,
      FreshStep(env, node).(input := StepInput(env, tree, index, node, steps + [FreshStep(env, node)]).value)
                          .(output := GetPartialValue(env, tree, env.generate(node)).value), node).Thrown?
    ensures TraceCall(env, tree, index, node, steps).Running?
    ensures TraceCall(env, tree, index, node, steps).steps[|steps|].executionSteps.None?
    ensures TraceCall(env, tree, index, node, steps).steps[|steps|].output == GetPartialValue(env, tree, env.generate(node)).value
  {
  }

  /** A failing run keeps the step it failed on, so the hint is about that call. */
  lemma FailureHintIsAboutTheFailingCall(env: Env, tree: Tree, queue: seq<Node>)
    requires forall i :: 0 <= i < |queue| ==> queue[i].CallExpression?
    requires RunFrom(env, tree, queue, 0, []).Failed?
    ensures |RunFrom(env, tree, queue, 0, []).steps| > 0
    ensures Failure(RunFrom(env, tree, queue, 0, []).steps, RunFrom(env, tree, queue, 0, []).message).error.value.hint
      == ErrorHint.GetErrorHint(RunFrom(env, tree, queue, 0, []).message,
           Some(RunFrom(env, tree, queue, 0, []).steps[|RunFrom(env, tree, queue, 0, []).steps| - 1]))
  {
  }

  /** A parse error is reported with no steps and no hint. */
  lemma ParseErrorHasNoHint(env: Env, source: string)
    requires env.parse(source).Thrown?
    ensures Execute(env, source).Completed?
    ensures Execute(env, source).result.steps == [] && !Execute(env, source).result.success
    ensures Execute(env, source).result.error.value.hint.None?
  {
  }
}

=== FILE: first_node.dfy ===
/** Parsing a fragment of source text down to its single statement. */
module FirstNode {
  import opened Wrappers
  import opened Ast
  import opened Runtime

  /** The program's statement when it has exactly one, and nothing otherwise. */
  function SoleStatement(p: Tree): (r: Option<Node>)
    ensures r.Some? <==> |p.programBody| == 1
    ensures r.Some? ==> r.value == p.programBody[0]
  {
    if |p.programBody| != 1 then None else Some(p.programBody[0])
  }

  /**
   * Parses `source` and keeps its statement when there is exactly one; a
   * syntax error of the parser is thrown on.
   */
  function GetFirstNodeFromSource(env: Env, source: string): (r: Attempt<Option<Node>>)
    ensures r.Thrown? <==> env.parse(source).Thrown?
    ensures r.Thrown? ==> r.message == env.parse(source).message
    ensures r.Ok? && r.value.Some? ==> |env.parse(source).value.programBody| == 1
    ensures r.Ok? && r.value.Some? ==> r.value.value == env.parse(source).value.programBody[0]
    ensures r.Ok? && r.value.None? ==> |env.parse(source).value.programBody| != 1
  {
    match env.parse(source)
    case Thrown(m) => Thrown(m)
    case Ok(p) => Ok(SoleStatement(p))
  }

  /**
   * The expression of a fragment that parsed to a single expression statement:
   * the only shape the callers splice into a tree.
   */
  function ExpressionOf(fragment: Option<Node>): (r: Option<Node>)
    ensures r.Some? <==> fragment.Some? && fragment.value.ExpressionStatement?
    ensures r.Some? ==> fragment.value == ExpressionStatement(r.value)
  {
    match fragment
    case Some(ExpressionStatement(e)) => Some(e)
    case _ => None
  }
}

=== FILE: hint_texts.dfy ===
/**
 * The concrete hint texts the error-hint lemmas compare against, assembled
 * from their pieces, one text per lemma. Kept apart from the hint definitions
 * so that checking them does not see those definitions.
 */
module HintTexts {
  // The bad-argument hint for `Object.fromEntries(null)`, as written.

  lemma DoubledCallee()
    ensures "Object." + "Object.fromEntries" == "Object.Object.fromEntries"
  {
  }

  lemma DoubledCalleeOfNull()
    ensures "Object.Object.fromEntries" + "(" + "null" + ")" == "Object.Object.fromEntries(null)"
  {
  }

  lemma DoubledCalleeOfExample()
    ensures "Object.Object.fromEntries" + "(" + "[['a', 1], ['b', 2], ['c', 3]]" + ")"
      == "Object.Object.fromEntries([['a', 1], ['b', 2], ['c', 3]])"
  {
  }

  // The same hint, corrected.

  lemma BadArgumentOfFromEntries()
    ensures "Bad argument given to `" + "Object.fromEntries" + "`." == "Bad argument given to `Object.fromEntries`."
  {
  }

  lemma CalleeOfNull()
    ensures "Object.fromEntries" + "(" + "null" + ")" == "Object.fromEntries(null)"
  {
  }

  lemma CalleeOfExample()
    ensures "Object.fromEntries" + "(" + "[['a', 1], ['b', 2], ['c', 3]]" + ")"
      == "Object.fromEntries([['a', 1], ['b', 2], ['c', 3]])"
  {
  }

  // The missing-callback hint for `input.map()`, as written.

  lemma ForgotMapCallback()
    ensures "You probably forgot to add the callback as an argument to `" + "map" + ".`"
      == "You probably forgot to add the callback as an argument to `map.`"
  {
  }

  lemma MapWithoutArguments()
    ensures "input." + "map" + "()" == "input.map()"
  {
  }

  lemma MapWithExample()
    ensures "input." + "map" + "(" + "a => a + 1" + ")" == "input.map(a => a + 1)"
  {
  }

  lemma UndefinedShown(m: string)
    ensures "You are trying to call `" + m + "` on `" + "undefined" + "`, but `" + "undefined" + "." + m + "` function does not exist."
      == "You are trying to call `" + m + "` on `undefined`, but `undefined." + m + "` function does not exist."
  {
  }

  // The letters of the empty-reduce message.

  lemma ReduceMessageLetters()
    ensures 's' !in "Reduce of empty array with no initial value"
    ensures 'C' !in "Reduce of empty array with no initial value"
  {
    ReduceMessageIndices("Reduce of empty array with no initial value");
  }

  lemma ReduceMessageIndices(t: string)
    requires t == "Reduce of empty array with no initial value"
    ensures forall i :: 0 <= i < |t| ==> t[i] != 's' && t[i] != 'C'
  {
  }
}

=== FILE: partial_value.dfy ===
/**
 * Partial values: the value of one sub-expression of the chain, obtained by
 * making the program's first `return` return that sub-expression instead and
 * running the program in the sandbox.
 */
module PartialValue {
  import opened Wrappers
  import opened Ast
  import opened Types
  import opened Runtime
  import opened FirstNode
  import opened RootCall
  import opened Consts

  /**
   * The replacing walk: the first `return` in walking order (with or without an
   * argument, inside a nested function or not) gets `x` as its argument; the
   * flag says whether there was one. Once it is replaced the walk changes
   * nothing more.
   */
  function ReplaceFirstReturn(n: Node, x: Node): (r: (Node, bool))
    ensures r.1 <==> ContainsReturn(n)
    ensures !r.1 ==> r.0 == n
    ensures n.Program? ==> r.0.Program?
    decreases n, 1
  {
    if n.ReturnStatement? then (ReturnStatement(Some(x)), true)
    else
      var (cs, found) := ReplaceFirstReturnSeq(Children(n), x, n);
      RebuildOwnChildren(n);
      (Rebuild(n, cs), found)
  }

  function ReplaceFirstReturnSeq(ns: seq<Node>, x: Node, parent: Node): (r: (seq<Node>, bool))
    requires forall i :: 0 <= i < |ns| ==> (parent decreases to ns[i])
    ensures |r.0| == |ns|
    ensures r.1 <==> AnyContainsReturn(ns, parent)
    ensures !r.1 ==> r.0 == ns
    decreases parent, 0, |ns|
  {
    if |ns| == 0 then ([], false)
    else
      var (c, found) := ReplaceFirstReturn(ns[0], x);
      if found then
        assert ([c] + ns[1..])[0] == c;
        ([c] + ns[1..], true)
      else
        var (rest, foundLater) := ReplaceFirstReturnSeq(ns[1..], x, parent);
        assert ([c] + rest)[1..] == rest;
        ([c] + rest, foundLater)
  }

  /** The first `return` statement in walking order, if any. */
  function FirstReturn(n: Node): (r: Option<Node>)
    ensures r.None? <==> !ContainsReturn(n)
    ensures r.Some? ==> r.value.ReturnStatement?
    decreases n, 1
  {
    if n.ReturnStatement? then Some(n) else FirstReturnSeq(Children(n), n)
  }

  function FirstReturnSeq(ns: seq<Node>, parent: Node): (r: Option<Node>)
    requires forall i :: 0 <= i < |ns| ==> (parent decreases to ns[i])
    ensures r.None? <==> !AnyContainsReturn(ns, parent)
    ensures r.Some? ==> r.value.ReturnStatement?
    decreases parent, 0, |ns|
  {
    if |ns| == 0 then None
    else if FirstReturn(ns[0]).Some? then FirstReturn(ns[0])
    else FirstReturnSeq(ns[1..], parent)
  }

  /** After the walk, the first `return` is the one that returns `x`. */
  lemma {:induction false} ReplaceSetsFirstReturn(n: Node, x: Node)
    requires ContainsReturn(n)
    ensures FirstReturn(ReplaceFirstReturn(n, x).0) == Some(ReturnStatement(Some(x)))
    decreases n, 1
  {
    if !n.ReturnStatement? {
      var m := ReplaceFirstReturn(n, x).0;
      assert Children(m) == ReplaceFirstReturnSeq(Children(n), x, n).0;
      ReplaceSeqSetsFirstReturn(Children(n), x, n, m);
    }
  }

  lemma {:induction false} ReplaceSeqSetsFirstReturn(ns: seq<Node>, x: Node, parent: Node, parent2: Node)
    requires forall i :: 0 <= i < |ns| ==> (parent decreases to ns[i])
    requires forall i :: 0 <= i < |ReplaceFirstReturnSeq(ns, x, parent).0| ==>
      (parent2 decreases to ReplaceFirstReturnSeq(ns, x, parent).0[i])
    requires AnyContainsReturn(ns, parent)
    ensures FirstReturnSeq(ReplaceFirstReturnSeq(ns, x, parent).0, parent2) == Some(ReturnStatement(Some(x)))
    decreases parent, 0, |ns|
  {
    var r := ReplaceFirstReturnSeq(ns, x, parent).0;
    if ContainsReturn(ns[0]) {
      var c := ReplaceFirstReturn(ns[0], x).0;
      ReplaceSetsFirstReturn(ns[0], x);
      assert r[0] == c;
      assert FirstReturn(r[0]).Some?;
    } else {
      assert r[0] == ns[0];
      assert FirstReturn(r[0]).None?;
      var rest := ReplaceFirstReturnSeq(ns[1..], x, parent).0;
      assert r[1..] == rest;
      ReplaceSeqSetsFirstReturn(ns[1..], x, parent, parent2);
      assert FirstReturnSeq(r, parent2) == FirstReturnSeq(rest, parent2);
    }
  }

  /** Replacing a second time changes nothing: the first `return` already returns `x`. */
  lemma {:induction false} ReplaceIdempotent(n: Node, x: Node)
    ensures ReplaceFirstReturn(ReplaceFirstReturn(n, x).0, x).0 == ReplaceFirstReturn(n, x).0
    decreases n, 1
  {
    if !n.ReturnStatement? {
      var cs := ReplaceFirstReturnSeq(Children(n), x, n).0;
      var m := Rebuild(n, cs);
      assert Children(m) == cs;
      ReplaceSeqIdempotent(Children(n), x, n, m);
      RebuildOwnChildren(m);
    }
  }

  lemma {:induction false} ReplaceSeqIdempotent(ns: seq<Node>, x: Node, parent: Node, parent2: Node)
    requires forall i :: 0 <= i < |ns| ==> (parent decreases to ns[i])
    requires forall i :: 0 <= i < |ReplaceFirstReturnSeq(ns, x, parent).0| ==>
      (parent2 decreases to ReplaceFirstReturnSeq(ns, x, parent).0[i])
    ensures ReplaceFirstReturnSeq(ReplaceFirstReturnSeq(ns, x, parent).0, x, parent2).0
      == ReplaceFirstReturnSeq(ns, x, parent).0
    decreases parent, 0, |ns|
  {
    var r := ReplaceFirstReturnSeq(ns, x, parent).0;
    if |ns| > 0 {
      var (c, found) := ReplaceFirstReturn(ns[0], x);
      ReplaceIdempotent(ns[0], x);
      assert r[0] == c;
      if found {
        ReplaceSetsFirstReturn(ns[0], x);
        assert r[1..] == ns[1..];
      } else {
        var rest := ReplaceFirstReturnSeq(ns[1..], x, parent).0;
        assert r[1..] == rest;
        ReplaceSeqIdempotent(ns[1..], x, parent, parent2);
      }
    }
  }

  /**
   * The program the sandbox runs for a fragment: when the fragment parsed to a
   * single expression statement, its expression replaces the argument of the
   * first `return`; otherwise the program is left as it is.
   */
  function PartialTree(tree: Tree, fragment: Option<Node>): (r: Tree)
    ensures ExpressionOf(fragment).None? ==> r == tree
    ensures ExpressionOf(fragment).Some? && ContainsReturn(tree) ==>
      FirstReturn(r) == Some(ReturnStatement(Some(ExpressionOf(fragment).value)))
  {
    match ExpressionOf(fragment)
    case None => tree
    case Some(e) =>
      if ContainsReturn(tree) then ReplaceSetsFirstReturn(tree, e); ReplaceFirstReturn(tree, e).0
      else ReplaceFirstReturn(tree, e).0
  }

  /**
   * The walk over a list changes exactly one element, the first that holds a
   * `return`, and keeps every element before and after it.
   */
  lemma {:induction false} ReplaceSeqAt(ns: seq<Node>, x: Node, parent: Node, i: nat)
    requires forall j :: 0 <= j < |ns| ==> (parent decreases to ns[j])
    requires i < |ns| && ContainsReturn(ns[i])
    requires forall j :: 0 <= j < i ==> !ContainsReturn(ns[j])
    ensures ReplaceFirstReturnSeq(ns, x, parent)
      == (ns[..i] + [ReplaceFirstReturn(ns[i], x).0] + ns[i + 1..], true)
    decreases i
  {
    var c := ReplaceFirstReturn(ns[i], x).0;
    if i == 0 {
      ReplaceSeqAtHead(ns, x, parent);
      SpliceAtHead(ns, c);
    } else {
      ReplaceSeqPastHead(ns, x, parent);
      assert ns[1..][i - 1] == ns[i];
      ReplaceSeqAt(ns[1..], x, parent, i - 1);
      SpliceBehindHead(ns, i, c);
    }
  }

  lemma ReplaceSeqAtHead(ns: seq<Node>, x: Node, parent: Node)
    requires forall j :: 0 <= j < |ns| ==> (parent decreases to ns[j])
    requires |ns| > 0 && ContainsReturn(ns[0])
    ensures ReplaceFirstReturnSeq(ns, x, parent) == ([ReplaceFirstReturn(ns[0], x).0] + ns[1..], true)
  {
    assert ReplaceFirstReturn(ns[0], x).1;
  }

  lemma ReplaceSeqPastHead(ns: seq<Node>, x: Node, parent: Node)
    requires forall j :: 0 <= j < |ns| ==> (parent decreases to ns[j])
    requires |ns| > 0 && !ContainsReturn(ns[0])
    ensures ReplaceFirstReturnSeq(ns, x, parent)
      == ([ns[0]] + ReplaceFirstReturnSeq(ns[1..], x, parent).0, ReplaceFirstReturnSeq(ns[1..], x, parent).1)
  {
    assert ReplaceFirstReturn(ns[0], x) == (ns[0], false);
  }

  lemma SpliceAtHead<T>(a: seq<T>, c: T)
    requires |a| > 0
    ensures a[..0] + [c] + a[1..] == [c] + a[1..]
  {
  }

  lemma SpliceBehindHead<T>(a: seq<T>, i: nat, c: T)
    requires 0 < i < |a|
    ensures [a[0]] + (a[1..][..i - 1] + [c] + a[1..][i..]) == a[..i] + [c] + a[i + 1..]
  {
    assert a[1..][..i - 1] == a[1..i] && a[1..][i..] == a[i + 1..];
    assert [a[0]] + a[1..i] == a[..i];
  }

  /**
   * On any node that is not itself a `return`: the walk rebuilds the node with
   * the same kind and fields, replaces inside the first child that holds a
   * `return`, and keeps every other child.
   */
  lemma ReplaceFirstReturnAt(n: Node, x: Node, i: nat)
    requires !n.ReturnStatement?
    requires i < |Children(n)| && ContainsReturn(Children(n)[i])
    requires forall j :: 0 <= j < i ==> !ContainsReturn(Children(n)[j])
    ensures ReplaceFirstReturn(n, x).1
    ensures ReplaceFirstReturn(n, x).0
      == Rebuild(n, Children(n)[..i] + [ReplaceFirstReturn(Children(n)[i], x).0] + Children(n)[i + 1..])
    ensures TypeTag(ReplaceFirstReturn(n, x).0) == TypeTag(n)
    ensures Children(ReplaceFirstReturn(n, x).0)[i] == ReplaceFirstReturn(Children(n)[i], x).0
    ensures forall j :: 0 <= j < |Children(n)| && j != i ==>
      Children(ReplaceFirstReturn(n, x).0)[j] == Children(n)[j]
  {
    var cs := Children(n);
    var c := ReplaceFirstReturn(cs[i], x).0;
    ReplaceSeqAt(cs, x, n, i);
    ReplaceUnfolds(n, x);
    SpliceKeepsOthers(cs, i, c);
  }

  lemma ReplaceUnfolds(n: Node, x: Node)
    requires !n.ReturnStatement?
    ensures ReplaceFirstReturn(n, x)
      == (Rebuild(n, ReplaceFirstReturnSeq(Children(n), x, n).0), ReplaceFirstReturnSeq(Children(n), x, n).1)
  {
  }

  lemma SpliceKeepsOthers<T>(a: seq<T>, i: nat, c: T)
    requires i < |a|
    ensures |a[..i] + [c] + a[i + 1..]| == |a|
    ensures (a[..i] + [c] + a[i + 1..])[i] == c
    ensures forall j :: 0 <= j < |a| && j != i ==> (a[..i] + [c] + a[i + 1..])[j] == a[j]
  {
  }

  /** The walk passes over leading nodes that hold no `return` and replaces in the last one. */
  lemma {:induction false} ReplaceInLast(ns: seq<Node>, x: Node, parent: Node)
    requires forall i :: 0 <= i < |ns| ==> (parent decreases to ns[i])
    requires |ns| > 0 && ContainsReturn(ns[|ns| - 1])
    requires forall i :: 0 <= i < |ns| - 1 ==> !ContainsReturn(ns[i])
    ensures ReplaceFirstReturnSeq(ns, x, parent)
      == (ns[..|ns| - 1] + [ReplaceFirstReturn(ns[|ns| - 1], x).0], true)
    decreases |ns|
  {
    if |ns| == 1 {
      ReplaceInSingle(ns, x, parent);
      assert ns[..0] + [ReplaceFirstReturn(ns[0], x).0] == [ReplaceFirstReturn(ns[0], x).0];
    } else {
      assert ns[1..][|ns[1..]| - 1] == ns[|ns| - 1];
      ReplaceInLast(ns[1..], x, parent);
      ReplaceAfterReturnFree(ns, x, parent);
    }
  }

  lemma ReplaceInSingle(ns: seq<Node>, x: Node, parent: Node)
    requires forall i :: 0 <= i < |ns| ==> (parent decreases to ns[i])
    requires |ns| == 1 && ContainsReturn(ns[0])
    ensures ReplaceFirstReturnSeq(ns, x, parent) == ([ReplaceFirstReturn(ns[0], x).0], true)
  {
    var c := ReplaceFirstReturn(ns[0], x).0;
    assert ReplaceFirstReturn(ns[0], x).1;
    assert ns[1..] == [] && [c] + ns[1..] == [c];
  }

  /** A leading node without `return` is passed over. */
  lemma ReplaceAfterReturnFree(ns: seq<Node>, x: Node, parent: Node)
    requires forall i :: 0 <= i < |ns| ==> (parent decreases to ns[i])
    requires |ns| > 1 && !ContainsReturn(ns[0])
    requires ReplaceFirstReturnSeq(ns[1..], x, parent)
      == (ns[1..][..|ns| - 2] + [ReplaceFirstReturn(ns[|ns| - 1], x).0], true)
    ensures ReplaceFirstReturnSeq(ns, x, parent)
      == (ns[..|ns| - 1] + [ReplaceFirstReturn(ns[|ns| - 1], x).0], true)
  {
    var last := ReplaceFirstReturn(ns[|ns| - 1], x).0;
    assert ReplaceFirstReturn(ns[0], x) == (ns[0], false);
    assert ns[..|ns| - 1] == [ns[0]] + ns[1..][..|ns| - 2];
    assert [ns[0]] + (ns[1..][..|ns| - 2] + [last]) == ns[..|ns| - 1] + [last];
  }

  /**
   * A node whose children hold no `return` except in the last one: the walk
   * replaces inside that last child and keeps everything else.
   */
  lemma ReplaceThroughLastChild(n: Node, x: Node)
    requires !n.ReturnStatement?
    requires |Children(n)| > 0 && ContainsReturn(Children(n)[|Children(n)| - 1])
    requires forall i :: 0 <= i < |Children(n)| - 1 ==> !ContainsReturn(Children(n)[i])
    ensures ContainsReturn(n)
    ensures ReplaceFirstReturn(n, x).0 == Rebuild(n,
      Children(n)[..|Children(n)| - 1] + [ReplaceFirstReturn(Children(n)[|Children(n)| - 1], x).0])
  {
    ReplaceInLast(Children(n), x, n);
  }

  /** `return <call>` at the end of a block without other `return`s: the call is swapped for `x`. */
  lemma ReplaceInMainBody(statements: seq<Node>, call: Node, x: Node)
    requires forall i :: 0 <= i < |statements| ==> !ContainsReturn(statements[i])
    ensures ContainsReturn(BlockStatement(statements + [ReturnStatement(Some(call))]))
    ensures ReplaceFirstReturn(BlockStatement(statements + [ReturnStatement(Some(call))]), x).0
      == BlockStatement(statements + [ReturnStatement(Some(x))])
  {
    var cs := statements + [ReturnStatement(Some(call))];
    assert cs[..|cs| - 1] == statements;
    ReplaceThroughLastChild(BlockStatement(cs), x);
  }

  /** The main declaration around a function body. */
  function MainDeclaration(kind: string, params: seq<Node>, body: Node): Tree
  {
    Program([VariableDeclaration(kind, [
      VariableDeclarator(Identifier(MAIN_FUNCTION_NAME), Some(ArrowFunctionExpression(params, body, false)))])])
  }

  /**
   * When the parameters hold no `return` and the body holds one, the walk
   * reaches the body unchanged and replaces inside it.
   */
  lemma ReplaceInMainDeclaration(kind: string, params: seq<Node>, body: Node, x: Node)
    requires forall i :: 0 <= i < |params| ==> !ContainsReturn(params[i])
    requires ContainsReturn(body)
    ensures PartialTree(MainDeclaration(kind, params, body), Some(ExpressionStatement(x)))
      == MainDeclaration(kind, params, ReplaceFirstReturn(body, x).0)
  {
    var f := ArrowFunctionExpression(params, body, false);
    ReplaceInArrow(params, body, x);
    var d := VariableDeclarator(Identifier(MAIN_FUNCTION_NAME), Some(f));
    ReplaceInDeclarator(MAIN_FUNCTION_NAME, f, x);
    var decl := VariableDeclaration(kind, [d]);
    ReplaceInSoleChild(decl, x);
    assert ReplaceFirstReturn(decl, x).0 == VariableDeclaration(kind, [ReplaceFirstReturn(d, x).0]);
    ReplaceInSoleChild(Program([decl]), x);
    PartialTreeReplaces(Program([decl]), x);
  }

  /** On a tree with a `return`, the altered tree is the tree with its first `return` replaced. */
  lemma PartialTreeReplaces(tree: Tree, x: Node)
    requires ContainsReturn(tree)
    ensures PartialTree(tree, Some(ExpressionStatement(x))) == ReplaceFirstReturn(tree, x).0
  {
    assert ExpressionOf(Some(ExpressionStatement(x))) == Some(x);
  }

  /** In an arrow function whose parameters hold no `return`, the walk replaces in the body. */
  lemma ReplaceInArrow(params: seq<Node>, body: Node, x: Node)
    requires forall i :: 0 <= i < |params| ==> !ContainsReturn(params[i])
    requires ContainsReturn(body)
    ensures ContainsReturn(ArrowFunctionExpression(params, body, false))
    ensures ReplaceFirstReturn(ArrowFunctionExpression(params, body, false), x).0
      == ArrowFunctionExpression(params, ReplaceFirstReturn(body, x).0, false)
  {
    var f := ArrowFunctionExpression(params, body, false);
    assert Children(f)[..|Children(f)| - 1] == params;
    ReplaceThroughLastChild(f, x);
  }

  /** In `name = init`, the walk passes over the name and replaces in the initialiser. */
  lemma ReplaceInDeclarator(name: string, init: Node, x: Node)
    requires ContainsReturn(init)
    ensures ContainsReturn(VariableDeclarator(Identifier(name), Some(init)))
    ensures ReplaceFirstReturn(VariableDeclarator(Identifier(name), Some(init)), x).0
      == VariableDeclarator(Identifier(name), Some(ReplaceFirstReturn(init, x).0))
  {
    var d := VariableDeclarator(Identifier(name), Some(init));
    assert Children(d) == [Identifier(name), init];
    assert Children(d)[..1] == [Identifier(name)];
    assert !ContainsReturn(Identifier(name));
    ReplaceThroughLastChild(d, x);
  }

  /** In a declaration or program with one child, the walk replaces in that child. */
  lemma ReplaceInSoleChild(n: Node, x: Node)
    requires n.VariableDeclaration? || n.Program?
    requires |Children(n)| == 1 && ContainsReturn(Children(n)[0])
    ensures ContainsReturn(n)
    ensures ReplaceFirstReturn(n, x).0 == RebuildList(n, [ReplaceFirstReturn(Children(n)[0], x).0])
  {
    assert Children(n)[..0] == [];
    ReplaceThroughLastChild(n, x);
  }

  /**
   * On an accepted program whose other statements and parameters hold no
   * `return`, the altered program returns exactly the fragment's expression.
   */
  lemma PartialTreeOfMainProgram(kind: string, params: seq<Node>, statements: seq<Node>, call: Node, x: Node)
    requires forall i :: 0 <= i < |params| ==> !ContainsReturn(params[i])
    requires forall i :: 0 <= i < |statements| ==> !ContainsReturn(statements[i])
    ensures PartialTree(MainProgram(kind, params, statements, call), Some(ExpressionStatement(x)))
      == MainProgram(kind, params, statements, x)
  {
    ReplaceInMainBody(statements, call, x);
    ReplaceInMainDeclaration(kind, params, BlockStatement(statements + [ReturnStatement(Some(call))]), x);
  }

  /**
   * A `return` that comes earlier in walking order than the main one, such as
   * one in a helper function declared in the body, is the one replaced: the
   * program still returns its root call.
   */
  lemma EarlierReturnIsReplacedInstead(kind: string, params: seq<Node>, helper: Node, call: Node, x: Node)
    requires forall i :: 0 <= i < |params| ==> !ContainsReturn(params[i])
    requires ContainsReturn(helper)
    ensures PartialTree(MainProgram(kind, params, [helper], call), Some(ExpressionStatement(x)))
      == MainProgram(kind, params, [ReplaceFirstReturn(helper, x).0], call)
  {
    var ret := ReturnStatement(Some(call));
    var b := BlockStatement([helper] + [ret]);
    var h' := ReplaceFirstReturn(helper, x).0;
    assert Children(b) == [helper, ret];
    assert ReplaceFirstReturnSeq(Children(b), x, b) == ([h'] + [ret], true);
    assert ReplaceFirstReturn(b, x).0 == BlockStatement([h'] + [ret]);
    ReplaceInMainDeclaration(kind, params, b, x);
  }

  /** The value of the fragment `source`, as the sandbox computes it for the altered program. */
  function GetPartialValue(env: Env, tree: Tree, source: string): (r: Attempt<Value>)
    ensures env.parse(source).Thrown? ==> r == Thrown(env.parse(source).message)
    ensures env.parse(source).Ok? ==>
      r == env.sandbox(SandboxProgram(env.generate(PartialTree(tree, SoleStatement(env.parse(source).value)))))
  {
    match GetFirstNodeFromSource(env, source)
    case Thrown(m) => Thrown(m)
    case Ok(fragment) => env.sandbox(SandboxProgram(env.generate(PartialTree(tree, fragment))))
  }
}

=== FILE: render.dfy ===
/**
 * The two ways the hint texts print a value: `JSON.stringify` and the string
 * conversion of a template literal. Numbers are the integers of the value model.
 */
module Render {
  import opened Wrappers
  import opened Strings
  import opened Types

  function DigitChar(d: nat): (c: char)
    requires d < 10
    ensures '0' <= c <= '9'
  {
    "0123456789"[d]
  }

  function DigitValue(c: char): (d: nat)
    requires '0' <= c <= '9'
    ensures d < 10
  {
    (c as int - '0' as int) as nat
  }

  /** The decimal digits of `n`, most significant first, with no leading zero. */
  function Digits(n: nat): (s: string)
    ensures |s| >= 1
    ensures forall i :: 0 <= i < |s| ==> '0' <= s[i] <= '9'
    ensures |s| > 1 ==> s[0] != '0'
  {
    if n < 10 then [DigitChar(n)] else Digits(n / 10) + [DigitChar(n % 10)]
  }

  /** Reads a run of decimal digits back as a number. */
  function ReadDigits(s: string): nat
    requires forall i :: 0 <= i < |s| ==> '0' <= s[i] <= '9'
  {
    if |s| == 0 then 0 else ReadDigits(s[..|s| - 1]) * 10 + DigitValue(s[|s| - 1])
  }

  /** Reading the printed digits gives the number back. */
  lemma {:induction false} DigitsRoundTrip(n: nat)
    ensures ReadDigits(Digits(n)) == n
  {
    if n >= 10 {
      var s := Digits(n);
      assert s[..|s| - 1] == Digits(n / 10);
      assert s[|s| - 1] == DigitChar(n % 10);
      DigitsRoundTrip(n / 10);
      DigitValueOfChar(n % 10);
    } else {
      DigitValueOfChar(n);
    }
  }

  lemma DigitValueOfChar(d: nat)
    requires d < 10
    ensures DigitValue(DigitChar(d)) == d
  {
  }

  /** How a number prints, in JSON and in a template literal alike. */
  function NumberText(n: int): (s: string)
    ensures |s| >= 1
    ensures n < 0 <==> s[0] == '-'
  {
    if n < 0 then "-" + Digits(-n) else Digits(n)
  }

  function HexDigit(d: nat): (c: char)
    requires d < 16
  {
    "0123456789abcdef"[d]
  }

  /** How `JSON.stringify` writes one character inside a string literal. */
  function EscapeChar(c: char): (e: string)
    ensures |e| >= 1
    ensures |e| == 1 <==> e == [c]
    ensures |e| > 1 ==> e[0] == '\\'
  {
    if c == '"' then "\\\""
    else if c == '\\' then "\\\\"
    else if c == '\U{8}' then "\\b"
    else if c == '\U{C}' then "\\f"
    else if c == '\n' then "\\n"
    else if c == '\r' then "\\r"
    else if c == '\t' then "\\t"
    else if c < ' ' then "\\u00" + [HexDigit(c as int / 16), HexDigit(c as int % 16)]
    else [c]
  }

  function Escape(s: string): string
  {
    if |s| == 0 then "" else EscapeChar(s[0]) + Escape(s[1..])
  }

  /** A string value as `JSON.stringify` writes it. */
  function Quote(s: string): (q: string)
    ensures |q| >= 2 && q[0] == '"' && q[|q| - 1] == '"'
  {
    "\"" + Escape(s) + "\""
  }

  function HexValue(c: char): Option<nat>
  {
    if '0' <= c <= '9' then Some(c as int - '0' as int)
    else if 'a' <= c <= 'f' then Some(c as int - 'a' as int + 10)
    else None
  }

  /**
   * Reads the body of a JSON string literal back, for the escapes `JSON.stringify`
   * writes; `None` for text it never writes (a raw quote, backslash or control character).
   */
  function Unescape(t: string): Option<string>
  {
    if |t| == 0 then Some("")
    else if t[0] == '\\' then
      if |t| < 2 then None
      else
        var c := t[1];
        var simple :=
          if c == '"' then Some('"') else if c == '\\' then Some('\\')
          else if c == 'b' then Some('\U{8}') else if c == 'f' then Some('\U{C}')
          else if c == 'n' then Some('\n') else if c == 'r' then Some('\r')
          else if c == 't' then Some('\t') else None;
        if simple.Some? then
          match Unescape(t[2..])
          case Some(rest) => Some([simple.value] + rest)
          case None => None
        else if c == 'u' && |t| >= 6 && t[2..4] == "00" && HexValue(t[4]).Some? && HexValue(t[5]).Some?
                && HexValue(t[4]).value * 16 + HexValue(t[5]).value < 0x20 then
          match Unescape(t[6..])
          case Some(rest) => Some([(HexValue(t[4]).value * 16 + HexValue(t[5]).value) as char] + rest)
          case None => None
        else None
    else if t[0] == '"' || t[0] < ' ' then None
    else
      match Unescape(t[1..])
      case Some(rest) => Some([t[0]] + rest)
      case None => None
  }

  lemma HexDigitValue(d: nat)
    requires d < 16
    ensures HexValue(HexDigit(d)) == Some(d)
  {
  }

  /** Unescaping undoes the escape of one character in front of any text. */
  lemma UnescapeChar(c: char, rest: string)
    ensures Unescape(EscapeChar(c) + rest) ==
      (match Unescape(rest) case Some(r) => Some([c] + r) case None => None)
  {
    var e := EscapeChar(c);
    var t := e + rest;
    if c < ' ' && c != '\U{8}' && c != '\U{C}' && c != '\n' && c != '\r' && c != '\t' {
      HexDigitValue(c as int / 16);
      HexDigitValue(c as int % 16);
      assert t[2..4] == "00";
      assert t[6..] == rest;
    } else if |e| == 2 {
      assert t[2..] == rest;
    } else {
      assert t[1..] == rest;
    }
  }

  /** The escapes `JSON.stringify` writes read back to the original string. */
  lemma {:induction false} EscapeRoundTrip(s: string)
    ensures Unescape(Escape(s)) == Some(s)
  {
    if |s| > 0 {
      EscapeRoundTrip(s[1..]);
      UnescapeChar(s[0], Escape(s[1..]));
      assert Escape(s) == EscapeChar(s[0]) + Escape(s[1..]);
      assert [s[0]] + s[1..] == s;
    }
  }

  /** `JSON.stringify(v)`: `None` is its `undefined` result for an `undefined` argument. */
  function JsonText(v: Value): (r: Option<string>)
    ensures r.None? <==> v.Undefined?
    decreases v, 1
  {
    match v
    case Undefined => None
    case Null => Some("null")
    case Bool(b) => Some(if b then "true" else "false")
    case Num(n) => Some(NumberText(n))
    case Str(s) => Some(Quote(s))
    case Arr(items) => Some("[" + Join(",", ItemTexts(items, v)) + "]")
    case Obj(entries) => Some("{" + Join(",", MemberTexts(entries, v)) + "}")
  }

  /** Array elements: an `undefined` element is written as `null`. */
  function ItemTexts(items: seq<Value>, parent: Value): (ts: seq<string>)
    requires forall i :: 0 <= i < |items| ==> (parent decreases to items[i])
    ensures |ts| == |items|
    decreases parent, 0, |items|
  {
    if |items| == 0 then []
    else [GetOr(JsonText(items[0]), "null")] + ItemTexts(items[1..], parent)
  }

  /** Object members: a member whose value is `undefined` is left out. */
  function MemberTexts(entries: seq<(string, Value)>, parent: Value): (ts: seq<string>)
    requires forall i :: 0 <= i < |entries| ==> (parent decreases to entries[i].1)
    ensures |ts| <= |entries|
    decreases parent, 0, |entries|
  {
    if |entries| == 0 then []
    else
      var rest := MemberTexts(entries[1..], parent);
      match JsonText(entries[0].1)
      case None => rest
      case Some(t) => [Quote(entries[0].0) + ":" + t] + rest
  }

  /** `String(v)`, the text a template literal splices in for `${v}`. */
  function ToText(v: Value): (s: string)
    ensures v.Str? ==> s == v.s
    decreases v, 1
  {
    match v
    case Undefined => "undefined"
    case Null => "null"
    case Bool(b) => if b then "true" else "false"
    case Num(n) => NumberText(n)
    case Str(s) => s
    case Arr(items) => Join(",", ElementTexts(items, v))
    case Obj(_) => "[object Object]"
  }

  /** Array elements in `String(array)`: `undefined` and `null` print as nothing. */
  function ElementTexts(items: seq<Value>, parent: Value): (ts: seq<string>)
    requires forall i :: 0 <= i < |items| ==> (parent decreases to items[i])
    ensures |ts| == |items|
    decreases parent, 0, |items|
  {
    if |items| == 0 then []
    else [if items[0].Undefined? || items[0].Null? then "" else ToText(items[0])] + ElementTexts(items[1..], parent)
  }

  /** The two printings agree on everything but strings and containers. */
  lemma TextsAgreeOnScalars(v: Value)
    requires v.Null? || v.Bool? || v.Num?
    ensures JsonText(v) == Some(ToText(v))
  {
  }
}

=== FILE: root_call.dfy ===
/**
 * The validator: it checks that the program is a single declaration of the
 * main arrow function whose block body ends in `return <call>`, and hands
 * back that call.
 */
module RootCall {
  import opened Wrappers
  import opened Ast
  import opened Consts
  import opened Runtime

  /**
   * The validator's outcome: the root call, a failed check (thrown as a
   * `ValidationError`), or the `TypeError` an empty body provokes.
   */
  datatype Validation = Root(call: Node) | Invalid(kind: InvalidCode) | Crash(message: string)

  /** The checks in the order the validator makes them; the first failing one decides. */
  function GetRootCallExpression(p: Tree): (r: Validation)
    ensures r.Root? ==> r.call.CallExpression?
    ensures r.Crash? ==> r.message == ReadPropertyOfUndefined("type")
  {
    if |p.programBody| != 1 then Invalid(ONE_STATEMENT)
    else
      var statement := p.programBody[0];
      if !statement.VariableDeclaration? || |statement.declarations| != 1 then Invalid(VARIABLE_DECLARATION)
      else
        var d := statement.declarations[0];
        if !d.VariableDeclarator? || !d.id.Identifier? then Invalid(VARIABLE_DECLARATION)
        else if d.id.name != MAIN_FUNCTION_NAME then Invalid(NAME)
        else if d.init.None? then Invalid(GENERIC)
        else if !d.init.value.ArrowFunctionExpression? then Invalid(ARROW)
        else if d.init.value.isAsync then Invalid(ASYNC)
        else
          var body := d.init.value.body;
          if !body.BlockStatement? then Invalid(BLOCK)
          else if |body.blockBody| == 0 then Crash(ReadPropertyOfUndefined("type"))
          else
            var last := body.blockBody[|body.blockBody| - 1];
            if !last.ReturnStatement? then Invalid(RETURN)
            else if last.argument.None? || !last.argument.value.CallExpression? then Invalid(RETURN_TYPE)
            else Root(last.argument.value)
  }

  /**
   * The programs the validator accepts, built from their free parts:
   * `<kind> whatTheFilter = (<params>) => { <statements> return <call>; }`.
   */
  function MainProgram(kind: string, params: seq<Node>, statements: seq<Node>, call: Node): Tree
  {
    Program([VariableDeclaration(kind, [
      VariableDeclarator(Identifier(MAIN_FUNCTION_NAME), Some(
        ArrowFunctionExpression(params, BlockStatement(statements + [ReturnStatement(Some(call))]), false)))])])
  }

  /** Every program of the accepted shape is accepted, with its returned call as root. */
  lemma AcceptsMainPrograms(kind: string, params: seq<Node>, statements: seq<Node>, call: Node)
    requires call.CallExpression?
    ensures GetRootCallExpression(MainProgram(kind, params, statements, call)) == Root(call)
  {
  }

  /** Only programs of the accepted shape are accepted. */
  lemma AcceptedProgramsAreMainPrograms(p: Tree)
    requires GetRootCallExpression(p).Root?
    ensures exists kind, params, statements ::
      p == MainProgram(kind, params, statements, GetRootCallExpression(p).call)
  {
    var call := GetRootCallExpression(p).call;
    var statement := p.programBody[0];
    var d := statement.declarations[0];
    var f := d.init.value;
    var b := f.body.blockBody;
    assert b == b[..|b| - 1] + [ReturnStatement(Some(call))];
    assert f == ArrowFunctionExpression(f.params, BlockStatement(b[..|b| - 1] + [ReturnStatement(Some(call))]), false);
    assert d == VariableDeclarator(Identifier(MAIN_FUNCTION_NAME), Some(f));
    assert statement == VariableDeclaration(statement.declKind, [d]);
    assert p == Program([statement]);
    assert p == MainProgram(statement.declKind, f.params, b[..|b| - 1], call);
  }

  /** The statement count is checked first: a program of several statements reports only that. */
  lemma OneStatementIffNotSingle(p: Tree)
    ensures GetRootCallExpression(p) == Invalid(ONE_STATEMENT) <==> |p.programBody| != 1
  {
  }

  /** The name check comes after the shape checks and before any check of the initialiser. */
  lemma NameReportedIffWrongName(p: Tree)
    ensures GetRootCallExpression(p) == Invalid(NAME) <==>
      |p.programBody| == 1 && p.programBody[0].VariableDeclaration? &&
      |p.programBody[0].declarations| == 1 &&
      p.programBody[0].declarations[0].VariableDeclarator? &&
      p.programBody[0].declarations[0].id.Identifier? &&
      p.programBody[0].declarations[0].id.name != MAIN_FUNCTION_NAME
  {
  }

  /**
   * The arrow check precedes the async check: an `async function` reports
   * ARROW, and ASYNC is reported only for an async arrow.
   */
  lemma AsyncReportedOnlyForArrows(p: Tree)
    ensures GetRootCallExpression(p) == Invalid(ASYNC) ==>
      p.programBody[0].declarations[0].init.value.ArrowFunctionExpression? &&
      p.programBody[0].declarations[0].init.value.isAsync
  {
  }

  lemma AsyncFunctionExpressionReportsArrow(params: seq<Node>, body: Node)
    ensures GetRootCallExpression(Program([VariableDeclaration("const", [
      VariableDeclarator(Identifier(MAIN_FUNCTION_NAME), Some(FunctionExpression(None, params, body, true)))])]))
      == Invalid(ARROW)
  {
  }

  /**
   * A return that is not the last statement does not count: the body must end
   * in it, whatever comes earlier.
   */
  lemma ReturnMustBeLast(kind: string, params: seq<Node>, statements: seq<Node>, call: Node, trailing: Node)
    requires call.CallExpression? && !trailing.ReturnStatement?
    ensures GetRootCallExpression(Program([VariableDeclaration(kind, [
      VariableDeclarator(Identifier(MAIN_FUNCTION_NAME), Some(
        ArrowFunctionExpression(params,
          BlockStatement(statements + [ReturnStatement(Some(call)), trailing]), false)))])]))
      == Invalid(RETURN)
  {
  }

  /** An empty block body is not caught by any check: reading its last statement throws. */
  lemma EmptyBodyCrashes(p: Tree)
    ensures GetRootCallExpression(p).Crash? <==>
      |p.programBody| == 1 && p.programBody[0].VariableDeclaration? &&
      |p.programBody[0].declarations| == 1 &&
      p.programBody[0].declarations[0].VariableDeclarator? &&
      p.programBody[0].declarations[0].id == Identifier(MAIN_FUNCTION_NAME) &&
      p.programBody[0].declarations[0].init.Some? &&
      p.programBody[0].declarations[0].init.value.ArrowFunctionExpression? &&
      !p.programBody[0].declarations[0].init.value.isAsync &&
      p.programBody[0].declarations[0].init.value.body == BlockStatement([])
  {
  }
}

=== FILE: runtime.dfy ===
/**
 * The foreign operations the engine calls, passed in as parameters: the
 * JavaScript parser, the code generator and the sandboxed worker. Also the
 * texts of the `TypeError`s the engine itself can provoke.
 */
module Runtime {
  import opened Wrappers
  import opened Ast
  import opened Types
  import opened Consts

  /**
   * `parse` turns source text into a program or throws a syntax error;
   * `generate` prints a node back as source text; `sandbox` runs a function
   * body in a fresh worker and yields the value it returns, or the message of
   * the error it rejects with (including the time-out).
   */
  datatype Env = Env(
    parse: string -> Attempt<Tree>,
    generate: Node -> string,
    sandbox: string -> Attempt<Value>)

  /** The text before the quoted property name in a read-of-`undefined` message. */
  const READ_OF_UNDEFINED: string := "Cannot read propert" + "ies" + " of undefined (reading"

  /** The message of the `TypeError` thrown when a property of `undefined` is read. */
  function ReadPropertyOfUndefined(prop: string): (m: string)
    ensures |m| == 48 + |prop|
    ensures m[..35] == "Cannot read properties of undefined"
    ensures m[|m| - 3 - |prop|..] == "'" + prop + "')"
  {
    READ_OF_UNDEFINED + " '" + prop + "')"
  }

  /**
   * What printing a missing node does: the generator reads the `type` of
   * `undefined` and throws.
   */
  function GenerateOptional(env: Env, n: Option<Node>): (r: Attempt<string>)
    ensures n.Some? <==> r.Ok?
    ensures n.Some? ==> r.value == env.generate(n.value)
    ensures n.None? ==> r.message == ReadPropertyOfUndefined("type")
  {
    match n
    case Some(v) => Ok(env.generate(v))
    case None => Thrown(ReadPropertyOfUndefined("type"))
  }

  /** The body the sandbox runs to evaluate a program: it defines the main function and calls it. */
  function SandboxProgram(source: string): (code: string)
    ensures |code| == |source| + 37
    ensures code[5..5 + |source|] == source
  {
    "\n    " + source + ";\n    return " + MAIN_FUNCTION_NAME + "();\n  "
  }
}

=== FILE: step_by_step.dfy ===
/**
 * Step-by-step execution of a callback: the callback of a `filter`, `map` or
 * `reduce` call is instrumented so that each invocation records its arguments
 * and its result, the program is rewired to run that call and return the
 * records, and the sandbox runs it.
 */
module StepByStep {
  import opened Wrappers
  import opened Ast
  import opened Types
  import opened Consts
  import opened Runtime
  import opened FirstNode
  import opened RootCall

  // ---------------------------------------------------------------------------
  // The fragments the instrumentation splices in.
  // ---------------------------------------------------------------------------

  /** `(...args) => name(...args)`: what a callback passed by name is turned into. */
  function WrapIdentifierCallback(name: string): (f: Node)
    ensures IsFunctionLiteral(f) && f.ArrowFunctionExpression? && !f.isAsync
    ensures !f.body.BlockStatement? && |f.params| == 1
  {
    ArrowFunctionExpression([RestElement(Identifier("args"))],
      CallExpression(Identifier(name), [SpreadElement(Identifier("args"))]), false)
  }

  /** `name: JSON.parse(JSON.stringify(arguments[index]))`, a deep copy of one argument. */
  function ParameterProperty(name: string, index: nat): Node
  {
    Property(Identifier(name),
      CallExpression(Dot(Identifier("JSON"), "parse"), [
        CallExpression(Dot(Identifier("JSON"), "stringify"), [
          MemberExpression(Identifier("arguments"), Literal(NumberLit(index)), true)])]))
  }

  /** The properties of the record: one per parameter, in order, then `output: undefined`. */
  function RecordProperties(parameters: seq<string>): (ps: seq<Node>)
    ensures |ps| == |parameters| + 1
    ensures forall i :: 0 <= i < |parameters| ==> ps[i].Property? && ps[i].key == Identifier(parameters[i])
    ensures ps[|parameters|] == Property(Identifier("output"), Identifier("undefined"))
  {
    seq(|parameters|, i requires 0 <= i < |parameters| => ParameterProperty(parameters[i], i))
      + [Property(Identifier("output"), Identifier("undefined"))]
  }

  /** `const executionStep = { ... }`: the record one invocation fills in. */
  function RecordDeclaration(parameters: seq<string>): Node
  {
    VariableDeclaration("const", [
      VariableDeclarator(Identifier(EXECUTION_STEP_VARIABLE_NAME), Some(ObjectExpression(RecordProperties(parameters))))])
  }

  /** `executionSteps.push(executionStep)`. */
  const PushRecord: Node :=
    ExpressionStatement(CallExpression(Dot(Identifier(EXECUTION_STEPS_VARIABLE_NAME), "push"),
      [Identifier(EXECUTION_STEP_VARIABLE_NAME)]))

  /** `executionStep.output = value`, the statement a `return value` becomes. */
  function OutputAssignment(value: Node): Node
  {
    ExpressionStatement(AssignmentExpression("=", Dot(Identifier(EXECUTION_STEP_VARIABLE_NAME), "output"), value))
  }

  /**
   * The closing `return`. Its argument is the parsed fragment as it comes back
   * from the parser, an expression STATEMENT, not the member expression the
   * code means; it prints as `return executionStep.output;;`, which still
   * returns the recorded output.
   */
  const ReturnOutput: Node :=
    ReturnStatement(Some(ExpressionStatement(Dot(Identifier(EXECUTION_STEP_VARIABLE_NAME), "output"))))

  /** `const executionSteps = []`, put first in the main function. */
  const StepsDeclaration: Node :=
    VariableDeclaration("const", [VariableDeclarator(Identifier(EXECUTION_STEPS_VARIABLE_NAME), Some(ArrayExpression([])))])

  /** `return executionSteps`, put last in the main function. */
  const ReturnSteps: Node := ReturnStatement(Some(Identifier(EXECUTION_STEPS_VARIABLE_NAME)))

  /** The keys of the record's object literal, in order. */
  function RecordKeys(properties: seq<Node>): (ks: seq<string>)
    ensures |ks| == |properties|
  {
    seq(|properties|, i requires 0 <= i < |properties| =>
      if properties[i].Property? && properties[i].key.Identifier? then properties[i].key.name else "")
  }

  /** The parameter names of each traced method, as the record keys them. */
  const FilterMapParameters: seq<string> := ["input", "index", "array"]
  const ReduceParameters: seq<string> := ["accumulator", "current", "index", "array"]

  /** The record an instrumented callback builds has the keys of the record it is read back as. */
  lemma RecordKeysMatchExecutionSteps(x: Value, acc: Value, cur: Value, i: int, a: seq<Value>, o: Value)
    ensures RecordKeys(RecordProperties(FilterMapParameters)) == ExecutionStepKeys(FilterMapStep(x, i, a, o))
    ensures RecordKeys(RecordProperties(ReduceParameters)) == ExecutionStepKeys(ReduceStep(acc, cur, i, a, o))
  {
  }

  // ---------------------------------------------------------------------------
  // Turning every `return value` into `executionStep.output = value`.
  // ---------------------------------------------------------------------------

  lemma OutputAssignmentHasNoValueReturn(value: Node)
    requires !ContainsValueReturn(value)
    ensures !ContainsValueReturn(OutputAssignment(value))
  {
    var target := Dot(Identifier(EXECUTION_STEP_VARIABLE_NAME), "output");
    var assign := AssignmentExpression("=", target, value);
    assert Children(Identifier(EXECUTION_STEP_VARIABLE_NAME)) == [];
    assert Children(Identifier("output")) == [];
    assert Children(target) == [Identifier(EXECUTION_STEP_VARIABLE_NAME), Identifier("output")];
    AnyContainsValueReturnIffSome(Children(target), target);
    assert Children(assign) == [target, value];
    AnyContainsValueReturnIffSome(Children(assign), assign);
    assert Children(OutputAssignment(value)) == [assign];
    AnyContainsValueReturnIffSome(Children(OutputAssignment(value)), OutputAssignment(value));
  }

  /**
   * The first walk over the callback: each `return` with an argument becomes an
   * assignment of that argument to the record's output, also inside nested
   * functions and inside the argument itself; a bare `return` stays.
   */
  function RewriteReturns(n: Node): (r: Node)
    ensures !ContainsValueReturn(r)
    ensures !ContainsValueReturn(n) ==> r == n
    ensures !(n.ReturnStatement? && n.argument.Some?) ==> TypeTag(r) == TypeTag(n)
    ensures n.BlockStatement? ==> r.BlockStatement?
    ensures n.FunctionExpression? ==> r.FunctionExpression? && r.isAsync == n.isAsync
    decreases n, 1
  {
    if n.ReturnStatement? && n.argument.Some? then
      var value := RewriteReturns(n.argument.value);
      OutputAssignmentHasNoValueReturn(value);
      OutputAssignment(value)
    else
      var cs := RewriteReturnsSeq(Children(n), n);
      var r := Rebuild(n, cs);
      AnyContainsValueReturnIffSome(Children(n), n);
      AnyContainsValueReturnIffSome(Children(r), r);
      RebuildOwnChildren(n);
      r
  }

  function RewriteReturnsSeq(ns: seq<Node>, parent: Node): (rs: seq<Node>)
    requires forall i :: 0 <= i < |ns| ==> (parent decreases to ns[i])
    ensures |rs| == |ns|
    ensures forall i :: 0 <= i < |rs| ==> !ContainsValueReturn(rs[i])
    ensures (forall i :: 0 <= i < |ns| ==> !ContainsValueReturn(ns[i])) ==> rs == ns
    ensures forall i :: 0 <= i < |ns| ==> rs[i] == RewriteReturns(ns[i])
    decreases parent, 0, |ns|
  {
    if |ns| == 0 then []
    else
      var rest := RewriteReturnsSeq(ns[1..], parent);
      [RewriteReturns(ns[0])] + rest
  }

  /** A node that is not a valued `return` and whose children hold none holds none. */
  lemma NoValueReturnFromChildren(n: Node)
    requires !(n.ReturnStatement? && n.argument.Some?)
    requires forall i :: 0 <= i < |Children(n)| ==> !ContainsValueReturn(Children(n)[i])
    ensures !ContainsValueReturn(n)
  {
    AnyContainsValueReturnIffSome(Children(n), n);
  }

  lemma DotHasNoValueReturn(o: Node, name: string)
    requires !ContainsValueReturn(o)
    ensures !ContainsValueReturn(Dot(o, name))
  {
    NoValueReturnFromChildren(Identifier(name));
    NoValueReturnFromChildren(Dot(o, name));
  }

  lemma ParameterPropertyHasNoValueReturn(name: string, index: nat)
    ensures !ContainsValueReturn(ParameterProperty(name, index))
  {
    var json := Identifier("JSON");
    NoValueReturnFromChildren(json);
    DotHasNoValueReturn(json, "parse");
    DotHasNoValueReturn(json, "stringify");
    NoValueReturnFromChildren(Identifier("arguments"));
    NoValueReturnFromChildren(Literal(NumberLit(index)));
    var arg := MemberExpression(Identifier("arguments"), Literal(NumberLit(index)), true);
    NoValueReturnFromChildren(arg);
    var copy := CallExpression(Dot(json, "stringify"), [arg]);
    NoValueReturnFromChildren(copy);
    var parsed := CallExpression(Dot(json, "parse"), [copy]);
    NoValueReturnFromChildren(parsed);
    NoValueReturnFromChildren(Identifier(name));
    NoValueReturnFromChildren(ParameterProperty(name, index));
  }

  /** The spliced-in record declaration holds no valued `return`, so the rewriting walk keeps it. */
  lemma RecordHasNoValueReturn(parameters: seq<string>)
    ensures !ContainsValueReturn(RecordDeclaration(parameters))
  {
    var ps := RecordProperties(parameters);
    RecordPropertiesHaveNoValueReturn(parameters);
    var record := ObjectExpression(ps);
    NoValueReturnFromChildren(record);
    NoValueReturnFromChildren(Identifier(EXECUTION_STEP_VARIABLE_NAME));
    var d := VariableDeclarator(Identifier(EXECUTION_STEP_VARIABLE_NAME), Some(record));
    NoValueReturnFromChildren(d);
    NoValueReturnFromChildren(RecordDeclaration(parameters));
  }

  lemma RecordPropertiesHaveNoValueReturn(parameters: seq<string>)
    ensures forall i :: 0 <= i < |RecordProperties(parameters)| ==> !ContainsValueReturn(RecordProperties(parameters)[i])
  {
    var ps := RecordProperties(parameters);
    forall i | 0 <= i < |ps|
      ensures !ContainsValueReturn(ps[i])
    {
      if i < |parameters| {
        ParameterPropertyHasNoValueReturn(parameters[i], i);
      } else {
        OutputPropertyHasNoValueReturn();
      }
    }
  }

  lemma OutputPropertyHasNoValueReturn()
    ensures !ContainsValueReturn(Property(Identifier("output"), Identifier("undefined")))
  {
    NoValueReturnFromChildren(Identifier("output"));
    NoValueReturnFromChildren(Identifier("undefined"));
    NoValueReturnFromChildren(Property(Identifier("output"), Identifier("undefined")));
  }

  lemma PushHasNoValueReturn()
    ensures !ContainsValueReturn(PushRecord)
  {
    var steps := Identifier(EXECUTION_STEPS_VARIABLE_NAME);
    NoValueReturnFromChildren(steps);
    DotHasNoValueReturn(steps, "push");
    NoValueReturnFromChildren(Identifier(EXECUTION_STEP_VARIABLE_NAME));
    var push := CallExpression(Dot(steps, "push"), [Identifier(EXECUTION_STEP_VARIABLE_NAME)]);
    NoValueReturnFromChildren(push);
    NoValueReturnFromChildren(PushRecord);
  }

  /** Away from a valued `return`, the walk rewrites each child on its own and keeps the node. */
  lemma RewriteChildren(n: Node)
    requires !(n.ReturnStatement? && n.argument.Some?)
    ensures RewriteReturns(n) == Rebuild(n, RewriteReturnsSeq(Children(n), n))
    ensures |Children(RewriteReturns(n))| == |Children(n)|
    ensures forall i :: 0 <= i < |Children(n)| ==> Children(RewriteReturns(n))[i] == RewriteReturns(Children(n)[i])
  {
  }

  // ---------------------------------------------------------------------------
  // The instrumented callback.
  // ---------------------------------------------------------------------------

  /** The statements of a function literal: its block's, or `return <body>` for a concise arrow. */
  function BodyStatements(f: Node): (ss: seq<Node>)
    requires IsFunctionLiteral(f)
    ensures f.body.BlockStatement? ==> ss == f.body.blockBody
    ensures !f.body.BlockStatement? ==> ss == [ReturnStatement(Some(f.body))]
  {
    if f.body.BlockStatement? then f.body.blockBody else [ReturnStatement(Some(f.body))]
  }

  /** The callback turned into a function expression (for `arguments`), with a block body and the record in front. */
  function Prepared(callback: Node, parameters: seq<string>): (f: Node)
    requires IsFunctionLiteral(callback)
    ensures f.FunctionExpression? && f.isAsync == callback.isAsync && f.body.BlockStatement?
  {
    FunctionExpression(if callback.FunctionExpression? then callback.fnId else None, callback.params,
      BlockStatement([RecordDeclaration(parameters), PushRecord] + BodyStatements(callback)), callback.isAsync)
  }

  /**
   * The instrumented callback; nothing for an argument that is not a function
   * literal. Each invocation records its arguments, stores each returned value
   * as the record's output instead of returning it, and returns the output.
   */
  function InstrumentCallback(callback: Node, parameters: seq<string>): (r: Option<Node>)
    ensures r.Some? <==> IsFunctionLiteral(callback)
    ensures r.Some? ==> r.value.FunctionExpression? && r.value.isAsync == callback.isAsync
    ensures r.Some? ==> r.value.body.BlockStatement? && |r.value.body.blockBody| == |BodyStatements(callback)| + 3
    ensures r.Some? ==> r.value.body.blockBody[0] == RecordDeclaration(parameters)
    ensures r.Some? ==> r.value.body.blockBody[1] == PushRecord
    ensures r.Some? ==> r.value.body.blockBody[|r.value.body.blockBody| - 1] == ReturnOutput
    ensures r.Some? ==> forall i :: 0 <= i < |r.value.body.blockBody| - 1 ==>
      !ContainsValueReturn(r.value.body.blockBody[i])
  {
    if !IsFunctionLiteral(callback) then None
    else
      var g := RewriteReturns(Prepared(callback, parameters));
      PreparedRewritten(callback, parameters);
      ReturningOutput(g, |BodyStatements(callback)|, parameters);
      Some(WithReturnOutput(g))
  }

  /** The rewritten function with `return executionStep.output` put last. */
  function WithReturnOutput(g: Node): Node
    requires g.FunctionExpression? && g.body.BlockStatement?
  {
    FunctionExpression(g.fnId, g.params, BlockStatement(g.body.blockBody + [ReturnOutput]), g.isAsync)
  }

  lemma ReturningOutput(g: Node, n: nat, parameters: seq<string>)
    requires g.FunctionExpression? && g.body.BlockStatement? && |g.body.blockBody| == n + 2
    requires g.body.blockBody[0] == RecordDeclaration(parameters) && g.body.blockBody[1] == PushRecord
    requires forall i :: 0 <= i < |g.body.blockBody| ==> !ContainsValueReturn(g.body.blockBody[i])
    ensures WithReturnOutput(g).FunctionExpression? && WithReturnOutput(g).isAsync == g.isAsync
    ensures WithReturnOutput(g).body.BlockStatement? && |WithReturnOutput(g).body.blockBody| == n + 3
    ensures WithReturnOutput(g).body.blockBody[0] == RecordDeclaration(parameters)
    ensures WithReturnOutput(g).body.blockBody[1] == PushRecord
    ensures WithReturnOutput(g).body.blockBody[n + 2] == ReturnOutput
    ensures forall i :: 0 <= i < n + 2 ==> !ContainsValueReturn(WithReturnOutput(g).body.blockBody[i])
  {
    var b := g.body.blockBody + [ReturnOutput];
    assert forall i :: 0 <= i < n + 2 ==> b[i] == g.body.blockBody[i];
  }

  /** The walk rewrites a function expression's body in place. */
  lemma RewriteFunctionBody(f: Node)
    requires f.FunctionExpression?
    ensures RewriteReturns(f).FunctionExpression?
    ensures RewriteReturns(f).body == RewriteReturns(f.body)
  {
    var g := RewriteReturns(f);
    RewriteChildren(f);
    assert Children(f)[|Children(f)| - 1] == f.body;
    assert g.body == Children(g)[|Children(g)| - 1];
  }

  /** The walk rewrites a block's statements one by one. */
  lemma RewriteBlock(ss: seq<Node>)
    ensures RewriteReturns(BlockStatement(ss)).BlockStatement?
    ensures |RewriteReturns(BlockStatement(ss)).blockBody| == |ss|
    ensures forall i :: 0 <= i < |ss| ==> RewriteReturns(BlockStatement(ss)).blockBody[i] == RewriteReturns(ss[i])
  {
    RewriteChildren(BlockStatement(ss));
  }

  /** The rewriting walk keeps the two leading statements and leaves no valued `return` in the body. */
  lemma PreparedRewritten(callback: Node, parameters: seq<string>)
    requires IsFunctionLiteral(callback)
    ensures RewriteReturns(Prepared(callback, parameters)).FunctionExpression?
    ensures RewriteReturns(Prepared(callback, parameters)).body.BlockStatement?
    ensures |RewriteReturns(Prepared(callback, parameters)).body.blockBody| == |BodyStatements(callback)| + 2
    ensures RewriteReturns(Prepared(callback, parameters)).body.blockBody[0] == RecordDeclaration(parameters)
    ensures RewriteReturns(Prepared(callback, parameters)).body.blockBody[1] == PushRecord
    ensures forall i :: 0 <= i < |RewriteReturns(Prepared(callback, parameters)).body.blockBody| ==>
      !ContainsValueReturn(RewriteReturns(Prepared(callback, parameters)).body.blockBody[i])
    ensures forall i :: 2 <= i < |RewriteReturns(Prepared(callback, parameters)).body.blockBody| ==>
      RewriteReturns(Prepared(callback, parameters)).body.blockBody[i] == RewriteReturns(BodyStatements(callback)[i - 2])
  {
    var f := Prepared(callback, parameters);
    var statements := [RecordDeclaration(parameters), PushRecord] + BodyStatements(callback);
    RewriteFunctionBody(f);
    RewriteBlock(statements);
    var b := RewriteReturns(BlockStatement(statements)).blockBody;
    RecordHasNoValueReturn(parameters);
    PushHasNoValueReturn();
    assert b[0] == RewriteReturns(statements[0]);
    assert b[1] == RewriteReturns(statements[1]);
    forall i | 2 <= i < |b|
      ensures b[i] == RewriteReturns(BodyStatements(callback)[i - 2])
    {
      assert statements[i] == BodyStatements(callback)[i - 2];
    }
  }

  /**
   * A concise arrow `(...) => e` becomes a function that records its
   * arguments, stores `e` as the output and returns it.
   */
  lemma InstrumentConciseArrow(params: seq<Node>, e: Node, isAsync: bool, parameters: seq<string>)
    requires !e.BlockStatement?
    ensures InstrumentCallback(ArrowFunctionExpression(params, e, isAsync), parameters).Some?
    ensures InstrumentCallback(ArrowFunctionExpression(params, e, isAsync), parameters).value.body.blockBody
      == [RecordDeclaration(parameters), PushRecord, OutputAssignment(RewriteReturns(e)), ReturnOutput]
  {
    var callback := ArrowFunctionExpression(params, e, isAsync);
    var b := RewriteReturns(Prepared(callback, parameters)).body.blockBody;
    PreparedConciseArrow(params, e, isAsync, parameters);
    InstrumentedBody(callback, parameters);
    AppendToThree(b, RecordDeclaration(parameters), PushRecord, OutputAssignment(RewriteReturns(e)), ReturnOutput);
  }

  lemma AppendToThree(b: seq<Node>, x0: Node, x1: Node, x2: Node, x3: Node)
    requires |b| == 3 && b[0] == x0 && b[1] == x1 && b[2] == x2
    ensures b + [x3] == [x0, x1, x2, x3]
  {
  }

  lemma PreparedConciseArrow(params: seq<Node>, e: Node, isAsync: bool, parameters: seq<string>)
    requires !e.BlockStatement?
    ensures RewriteReturns(Prepared(ArrowFunctionExpression(params, e, isAsync), parameters)).FunctionExpression?
    ensures RewriteReturns(Prepared(ArrowFunctionExpression(params, e, isAsync), parameters)).body.BlockStatement?
    ensures |RewriteReturns(Prepared(ArrowFunctionExpression(params, e, isAsync), parameters)).body.blockBody| == 3
    ensures RewriteReturns(Prepared(ArrowFunctionExpression(params, e, isAsync), parameters)).body.blockBody[0]
      == RecordDeclaration(parameters)
    ensures RewriteReturns(Prepared(ArrowFunctionExpression(params, e, isAsync), parameters)).body.blockBody[1]
      == PushRecord
    ensures RewriteReturns(Prepared(ArrowFunctionExpression(params, e, isAsync), parameters)).body.blockBody[2]
      == OutputAssignment(RewriteReturns(e))
  {
    var callback := ArrowFunctionExpression(params, e, isAsync);
    PreparedRewritten(callback, parameters);
    assert BodyStatements(callback) == [ReturnStatement(Some(e))];
    RewriteValuedReturn(e);
  }

  /** The instrumented body is the rewritten one with the closing `return` appended. */
  lemma InstrumentedBody(callback: Node, parameters: seq<string>)
    requires IsFunctionLiteral(callback)
    ensures RewriteReturns(Prepared(callback, parameters)).FunctionExpression?
    ensures RewriteReturns(Prepared(callback, parameters)).body.BlockStatement?
    ensures InstrumentCallback(callback, parameters).value.body.blockBody
      == RewriteReturns(Prepared(callback, parameters)).body.blockBody + [ReturnOutput]
  {
    PreparedRewritten(callback, parameters);
  }

  /** A `return value` becomes the assignment of the rewritten value to the output. */
  lemma RewriteValuedReturn(value: Node)
    ensures RewriteReturns(ReturnStatement(Some(value))) == OutputAssignment(RewriteReturns(value))
  {
  }

  /** A callback passed by name, such as `Boolean`, ends up storing the named function's result. */
  lemma InstrumentNamedCallback(name: string, parameters: seq<string>)
    ensures InstrumentCallback(WrapIdentifierCallback(name), parameters).Some?
    ensures InstrumentCallback(WrapIdentifierCallback(name), parameters).value.body.blockBody
      == [RecordDeclaration(parameters), PushRecord,
          OutputAssignment(CallExpression(Identifier(name), [SpreadElement(Identifier("args"))])), ReturnOutput]
  {
    var call := CallExpression(Identifier(name), [SpreadElement(Identifier("args"))]);
    NoValueReturnFromChildren(Identifier(name));
    NoValueReturnFromChildren(Identifier("args"));
    NoValueReturnFromChildren(SpreadElement(Identifier("args")));
    NoValueReturnFromChildren(call);
    InstrumentConciseArrow([RestElement(Identifier("args"))], call, false, parameters);
  }

  // ---------------------------------------------------------------------------
  // Rewiring the program to run the instrumented call and return the records.
  // ---------------------------------------------------------------------------

  /**
   * A declarator the rewiring walk wraps: `whatTheFilter` initialised with an
   * arrow function that has a block body.
   */
  predicate IsMainDeclarator(n: Node)
  {
    n.VariableDeclarator? && n.id == Identifier(MAIN_FUNCTION_NAME) && n.init.Some? &&
    n.init.value.ArrowFunctionExpression? && n.init.value.body.BlockStatement?
  }

  /** Some node of the subtree is such a declarator. */
  predicate DeclaresMain(n: Node)
    decreases n, 1
  {
    IsMainDeclarator(n) || AnyDeclaresMain(Children(n), n)
  }

  predicate AnyDeclaresMain(ns: seq<Node>, parent: Node)
    requires forall i :: 0 <= i < |ns| ==> (parent decreases to ns[i])
    decreases parent, 0, |ns|
  {
    |ns| > 0 && (DeclaresMain(ns[0]) || AnyDeclaresMain(ns[1..], parent))
  }

  /**
   * The rewiring walk; `replaced` says whether a `return` was already replaced
   * and the result carries the flag on. The first `return` it meets (while the
   * call parsed back to an expression `x`) becomes that bare expression, and the
   * walk goes on inside it. Each main declarator gets `const executionSteps = []`
   * in front of its body and `return executionSteps` after it, and the walk goes
   * on inside the new body, reaching those two statements as well.
   */
  function Rewire(n: Node, x: Option<Node>, replaced: bool): (r: (Node, bool))
    ensures replaced ==> r.1
    ensures !n.ReturnStatement? ==> TypeTag(r.0) == TypeTag(n)
    decreases (if replaced then 0 else 1), n, 1
  {
    if n.ReturnStatement? && !replaced && x.Some? then
      (RewireInside(x.value, x), true)
    else if IsMainDeclarator(n) then
      var f := n.init.value;
      assert Children(n)[1] == f;
      assert forall i :: 0 <= i < |f.params| ==> Children(f)[i] == f.params[i];
      assert Children(f)[|f.params|] == f.body;
      var (ps, r1) := RewireSeq(f.params, x, replaced, n);
      var (ss, r2) := RewireSeq(f.body.blockBody, x, r1, n);
      var last := if !r2 && x.Some? then RewireInside(x.value, x) else ReturnSteps;
      (VariableDeclarator(n.id, Some(ArrowFunctionExpression(ps,
        BlockStatement([StepsDeclaration] + ss + [last]), f.isAsync))), r2 || x.Some?)
    else
      var (cs, r1) := RewireSeq(Children(n), x, replaced, n);
      (Rebuild(n, cs), r1)
  }

  /** The walk inside the expression that replaced a `return`: the flag is set. */
  function RewireInside(e: Node, x: Option<Node>): (r: Node)
    ensures TypeTag(r) == TypeTag(e)
    decreases 0, e, 2
  {
    Rebuild(e, RewireSeq(Children(e), x, true, e).0)
  }

  function RewireSeq(ns: seq<Node>, x: Option<Node>, replaced: bool, parent: Node): (r: (seq<Node>, bool))
    requires forall i :: 0 <= i < |ns| ==> (parent decreases to ns[i])
    ensures |r.0| == |ns|
    ensures replaced ==> r.1
    decreases (if replaced then 0 else 1), parent, 0, |ns|
  {
    if |ns| == 0 then ([], replaced)
    else
      var (c, r1) := Rewire(ns[0], x, replaced);
      var (rest, r2) := RewireSeq(ns[1..], x, r1, parent);
      ([c] + rest, r2)
  }

  lemma {:induction false} AnyDeclaresMainIffSome(ns: seq<Node>, parent: Node)
    requires forall i :: 0 <= i < |ns| ==> (parent decreases to ns[i])
    ensures AnyDeclaresMain(ns, parent) <==> exists i :: 0 <= i < |ns| && DeclaresMain(ns[i])
    decreases |ns|
  {
    if |ns| > 0 {
      AnyDeclaresMainIffSome(ns[1..], parent);
      if exists i :: 0 <= i < |ns| && DeclaresMain(ns[i]) {
        var i :| 0 <= i < |ns| && DeclaresMain(ns[i]);
        if i > 0 {
          assert ns[1..][i - 1] == ns[i];
        }
      }
      if exists i :: 0 <= i < |ns[1..]| && DeclaresMain(ns[1..][i]) {
        var i :| 0 <= i < |ns[1..]| && DeclaresMain(ns[1..][i]);
        assert ns[i + 1] == ns[1..][i];
      }
    }
  }

  /**
   * Where there is nothing to do, the walk changes nothing: no main declarator,
   * and no `return` still to be replaced.
   */
  lemma {:induction false} RewireIdentity(n: Node, x: Option<Node>, replaced: bool)
    requires !DeclaresMain(n)
    requires replaced || x.None? || !ContainsReturn(n)
    ensures Rewire(n, x, replaced) == (n, replaced)
    decreases n, 1
  {
    AnyDeclaresMainIffSome(Children(n), n);
    AnyContainsReturnIffSome(Children(n), n);
    RewireSeqIdentity(Children(n), x, replaced, n);
    RebuildOwnChildren(n);
  }

  lemma {:induction false} RewireSeqIdentity(ns: seq<Node>, x: Option<Node>, replaced: bool, parent: Node)
    requires forall i :: 0 <= i < |ns| ==> (parent decreases to ns[i])
    requires forall i :: 0 <= i < |ns| ==> !DeclaresMain(ns[i])
    requires replaced || x.None? || forall i :: 0 <= i < |ns| ==> !ContainsReturn(ns[i])
    ensures RewireSeq(ns, x, replaced, parent) == (ns, replaced)
    decreases parent, 0, |ns|
  {
    if |ns| > 0 {
      RewireIdentity(ns[0], x, replaced);
      RewireSeqIdentity(ns[1..], x, replaced, parent);
      assert [ns[0]] + ns[1..] == ns;
    }
  }

  /** The walk passes over the `const executionSteps = []` it puts in front, so the code need not walk it. */
  lemma StepsDeclarationInert(x: Option<Node>, replaced: bool)
    ensures Rewire(StepsDeclaration, x, replaced) == (StepsDeclaration, replaced)
  {
    var a := ArrayExpression([]);
    var steps := Identifier(EXECUTION_STEPS_VARIABLE_NAME);
    var d := VariableDeclarator(steps, Some(a));
    assert !DeclaresMain(a) && !ContainsReturn(a);
    assert !DeclaresMain(steps) && !ContainsReturn(steps);
    assert Children(d) == [steps, a];
    AnyDeclaresMainIffSome(Children(d), d);
    AnyContainsReturnIffSome(Children(d), d);
    assert Children(StepsDeclaration) == [d];
    AnyDeclaresMainIffSome(Children(StepsDeclaration), StepsDeclaration);
    AnyContainsReturnIffSome(Children(StepsDeclaration), StepsDeclaration);
    RewireIdentity(StepsDeclaration, x, replaced);
  }

  /** Inside the replacing expression the walk changes nothing unless it declares the main function. */
  lemma RewireInsideIdentity(e: Node, x: Option<Node>)
    requires !DeclaresMain(e)
    ensures RewireInside(e, x) == e
  {
    AnyDeclaresMainIffSome(Children(e), e);
    RewireSeqIdentity(Children(e), x, true, e);
    RebuildOwnChildren(e);
  }

  /** The walk passes over leading nodes with nothing to do and acts on the last one only. */
  lemma {:induction false} RewireInLast(ns: seq<Node>, x: Option<Node>, parent: Node)
    requires forall i :: 0 <= i < |ns| ==> (parent decreases to ns[i])
    requires |ns| > 0
    requires forall i :: 0 <= i < |ns| - 1 ==> !DeclaresMain(ns[i]) && !ContainsReturn(ns[i])
    ensures RewireSeq(ns, x, false, parent)
      == (ns[..|ns| - 1] + [Rewire(ns[|ns| - 1], x, false).0], Rewire(ns[|ns| - 1], x, false).1)
    decreases |ns|
  {
    if |ns| == 1 {
      RewireInSingle(ns, x, parent);
    } else {
      assert ns[1..][|ns[1..]| - 1] == ns[|ns| - 1];
      RewireInLast(ns[1..], x, parent);
      RewireAfterInert(ns, x, parent);
    }
  }

  lemma RewireInSingle(ns: seq<Node>, x: Option<Node>, parent: Node)
    requires forall i :: 0 <= i < |ns| ==> (parent decreases to ns[i])
    requires |ns| == 1
    ensures RewireSeq(ns, x, false, parent) == (ns[..0] + [Rewire(ns[0], x, false).0], Rewire(ns[0], x, false).1)
  {
    var (c, r1) := Rewire(ns[0], x, false);
    assert ns[1..] == [] && ns[..0] == [];
    assert RewireSeq(ns[1..], x, r1, parent) == ([], r1);
    assert [c] + [] == ns[..0] + [c];
  }

  lemma RewireAfterInert(ns: seq<Node>, x: Option<Node>, parent: Node)
    requires forall i :: 0 <= i < |ns| ==> (parent decreases to ns[i])
    requires |ns| > 1 && !DeclaresMain(ns[0]) && !ContainsReturn(ns[0])
    requires RewireSeq(ns[1..], x, false, parent)
      == (ns[1..][..|ns| - 2] + [Rewire(ns[|ns| - 1], x, false).0], Rewire(ns[|ns| - 1], x, false).1)
    ensures RewireSeq(ns, x, false, parent)
      == (ns[..|ns| - 1] + [Rewire(ns[|ns| - 1], x, false).0], Rewire(ns[|ns| - 1], x, false).1)
  {
    var last := Rewire(ns[|ns| - 1], x, false).0;
    RewireIdentity(ns[0], x, false);
    assert ns[..|ns| - 1] == [ns[0]] + ns[1..][..|ns| - 2];
    assert [ns[0]] + (ns[1..][..|ns| - 2] + [last]) == ns[..|ns| - 1] + [last];
  }

  /**
   * The program the rewiring makes of an accepted one: the main function
   * starts the record list, runs the instrumented call as a statement where
   * the root call was returned, and returns the records.
   */
  function RewiredMainProgram(kind: string, params: seq<Node>, statements: seq<Node>, e: Node): Tree
  {
    Program([VariableDeclaration(kind, [
      VariableDeclarator(Identifier(MAIN_FUNCTION_NAME), Some(
        ArrowFunctionExpression(params, BlockStatement([StepsDeclaration] + statements + [e, ReturnSteps]), false)))])])
  }

  /** The first `return` met becomes the expression it is replaced by. */
  lemma RewireFirstReturn(a: Option<Node>, e: Node)
    requires !DeclaresMain(e)
    ensures Rewire(ReturnStatement(a), Some(e), false) == (e, true)
  {
    RewireInsideIdentity(e, Some(e));
  }

  /** The body statements of an accepted main function, walked. */
  lemma RewireMainStatements(statements: seq<Node>, call: Node, e: Node, parent: Node)
    requires forall i :: 0 <= i < |statements| ==> !DeclaresMain(statements[i]) && !ContainsReturn(statements[i])
    requires !DeclaresMain(e)
    requires forall i :: 0 <= i < |statements + [ReturnStatement(Some(call))]| ==>
      (parent decreases to (statements + [ReturnStatement(Some(call))])[i])
    ensures RewireSeq(statements + [ReturnStatement(Some(call))], Some(e), false, parent) == (statements + [e], true)
  {
    var ss := statements + [ReturnStatement(Some(call))];
    RewireInLast(ss, Some(e), parent);
    assert ss[..|ss| - 1] == statements;
    RewireFirstReturn(Some(call), e);
  }

  lemma RewireMainDeclarator(params: seq<Node>, statements: seq<Node>, call: Node, e: Node)
    requires forall i :: 0 <= i < |params| ==> !DeclaresMain(params[i]) && !ContainsReturn(params[i])
    requires forall i :: 0 <= i < |statements| ==> !DeclaresMain(statements[i]) && !ContainsReturn(statements[i])
    requires !DeclaresMain(e)
    ensures Rewire(VariableDeclarator(Identifier(MAIN_FUNCTION_NAME), Some(
        ArrowFunctionExpression(params, BlockStatement(statements + [ReturnStatement(Some(call))]), false))), Some(e), false)
      == (VariableDeclarator(Identifier(MAIN_FUNCTION_NAME), Some(
        ArrowFunctionExpression(params, BlockStatement([StepsDeclaration] + statements + [e, ReturnSteps]), false))), true)
  {
    var ss := statements + [ReturnStatement(Some(call))];
    var d := VariableDeclarator(Identifier(MAIN_FUNCTION_NAME), Some(ArrowFunctionExpression(params, BlockStatement(ss), false)));
    MainDeclaratorParts(params, ss, d);
    RewireSeqIdentity(params, Some(e), false, d);
    RewireMainStatements(statements, call, e, d);
    RewireOfMainDeclarator(d, params, ss, statements + [e], e);
    assert [StepsDeclaration] + (statements + [e]) + [ReturnSteps] == [StepsDeclaration] + statements + [e, ReturnSteps];
  }

  /** The parameters and statements of a main declarator lie below it. */
  lemma MainDeclaratorParts(params: seq<Node>, ss: seq<Node>, d: Node)
    requires d == VariableDeclarator(Identifier(MAIN_FUNCTION_NAME), Some(ArrowFunctionExpression(params, BlockStatement(ss), false)))
    ensures forall i :: 0 <= i < |params| ==> (d decreases to params[i])
    ensures forall i :: 0 <= i < |ss| ==> (d decreases to ss[i])
  {
    var f := d.init.value;
    assert Children(d)[1] == f;
    assert forall i :: 0 <= i < |params| ==> Children(f)[i] == params[i];
    assert Children(f)[|params|] == f.body;
  }

  /** The main declarator, walked: parameters unchanged and a `return` met in the body. */
  lemma RewireOfMainDeclarator(d: Node, params: seq<Node>, ss: seq<Node>, out: seq<Node>, e: Node)
    requires d == VariableDeclarator(Identifier(MAIN_FUNCTION_NAME), Some(ArrowFunctionExpression(params, BlockStatement(ss), false)))
    requires forall i :: 0 <= i < |params| ==> (d decreases to params[i])
    requires forall i :: 0 <= i < |ss| ==> (d decreases to ss[i])
    requires RewireSeq(params, Some(e), false, d) == (params, false)
    requires RewireSeq(ss, Some(e), false, d) == (out, true)
    ensures Rewire(d, Some(e), false) == (VariableDeclarator(Identifier(MAIN_FUNCTION_NAME), Some(
      ArrowFunctionExpression(params, BlockStatement([StepsDeclaration] + out + [ReturnSteps]), false))), true)
  {
  }

  /**
   * On an accepted program whose parameters and other statements hold no
   * `return` and no main declarator, the rewired program is exactly the
   * expected one, whatever the instrumented call is (short of declaring the
   * main function itself).
   */
  lemma RewireMainProgram(kind: string, params: seq<Node>, statements: seq<Node>, call: Node, e: Node)
    requires forall i :: 0 <= i < |params| ==> !DeclaresMain(params[i]) && !ContainsReturn(params[i])
    requires forall i :: 0 <= i < |statements| ==> !DeclaresMain(statements[i]) && !ContainsReturn(statements[i])
    requires !DeclaresMain(e)
    ensures Rewire(MainProgram(kind, params, statements, call), Some(e), false)
      == (RewiredMainProgram(kind, params, statements, e), true)
  {
    var d := VariableDeclarator(Identifier(MAIN_FUNCTION_NAME), Some(
      ArrowFunctionExpression(params, BlockStatement(statements + [ReturnStatement(Some(call))]), false)));
    var d' := VariableDeclarator(Identifier(MAIN_FUNCTION_NAME), Some(
      ArrowFunctionExpression(params, BlockStatement([StepsDeclaration] + statements + [e, ReturnSteps]), false)));
    RewireMainDeclarator(params, statements, call, e);
    var decl := VariableDeclaration(kind, [d]);
    RewireInSoleChild(decl, Some(e), d');
    RewireInSoleChild(Program([decl]), Some(e), VariableDeclaration(kind, [d']));
  }

  /** In a declaration or program with one child, the walk acts on that child. */
  lemma RewireInSoleChild(n: Node, x: Option<Node>, c: Node)
    requires n.VariableDeclaration? || n.Program?
    requires |Children(n)| == 1 && Rewire(Children(n)[0], x, false) == (c, true)
    ensures Rewire(n, x, false) == (RebuildList(n, [c]), true)
  {
    RewireInSingle(Children(n), x, n);
    assert Children(n)[..0] + [c] == [c];
  }

  // ---------------------------------------------------------------------------
  // The transformed program and its run.
  // ---------------------------------------------------------------------------

  /** The first argument, with a callback passed by name wrapped in an arrow function. */
  function CallbackOf(node: Node): (f: Node)
    requires node.CallExpression? && |node.arguments| > 0
    ensures IsFunctionLiteral(f) <==> node.arguments[0].Identifier? || IsFunctionLiteral(node.arguments[0])
  {
    if node.arguments[0].Identifier? then WrapIdentifierCallback(node.arguments[0].name) else node.arguments[0]
  }

  /**
   * The traced call with its first argument instrumented (a callback passed by
   * name is wrapped first); nothing when that argument is not a function, and
   * the `TypeError` of reading the `type` of a missing argument when there is none.
   */
  function InstrumentedCall(node: Node, parameters: seq<string>): (r: Attempt<Option<Node>>)
    requires node.CallExpression?
    ensures r.Thrown? <==> |node.arguments| == 0
    ensures r.Thrown? ==> r.message == ReadPropertyOfUndefined("type")
    ensures r.Ok? && r.value.None? <==>
      |node.arguments| > 0 && !node.arguments[0].Identifier? && !IsFunctionLiteral(node.arguments[0])
    ensures r.Ok? && r.value.Some? ==> r.value.value.CallExpression? && r.value.value.callee == node.callee
    ensures r.Ok? && r.value.Some? ==> |r.value.value.arguments| == |node.arguments|
    ensures r.Ok? && r.value.Some? ==> r.value.value.arguments[1..] == node.arguments[1..]
    ensures r.Ok? && r.value.Some? ==>
      Some(r.value.value.arguments[0]) == InstrumentCallback(CallbackOf(node), parameters)
  {
    if |node.arguments| == 0 then Thrown(ReadPropertyOfUndefined("type"))
    else
      match InstrumentCallback(CallbackOf(node), parameters)
      case None => Ok(None)
      case Some(f) =>
        var c := CallExpression(node.callee, [f] + node.arguments[1..]);
        assert c.arguments[1..] == node.arguments[1..];
        Ok(Some(c))
  }

  /**
   * The source text of the transformed program: the instrumented call is
   * printed and parsed back, and the program is rewired around it. Parse
   * errors are thrown on.
   */
  function GetTransformedCallback(env: Env, tree: Tree, node: Node, parameters: seq<string>): (r: Attempt<Option<string>>)
    requires node.CallExpression?
    ensures |node.arguments| == 0 ==> r == Thrown(ReadPropertyOfUndefined("type"))
    ensures InstrumentedCall(node, parameters) == Ok(None) ==> r == Ok(None)
    ensures r.Ok? && r.value.Some? ==> InstrumentedCall(node, parameters).Ok? && InstrumentedCall(node, parameters).value.Some?
  {
    match InstrumentedCall(node, parameters)
    case Thrown(m) => Thrown(m)
    case Ok(None) => Ok(None)
    case Ok(Some(c)) =>
      match GetFirstNodeFromSource(env, env.generate(c))
      case Thrown(m) => Thrown(m)
      case Ok(fragment) => Ok(Some(env.generate(Rewire(tree, ExpressionOf(fragment), false).0)))
  }

  /** The record parameters of each traced method; nothing for the others. */
  function StepParameters(methodName: string): (r: Option<seq<string>>)
    ensures r.Some? <==> methodName in {"filter", "map", "reduce"}
    ensures r.Some? ==> (r.value + ["output"] ==
      if methodName == "reduce" then ExecutionStepKeys(ReduceStep(Undefined, Undefined, 0, [], Undefined))
      else ExecutionStepKeys(FilterMapStep(Undefined, 0, [], Undefined)))
  {
    if methodName == "filter" || methodName == "map" then Some(FilterMapParameters)
    else if methodName == "reduce" then Some(ReduceParameters)
    else None
  }

  /**
   * The records of each callback invocation, as the transformed program run in
   * the sandbox returns them; nothing for other methods or a callback that is
   * not a function.
   */
  function GetStepByStepExecution(env: Env, tree: Tree, step: Step, node: Node): (r: Attempt<Option<Value>>)
    requires node.CallExpression?
    ensures step.methodName !in {"filter", "map", "reduce"} ==> r == Ok(None)
    ensures r.Ok? && r.value.Some? ==> exists source ::
      GetTransformedCallback(env, tree, node, StepParameters(step.methodName).value) == Ok(Some(source)) &&
      env.sandbox(SandboxProgram(source)) == Ok(r.value.value)
  {
    match StepParameters(step.methodName)
    case None => Ok(None)
    case Some(parameters) =>
      match GetTransformedCallback(env, tree, node, parameters)
      case Thrown(m) => Thrown(m)
      case Ok(None) => Ok(None)
      case Ok(Some(source)) =>
        match env.sandbox(SandboxProgram(source))
        case Thrown(m) => Thrown(m)
        case Ok(v) =>
          assert GetTransformedCallback(env, tree, node, parameters) == Ok(Some(source)) &&
            env.sandbox(SandboxProgram(source)) == Ok(v);
          Ok(Some(v))
  }

  /**
   * For any traced call `node` of an accepted program with root call `root`
   * (the root itself or an earlier call of its chain), and whatever single
   * expression `e` the parser reads back from the printed instrumented call,
   * tracing `node` runs exactly the program rewired around `e`.
   */
  lemma StepByStepOfMainProgram(env: Env, kind: string, params: seq<Node>, statements: seq<Node>, root: Node, node: Node, step: Step, c: Node, e: Node)
    requires forall i :: 0 <= i < |params| ==> !DeclaresMain(params[i]) && !ContainsReturn(params[i])
    requires forall i :: 0 <= i < |statements| ==> !DeclaresMain(statements[i]) && !ContainsReturn(statements[i])
    requires node.CallExpression? && step.methodName in {"filter", "map", "reduce"}
    requires InstrumentedCall(node, StepParameters(step.methodName).value) == Ok(Some(c))
    requires env.parse(env.generate(c)) == Ok(Program([ExpressionStatement(e)]))
    requires !DeclaresMain(e)
    ensures GetStepByStepExecution(env, MainProgram(kind, params, statements, root), step, node) ==
      match env.sandbox(SandboxProgram(env.generate(RewiredMainProgram(kind, params, statements, e))))
      case Thrown(m) => Thrown(m)
      case Ok(v) => Ok(Some(v))
  {
    TransformedMainProgram(env, kind, params, statements, root, node, StepParameters(step.methodName).value, c, e);
  }

  lemma TransformedMainProgram(env: Env, kind: string, params: seq<Node>, statements: seq<Node>, root: Node, node: Node, parameters: seq<string>, c: Node, e: Node)
    requires forall i :: 0 <= i < |params| ==> !DeclaresMain(params[i]) && !ContainsReturn(params[i])
    requires forall i :: 0 <= i < |statements| ==> !DeclaresMain(statements[i]) && !ContainsReturn(statements[i])
    requires node.CallExpression?
    requires InstrumentedCall(node, parameters) == Ok(Some(c))
    requires env.parse(env.generate(c)) == Ok(Program([ExpressionStatement(e)]))
    requires !DeclaresMain(e)
    ensures GetTransformedCallback(env, MainProgram(kind, params, statements, root), node, parameters)
      == Ok(Some(env.generate(RewiredMainProgram(kind, params, statements, e))))
  {
    assert GetFirstNodeFromSource(env, env.generate(c)) == Ok(Some(ExpressionStatement(e)));
    TransformedCallbackOf(env, MainProgram(kind, params, statements, root), node, parameters, c, e);
    RewireMainProgram(kind, params, statements, root, e);
  }

  /** When the printed instrumented call reads back as the expression `e`, the program is rewired around `e`. */
  lemma TransformedCallbackOf(env: Env, tree: Tree, node: Node, parameters: seq<string>, c: Node, e: Node)
    requires node.CallExpression?
    requires InstrumentedCall(node, parameters) == Ok(Some(c))
    requires GetFirstNodeFromSource(env, env.generate(c)) == Ok(Some(ExpressionStatement(e)))
    ensures GetTransformedCallback(env, tree, node, parameters) == Ok(Some(env.generate(Rewire(tree, Some(e), false).0)))
  {
    assert ExpressionOf(Some(ExpressionStatement(e))) == Some(e);
  }
}

=== FILE: strings.dfy ===
/** Plain string predicates used by the warning and hint texts. */
module Strings {

  /** `t` occurs in `s` starting at position `i`. */
  predicate OccursAt(t: string, s: string, i: int)
  {
    0 <= i && i + |t| <= |s| && s[i..i + |t|] == t
  }

  /** `t` occurs somewhere in `s` (JavaScript's `s.includes(t)`). */
  predicate IsInfix(t: string, s: string)
  {
    exists i :: 0 <= i <= |s| - |t| && OccursAt(t, s, i)
  }

  /** The characters a JavaScript regular expression `.` does not match. */
  predicate IsLineTerminator(c: char)
  {
    c == '\n' || c == '\r' || c == '\U{2028}' || c == '\U{2029}'
  }

  /** No character of `s` is a line terminator, so `.*` can match all of it. */
  predicate SingleLine(s: string)
  {
    forall k :: 0 <= k < |s| ==> !IsLineTerminator(s[k])
  }

  /** `a + t + b` contains `t`: the occurrence sits right after `a`. */
  lemma InfixOfConcat(a: string, t: string, b: string)
    ensures IsInfix(t, a + t + b)
  {
    var s := a + t + b;
    assert s[|a|..|a| + |t|] == t;
    assert OccursAt(t, s, |a|);
  }

  /** The parts joined with `sep` between neighbours (JavaScript's `parts.join(sep)`). */
  function Join(sep: string, parts: seq<string>): (r: string)
    ensures |parts| == 0 ==> r == ""
    ensures |parts| == 1 ==> r == parts[0]
  {
    if |parts| == 0 then ""
    else if |parts| == 1 then parts[0]
    else parts[0] + sep + Join(sep, parts[1..])
  }
}

=== FILE: types.dfy ===
/** The records the trace engine produces: steps, per-call records, hints and results. */
module Types {
  import opened Wrappers
  import opened Consts

  /**
   * A JavaScript value as the sandbox hands it back, limited to seven kinds
   * (a structured clone can also hold dates, maps, sets, regular expressions,
   * BigInts, non-finite numbers and cycles, which are not modelled). Numbers
   * are kept as integers: the engine only passes them on.
   */
  datatype Value =
    | Undefined
    | Null
    | Bool(b: bool)
    | Num(n: int)
    | Str(s: string)
    | Arr(items: seq<Value>)
    | Obj(entries: seq<(string, Value)>)

  /** JavaScript's `typeof` on a value: arrays and `null` are both "object". */
  function TypeOf(v: Value): (r: string)
    ensures r in {"undefined", "object", "boolean", "number", "string"}
    ensures r == "object" <==> v.Null? || v.Arr? || v.Obj?
  {
    match v
    case Undefined => "undefined"
    case Null => "object"
    case Bool(_) => "boolean"
    case Num(_) => "number"
    case Str(_) => "string"
    case Arr(_) => "object"
    case Obj(_) => "object"
  }

  /**
   * One traced call (`methodName` is the source's `method` field). The object is pushed before its fields are filled in, so a
   * field that was never assigned reads as `undefined` (`Undefined` for the two
   * values, `None` for the two optional lists).
   */
  datatype Step = Step(
    methodName: string,
    arguments: seq<string>,
    input: Value,
    output: Value,
    executionSteps: Option<Value>,
    warnings: Option<seq<string>>)

  /** The record one callback invocation leaves behind, in one of two shapes (`arr` is the `array` key). */
  datatype ExecutionStep =
    | FilterMapStep(input: Value, index: int, arr: seq<Value>, output: Value)
    | ReduceStep(accumulator: Value, current: Value, index: int, arr: seq<Value>, output: Value)

  /** The keys of a record of each shape, in declaration order. */
  function ExecutionStepKeys(e: ExecutionStep): seq<string>
  {
    match e
    case FilterMapStep(_, _, _, _) => ["input", "index", "array", "output"]
    case ReduceStep(_, _, _, _, _) => ["accumulator", "current", "index", "array", "output"]
  }

  /** A record as the plain object the instrumented callback builds. */
  function EncodeExecutionStep(e: ExecutionStep): (v: Value)
    ensures v.Obj?
    ensures |v.entries| == |ExecutionStepKeys(e)|
    ensures forall i :: 0 <= i < |v.entries| ==> v.entries[i].0 == ExecutionStepKeys(e)[i]
  {
    match e
    case FilterMapStep(x, i, a, o) =>
      Obj([("input", x), ("index", Num(i)), ("array", Arr(a)), ("output", o)])
    case ReduceStep(acc, cur, i, a, o) =>
      Obj([("accumulator", acc), ("current", cur), ("index", Num(i)), ("array", Arr(a)), ("output", o)])
  }

  /** The value stored under `key` in an object's entry list (the first such entry). */
  function Lookup(entries: seq<(string, Value)>, key: string): (r: Option<Value>)
    ensures r.Some? ==> exists i :: 0 <= i < |entries| && entries[i] == (key, r.value)
    ensures r.None? ==> forall i :: 0 <= i < |entries| ==> entries[i].0 != key
  {
    if |entries| == 0 then None
    else if entries[0].0 == key then Some(entries[0].1)
    else Lookup(entries[1..], key)
  }

  /**
   * Reads a record back from a plain object: an `accumulator` key marks the
   * reduce shape, an `input` key the filter/map shape.
   */
  function DecodeExecutionStep(v: Value): Option<ExecutionStep>
  {
    if !v.Obj? then None
    else
      var e := v.entries;
      var index, arr, output := Lookup(e, "index"), Lookup(e, "array"), Lookup(e, "output");
      if index.None? || !index.value.Num? || arr.None? || !arr.value.Arr? || output.None? then None
      else
        var acc, cur, input := Lookup(e, "accumulator"), Lookup(e, "current"), Lookup(e, "input");
        if acc.Some? && cur.Some? then
          Some(ReduceStep(acc.value, cur.value, index.value.n, arr.value.items, output.value))
        else if input.Some? then
          Some(FilterMapStep(input.value, index.value.n, arr.value.items, output.value))
        else None
  }

  /** The first entry under `key` decides the lookup. */
  lemma {:induction false} LookupFindsFirst(entries: seq<(string, Value)>, key: string, k: int)
    requires 0 <= k < |entries| && entries[k].0 == key
    requires forall j :: 0 <= j < k ==> entries[j].0 != key
    ensures Lookup(entries, key) == Some(entries[k].1)
  {
    if k > 0 {
      LookupFindsFirst(entries[1..], key, k - 1);
    }
  }

  lemma FilterMapRoundTrip(x: Value, i: int, a: seq<Value>, o: Value)
    ensures DecodeExecutionStep(EncodeExecutionStep(FilterMapStep(x, i, a, o))) == Some(FilterMapStep(x, i, a, o))
  {
    var es := EncodeExecutionStep(FilterMapStep(x, i, a, o)).entries;
    FilterMapLookups(es, x, i, a, o);
  }

  lemma FilterMapLookups(es: seq<(string, Value)>, x: Value, i: int, a: seq<Value>, o: Value)
    requires |es| == 4 && es[0] == ("input", x) && es[1] == ("index", Num(i))
    requires es[2] == ("array", Arr(a)) && es[3] == ("output", o)
    ensures Lookup(es, "input") == Some(x)
    ensures Lookup(es, "index") == Some(Num(i))
    ensures Lookup(es, "array") == Some(Arr(a))
    ensures Lookup(es, "output") == Some(o)
    ensures Lookup(es, "accumulator").None?
  {
    LookupFindsFirst(es, "input", 0);
    assert es[0].0[2] == 'p';
    LookupFindsFirst(es, "index", 1);
    assert es[0].0[0] == 'i' && es[1].0[0] == 'i';
    LookupFindsFirst(es, "array", 2);
    assert |es[0].0| == |es[1].0| == |es[2].0| == 5;
    LookupFindsFirst(es, "output", 3);
    assert |es[3].0| == 6;
  }

  lemma ReduceLookupsLeading(es: seq<(string, Value)>, acc: Value, cur: Value, i: int)
    requires |es| == 5 && es[0] == ("accumulator", acc) && es[1] == ("current", cur) && es[2] == ("index", Num(i))
    ensures Lookup(es, "accumulator") == Some(acc)
    ensures Lookup(es, "current") == Some(cur)
    ensures Lookup(es, "index") == Some(Num(i))
  {
    assert es[1].0[0] == 'c';
    LookupFindsFirst(es, "accumulator", 0);
    LookupFindsFirst(es, "current", 1);
    assert es[0].0[0] == 'a' && es[2].0[0] == 'i';
    LookupFindsFirst(es, "index", 2);
  }

  lemma ReduceLookupsTrailing(es: seq<(string, Value)>, a: seq<Value>, o: Value)
    requires |es| == 5 && es[0].0 == "accumulator" && es[1].0 == "current" && es[2].0 == "index"
    requires es[3] == ("array", Arr(a)) && es[4] == ("output", o)
    ensures Lookup(es, "array") == Some(Arr(a))
    ensures Lookup(es, "output") == Some(o)
  {
    assert es[1].0[0] == 'c' && es[2].0[0] == 'i' && |es[0].0| != |es[3].0|;
    LookupFindsFirst(es, "array", 3);
    assert es[4].0[0] == 'o' && es[3].0[0] == 'a' && es[0].0[0] == 'a';
    LookupFindsFirst(es, "output", 4);
  }

  lemma ReduceRoundTrip(acc: Value, cur: Value, i: int, a: seq<Value>, o: Value)
    ensures DecodeExecutionStep(EncodeExecutionStep(ReduceStep(acc, cur, i, a, o))) == Some(ReduceStep(acc, cur, i, a, o))
  {
    var es := EncodeExecutionStep(ReduceStep(acc, cur, i, a, o)).entries;
    ReduceLookupsLeading(es, acc, cur, i);
    ReduceLookupsTrailing(es, a, o);
  }

  /** Reading back a record the instrumented callback built gives the same record. */
  lemma ExecutionStepRoundTrip(e: ExecutionStep)
    ensures DecodeExecutionStep(EncodeExecutionStep(e)) == Some(e)
  {
    match e
    case FilterMapStep(x, i, a, o) => FilterMapRoundTrip(x, i, a, o);
    case ReduceStep(acc, cur, i, a, o) => ReduceRoundTrip(acc, cur, i, a, o);
  }

  /** A before/after pair of code snippets. */
  datatype Example = Example(bad: string, good: string)

  /** An explanation of a runtime error with examples. */
  datatype ResultErrorHint = ResultErrorHint(message: string, examples: seq<Example>)

  /** A runtime error message and the hint found for it, if any. */
  datatype ResultError = ResultError(message: string, hint: Option<ResultErrorHint>)

  /** The outcome of one trace request: the steps so far, whether it got through, and the error. */
  datatype Result = Result(steps: seq<Step>, success: bool, error: Option<ResultError>)

  /** The fatal error of the validator: its message is the failed check's message. */
  datatype ValidationError = ValidationError(kind: InvalidCode)
  {
    function Name(): string { "ValidationError" }
    function Message(): string { InvalidCodeMessage(kind) }
  }
}

=== FILE: warnings.dfy ===
/** The warnings attached to a traced call: mutation, and `sort` without a comparator. */
module Warnings {
  import opened Types
  import opened Consts

  const MUTATION_PREFIX: string := "Method `"
  const MUTATION_SUFFIX: string :=
    "` will mutate its input. Mutations are often problematic and can lead to confusion."

  /** The warning for a method that changes the array it is called on. */
  function MutationWarning(methodName: string): (w: string)
    ensures |w| == |MUTATION_PREFIX| + |methodName| + |MUTATION_SUFFIX|
  {
    MUTATION_PREFIX + methodName + MUTATION_SUFFIX
  }

  /** The method a mutation warning names: the text between the two fixed parts. */
  function WarnedMethod(w: string): string
    requires |w| >= |MUTATION_PREFIX| + |MUTATION_SUFFIX|
  {
    w[|MUTATION_PREFIX|..|w| - |MUTATION_SUFFIX|]
  }

  /** The warning names the method it is about. */
  lemma WarnedMethodRoundTrip(methodName: string)
    ensures WarnedMethod(MutationWarning(methodName)) == methodName
  {
    var w := MutationWarning(methodName);
    assert w[|MUTATION_PREFIX|..|MUTATION_PREFIX| + |methodName|] == methodName;
  }

  /**
   * The warning for `sort()` with no comparison function (its wording kept as
   * the program has it). The opening word is a separate literal so that the
   * verifier sees the first character, which sets it apart from the mutation
   * warning.
   */
  const SORT_WARNING: string :=
    "When " +
    "no comparison function is not supplied, the array will be sorted by converting every non-undefined element to string and then comparing them. This will be a problem if you are trying to sort an array of numbers, for example."

  /** No mutation warning is the sort warning: the sort warning does not start with the mutation prefix. */
  lemma SortWarningIsNoMutationWarning(methodName: string)
    ensures SORT_WARNING != MutationWarning(methodName)
  {
    assert SORT_WARNING[0] == 'W';
    assert MutationWarning(methodName)[0] == 'M';
  }

  /**
   * The warnings for a step: the mutation warning when the method mutates its
   * input, then the sort warning for `sort` without arguments.
   */
  function GetWarnings(step: Step): (ws: seq<string>)
    ensures |ws| <= 2
    ensures |ws| > 0 <==> step.methodName in MUTATING_METHODS
    ensures step.methodName in MUTATING_METHODS ==> ws[0] == MutationWarning(step.methodName)
    ensures SORT_WARNING in ws <==> step.methodName == "sort" && |step.arguments| == 0
    ensures |ws| == 2 <==> step.methodName == "sort" && |step.arguments| == 0
  {
    var mutation := if step.methodName in MUTATING_METHODS then [MutationWarning(step.methodName)] else [];
    var sorting := if step.methodName == "sort" && |step.arguments| == 0 then [SORT_WARNING] else [];
    SortWarningIsNoMutationWarning(step.methodName);
    mutation + sorting
  }

  /** A static `Object` method never gets a warning: none of them mutates its input. */
  lemma ObjectMethodsHaveNoWarnings(step: Step)
    requires step.methodName in OBJECT_METHODS
    ensures GetWarnings(step) == []
  {
  }
}

=== FILE: wrappers.dfy ===
/** Failure-carrying datatypes shared by the whole model. */
module Wrappers {

  /** An optional value: JavaScript's `undefined`/`null` versus a present value. */
  datatype Option<+T> = None | Some(value: T)

  /** The outcome of a step that may throw: its value, or the message of the thrown `Error`. */
  datatype Attempt<+T> = Ok(value: T) | Thrown(message: string)

  /** The value of `o`, or `default` when there is none. */
  function GetOr<T>(o: Option<T>, default: T): (r: T)
    ensures o.Some? ==> r == o.value
    ensures o.None? ==> r == default
  {
    match o
    case Some(v) => v
    case None => default
  }

  /** The last element of `s`, as JavaScript's `s[s.length - 1]` reads it. */
  function Last<T>(s: seq<T>): (r: Option<T>)
    ensures r.None? <==> |s| == 0
    ensures r.Some? ==> r.value == s[|s| - 1]
  {
    if |s| == 0 then None else Some(s[|s| - 1])
  }
}
